=== FILE: README.md ===
# monitaur core in Dafny

A model of the monitaur monitoring system's live link and the logic around it:

- the collector's agent registry. This covers token gating, registration, message dispatch, the metric and alert record mapping, the coarse status rule, unregistering, the stale sweep, the bounded outbound queue and the writer step.
- the agent's transport client. This covers connect, send, close, the heartbeat step, the capped linear backoff with its exact retry schedule, and the listener's dispatch.
- the agent's metric producer and one tick of its main loop, together with configuration loading and its defaults.
- the REST and dashboard handlers over an in-memory relational store. The store's queries do exactly what the `WHERE` / `ORDER BY` / `LIMIT` clauses of the Postgres layer say.
- Bearer-header parsing in the authentication middleware.

Everything is an immutable value. Each operation is a pure function or a method with loops, from the state (plus the request or event) to the next state and the reply. The following are parameters, never effects:

- time, as integer nanoseconds;
- sampler readings and DNS lookups;
- dial and write outcomes, and database faults;
- the token verifier and the formatting of alert messages.

Percentages are `real` and are only compared or averaged. Go's int64 wrap-around and truncating division are written out where the code relies on them.

Modules: `Wrappers`, `Numeric`, `Numerals` (Go's `strconv` and `fmt` `%d` scanning), `Query`, `Models`, `Store`, `Wire`, `Registry`, `AgentClient`, `Producer`, `AgentConfig`, `AgentMain`, `Auth`, `Api`, `Dashboard`.

Two behaviours of the code worth noting:

- Registering a second connection for a server does not close the first one. The older connection keeps its queue and transport, and only the registry entry moves.
- An envelope that cannot be decoded ends the collector's reader loop and unregisters the server. It is not skipped.

## Model

| member | source | states |
|---|---|---|
| Registry.Accept | backend/handlers/websocket.go:59-117 | An empty token gives 400, a lookup fault 500 and an unknown token 401, each with no change at all. For a known token a declared name that differs from the stored one is saved first. A failed upgrade keeps that save and changes nothing else. A successful upgrade stores a fresh connection under the server's key, replacing any previous entry, advances the connection counter and writes last seen and online over the renamed store. The session carries the request's name if one was given, else the stored name. |
| Registry.AcceptSavesName | backend/handlers/websocket.go:84-94 | Unless the request is rejected, a declared name is what the server's row holds afterwards, even when the upgrade fails. |
| Registry.IsAgentConnected | backend/handlers/websocket.go:644-650 | A server is reported connected exactly when its key is in the registry. Under the registry invariant the entry names a session of that server. |
| Registry.AcceptValid | backend/handlers/websocket.go:97-110 | Registration keeps the registry invariant: each key maps to one live session of that server with an open queue of at most 256 items. |
| Registry.AcceptSupersedes | backend/handlers/websocket.go:97-110 | A second registration for a server takes over its entry and leaves the older session untouched. The new session's last ping is the registration time, and the stored status becomes online. |
| Registry.GetConnectedAgents | backend/handlers/websocket.go:632-650 | The result lists exactly the registered server keys, each once. |
| Registry.MetricsStatus | backend/handlers/websocket.go:240-245 | Warning exactly when cpu > 90, memory > 95 or disk > 95 (all strict), otherwise online. |
| Registry.MetricRecord | backend/handlers/websocket.go:211-232 | The stored row belongs to the connection's server. Reading the row back gives the sample itself, except that the server name is empty and the packet counters are zero, since the row has no columns for them. |
| Registry.HandleMetrics | backend/handlers/websocket.go:189-249 | An undecodable payload or a failed save leaves the store unchanged. Otherwise exactly one metric row is appended and the server's status is set by the status rule. No other server, alert or user changes. |
| Registry.HandleAlert | backend/handlers/websocket.go:252-294 | An alert row is appended with `resolved` false, the created time and the decoded fields. A notification is produced exactly when the payload decodes and the save succeeds. |
| Registry.Receive | backend/handlers/websocket.go:120-157 | Handling a message never touches the registry or the sessions, so a message does not refresh the last ping. A metrics message is stored by the metrics handler and an alert message by the alert handler, and any other type stores nothing. In every case the server's last-seen write follows. Only an alert message whose save succeeds notifies. |
| Registry.ReceiveMarksOnline | backend/handlers/websocket.go:145-155 | After any message, whatever its type, the server's last-seen time is now and its status is online. |
| Registry.WarningOverwritten | backend/handlers/websocket.go:145-245 | A metric over the cpu threshold sets the status to warning in the metrics handler. Receiving the same message as a whole then leaves the server online, because the last-seen write follows. |
| Registry.ReceiveValid | backend/handlers/websocket.go:120-157 | Message handling keeps the registry invariant. |
| Registry.Pong | backend/handlers/websocket.go:128-132 | A pong refreshes that session's last ping and changes nothing else. |
| Registry.Unregister | backend/handlers/websocket.go:557-570 | If the server's key is registered, the key is removed, the exiting connection's queue is closed and the server is marked offline. Otherwise nothing changes. |
| Registry.UnregisterIdempotent | backend/handlers/websocket.go:557-570 | A second unregister of the same connection changes nothing. |
| Registry.ReaderExit | backend/handlers/websocket.go:121-124 | When a reader ends, its transport closes and its server is no longer reported connected. |
| Registry.ReaderExitValid | backend/handlers/websocket.go:121-124 | Reader exit keeps the registry invariant. |
| Registry.UnregisterDropsSuccessor | backend/handlers/websocket.go:561-563 | When a superseded connection exits, it removes the successor's entry while the successor's session stays open. |
| Registry.SupersededExitScenario | backend/handlers/websocket.go:561-563 | A concrete run: two registrations for server 1, then the first reader exits, and server 1 is reported disconnected with a live session. |
| Registry.UnregisterOwn | backend/handlers/websocket.go:557-570 | The corrected unregister removes an entry only if it belongs to the exiting connection, and it agrees with the original when it does. |
| Registry.ReaderExitOwn | backend/handlers/websocket.go:121-124 | With the corrected unregister a reader's exit still closes its own transport and keeps every session. |
| Registry.ReaderExitOwnKeepsSuccessor | backend/handlers/websocket.go:557-570 | With the correction, a reader's exit disconnects exactly the servers it owned and keeps every other entry and session. |
| Registry.SupersededExitScenarioOwn | backend/handlers/websocket.go:561-563 | With the correction, the same concrete run leaves server 1 connected. |
| Registry.WriterStepOf | backend/handlers/websocket.go:160-186 | A tick sends a ping. A ready item is sent first in, first out. A drained closed queue sends a close frame and stops. Any write error stops the writer. |
| Registry.WriterStepValid | backend/handlers/websocket.go:160-186 | The writer step keeps the registry invariant. |
| Registry.MarkOffline | backend/handlers/websocket.go:594-596 | Exactly the servers in the set become offline, and no other row or field changes. |
| Registry.Sweep | backend/handlers/websocket.go:586-599 | The sweep removes exactly the entries whose last ping is more than two minutes old and marks exactly those servers offline. It closes exactly the transports of the removed entries. Every other field of every session, the kept entries, the other server rows and the metric, alert and user tables are untouched. |
| Registry.SweepValid | backend/handlers/websocket.go:586-599 | The sweep keeps the registry invariant. |
| Registry.SweepIdempotent | backend/handlers/websocket.go:586-599 | Sweeping twice at the same instant is the same as sweeping once. |
| Registry.SendToAgent | backend/handlers/websocket.go:602-629 | An unregistered server gives "not connected" and a full 256-slot queue gives "not responding", each with no change. A registered server whose queue has room is always sent to: the message is appended to that queue and nothing else changes. |
| Wire.DecodeMetrics | backend/handlers/websocket.go:190-208 | A metrics object decodes to itself. An alert-shaped object decodes to an all-zero sample keeping only the timestamp. Anything else fails. |
| Wire.DecodeAlert | backend/handlers/websocket.go:253-271 | An alert object decodes to itself. A metrics-shaped object decodes to an all-zero alert keeping only the timestamp. Anything else fails. |
| AgentClient.NewClient | agent/client/websocket.go:32-40 | A new client is disconnected, has zero attempts, a 5 s interval and a 60 s cap. |
| AgentClient.DialUrl | agent/client/websocket.go:48-52 | The dial URL carries exactly the client's token and server name as query values and keeps every other query key. |
| AgentClient.Connect | agent/client/websocket.go:42-72 | Connect succeeds exactly when the endpoint parses and the dial succeeds. Success sets the connection and resets the attempts to zero. A failure leaves the client unchanged and reports a refused dial's status. |
| AgentClient.Send | agent/client/websocket.go:74-104 | A disconnected client gets "not connected". Otherwise the envelope carries the kind, the client's token and name, the data and the time. |
| AgentClient.SendMetrics | agent/client/websocket.go:74-88 | A sent metrics envelope decodes back to the sample. It fails exactly when disconnected or when the write fails. |
| AgentClient.SendAlert | agent/client/websocket.go:90-104 | A sent alert envelope decodes back to the alert. It fails exactly when disconnected or when the write fails. |
| AgentClient.Close | agent/client/websocket.go:106-116 | Close on a disconnected client does nothing and reports no error. Otherwise it writes one close frame, whose result is ignored, and reports the socket close's own result. |
| AgentClient.DefaultSchedule | agent/client/websocket.go:143-146 | With the defaults the delay after n losses is n × 5 s up to 12 losses and 60 s from then on. |
| AgentClient.DelayCapped | agent/client/websocket.go:143-146 | The delay never exceeds the cap. |
| AgentClient.DelayExact | agent/client/websocket.go:143-146 | While the attempt count times the interval fits in int64 and stays under the cap, the delay is exactly that product. |
| AgentClient.DelayMonotone | agent/client/websocket.go:143-146 | Until the product overflows int64, the delay never decreases as losses accumulate. |
| AgentClient.Disconnect | agent/client/websocket.go:136-146 | A disconnection clears the connection and increments the attempts by exactly one before the delay is computed from the new count. |
| AgentClient.Reconnect | agent/client/websocket.go:136-159 | The run ends connected with zero attempts, or it exhausts the dial outcomes with the attempts raised by one for the loss and one more per failed try. Token, name, endpoint and backoff settings are kept. |
| AgentClient.ReconnectGaps | agent/client/websocket.go:146-155 | The first dial comes one sleep after the loss. The gap between try k and try k+1 is the sleep of round k's delay plus the sleep of round k+1's delay. A zero or negative (wrapped) delay sleeps not at all, so no try comes before the loss or before the try preceding it. |
| AgentClient.ReconnectDelays | agent/client/websocket.go:139-155 | Round k's delay is the backoff computed for k+1 losses beyond the starting count. |
| AgentClient.ReconnectStopsAtFirstSuccess | agent/client/websocket.go:148-158 | Every try before the last was refused. The run is connected exactly when the last try dialled, and a run that never connects uses every outcome. |
| AgentClient.OnLoopFailure | agent/client/websocket.go:130-159 | The failing loop exits and a successful reconnect starts one more heartbeat, so the running loops are the old ones minus the failed one plus a heartbeat exactly when connected. A connected client has zero attempts, and a run that never connects leaves more attempts than before. |
| AgentClient.ListenerNeverRestarted | agent/client/websocket.go:156-158 | After a loop failure and reconnect, the listeners running are those before minus one if the listener failed: no listener is ever started. Heartbeats lose the failed one and gain one on a successful reconnect, so a connected client always has a heartbeat. |
| AgentClient.ReconnectAfterReadError | agent/client/websocket.go:156-158 | A read error followed by a successful dial leaves a connected client with zero attempts, two heartbeats running (the surviving one and the new one) and no listener. |
| AgentClient.ReconnectAfterPingError | agent/client/websocket.go:130-158 | A ping error followed by a successful dial leaves a connected client with one heartbeat and one listener loop: the new heartbeat replaces the old. The listener still reads the dropped socket, not the new one. |
| AgentClient.StaleReadDropsNewConnection | agent/client/websocket.go:136-178 | After that reconnect, the listener's read of the old socket fails and hands off to the disconnection handler, which drops the connection just made. However the second reconnect ends, no listener is left: two heartbeats run if it succeeds and one if it does not. |
| AgentClient.HeartbeatTick | agent/client/websocket.go:118-134 | A tick is skipped exactly when disconnected, and the ping fails exactly when connected and the write fails. |
| AgentClient.ListenStep | agent/client/websocket.go:166-195 | A read error hands off to reconnection. A message without a string "type" is skipped. Other types are dispatched by name. |
| AgentClient.Listen | agent/client/websocket.go:166-195 | Listening processes the stream in order and stops right after the first hand-off. A disconnected client reads nothing. |
| Producer.UptimeSeconds | agent/metrics/collector.go:66 | The uptime is the whole number of seconds since the collector was created, truncated. |
| Producer.NewCollector | agent/metrics/collector.go:55-60 | A new collector carries the configured server name and the creation time as its start. |
| Producer.CollectMetrics | agent/metrics/collector.go:62-118 | A sample is produced exactly when every sampler succeeds, and it carries the first cpu reading, the readings verbatim, the first network counter (or all zero), the configured name and the uptime. |
| Producer.CheckAlerts | agent/metrics/collector.go:121-158 | At most three alerts, each at level warning with the sample's timestamp. |
| Producer.Exceeded | agent/metrics/collector.go:124-146 | A family is listed exactly when its reading strictly exceeds its threshold. |
| Producer.CheckAlertsExact | agent/metrics/collector.go:121-158 | The alerts are one per exceeded family in cpu, memory, disk order, each carrying the observed value and the configured threshold. |
| Producer.CheckAlertsIff | agent/metrics/collector.go:124-146 | There is an alert of a family's kind exactly when its reading strictly exceeds its threshold. |
| Producer.AtThresholdNoAlert | agent/metrics/collector.go:124-146 | Readings equal to their thresholds raise no alert. |
| AgentConfig.GetHostname | agent/config/config.go:64-70 | The host name, or "unknown" when the lookup fails. |
| AgentConfig.LoadConfig | agent/config/config.go:25-62 | A missing, unreadable or malformed file, or an empty token, gives the matching error. Otherwise the loaded values apply over the defaults, and an empty server name is replaced by the host name. |
| AgentConfig.SampleMatchesDefaults | agent/config/config.go:33-92 | A file holding only a token loads to the sample configuration with that token. |
| AgentConfig.SampleRoundTrip | agent/config/config.go:73-92 | The sample configuration written out and loaded back is the same configuration, whatever the host name lookup returned. |
| AgentConfig.CreateSampleConfig | agent/config/config.go:73-92 | The sample configuration carries the placeholder token and the host name, or "unknown" when the lookup fails, as server name. |
| AgentMain.StartupAction | agent/main.go:30-64 | `-version` wins over `-help`, which wins over `-init`. Only with none of them does the agent run. |
| AgentMain.Start | agent/main.go:67-103 | Start succeeds exactly when the configuration loads, the first connect succeeds and the tick period is positive. A non-positive period after a successful connect is the ticker's panic. On success the client and collector carry the configured token, name and endpoint, and one heartbeat and one listener run. |
| AgentMain.TickPeriod | agent/main.go:98 | The tick period lies in int64. It is exactly the interval in seconds when that fits, and it is not positive for a non-positive interval. |
| AgentMain.TickPeriodWraps | agent/main.go:98 | An interval one second past the int64 range wraps to a negative period, which panics the ticker. The largest interval that fits gives its exact period. |
| AgentMain.ThresholdsOf | agent/main.go:121-125 | The alert thresholds are exactly the configured ones. |
| AgentMain.SendAlerts | agent/main.go:125-135 | Each alert is sent as an alert envelope in order. While connected, the result is the envelopes of exactly the alerts picked by their successful writes. All of them go out when every write succeeds, and none when disconnected. |
| AgentMain.SucceededWritesExact | agent/main.go:126-133 | The successful writes of a batch are listed once each, in increasing order, and no failed write is listed. |
| AgentMain.SendAlertsDelivered | agent/main.go:126-133 | While connected, the m-th envelope sent is the alert written by the m-th successful write, and there is one envelope per successful write. |
| AgentMain.FailedWriteSkipsOnlyItsAlert | agent/main.go:126-133 | A failed write loses only its own alert: every alert whose write succeeds is sent, whatever happened to the writes before it. |
| AgentMain.Tick | agent/main.go:105-141 | A failed collection sends nothing. A disconnected agent sends nothing. Otherwise the alerts are those of the collected sample under the configured thresholds, and everything after the first envelope is an alert. |
| AgentMain.TickSendsMetricsThenAlerts | agent/main.go:113-135 | When connected and every write succeeds, the tick sends the metrics envelope first and then one envelope per alert, in order. |
| AgentMain.MetricsFailureStillSendsAlerts | agent/main.go:113-135 | A failed metrics write does not stop the alerts being evaluated and sent. |
| Auth.JoinSplit | backend/auth/firebase.go:83-84 | Splitting on a separator and joining back gives the original header. |
| Auth.SplitCount | backend/auth/firebase.go:83-84 | Splitting gives one more piece than there are separators. |
| Auth.Split | backend/auth/firebase.go:83 | Splitting gives at least one piece, and no piece contains the separator. |
| Auth.ParseBearer | backend/auth/firebase.go:83-90 | A parsed token never contains a space, and an empty header has no token. |
| Auth.ParseBearerIff | backend/auth/firebase.go:83-90 | A header yields token t exactly when it is "Bearer", one space and a t with no space. The token may be empty. |
| Auth.AuthMiddleware | backend/auth/firebase.go:72-105 | The request continues exactly when the header parses and the verifier accepts the token, with the claims stored in the context. Otherwise it aborts with 401, and an empty header always does. |
| Auth.OptionalAuthMiddleware | backend/auth/firebase.go:108-133 | The request never aborts, and claims are stored exactly when the strict middleware would store them. |
| Auth.GetUserFromContext | backend/auth/firebase.go:136-151 | Claims are returned exactly when both the uid key and the email key are present. |
| Auth.ClaimsRoundTrip | backend/auth/firebase.go:101-151 | The claims stored by the middleware are the claims read back. |
| Auth.AuthenticatedRequest | backend/auth/firebase.go:72-151 | A well-formed header with a verified token yields those claims to the handler. |
| Store.GetUserByUid | backend/database/postgres.go:125-132 | A user with that uid, or "record not found" exactly when no user has it. |
| Store.GetServerById | backend/database/postgres.go:162-166 | A server with that key, or an error exactly when no server has it. |
| Store.SaveServerName | backend/handlers/websocket.go:84-87 | Only the matching row's name changes. |
| Store.CreateMetric | backend/database/postgres.go:202-204 | The metric is appended with the next key, and nothing else changes. |
| Store.CreateAlert | backend/database/postgres.go:226-228 | The alert is appended with the next key and the creation time, and nothing else changes. |
| Store.CreateRowsValid | backend/database/postgres.go:202-228 | Inserting a metric or an alert keeps the store's invariants. |
| Store.GetOrCreateUser | backend/database/postgres.go:134-155 | The existing user is returned unchanged. Otherwise exactly one user with that uid and email is appended. |
| Store.GetOrCreateUserIdempotent | backend/database/postgres.go:134-155 | A repeated call creates nothing and returns the same user. |
| Store.GetOrCreateUserValid | backend/database/postgres.go:134-155 | Creating a user keeps uids unique and keys increasing. |
| Store.GetServerByToken | backend/database/postgres.go:168-175 | Either the first server with the token, or "not found" exactly when no server has it. |
| Store.GetServerByTokenUnique | backend/database/postgres.go:168-175 | With unique tokens, the lookup returns the one server holding the token. |
| Store.GetUserServers | backend/database/postgres.go:177-187 | The result holds exactly the rows owned by the user, and it is an error exactly when the user is unknown. |
| Store.GetUserServersExact | backend/database/postgres.go:177-187 | Each owned row is listed exactly as many times as it is stored, and no other row is listed. |
| Store.GetUserServersInKeyOrder | backend/database/postgres.go:177-187 | On a store with increasing keys the listed rows come in increasing key order, so each appears once. |
| Store.CreateServer | backend/database/postgres.go:158-160 | A duplicate token is refused with no change. Otherwise one row with the next key is appended. |
| Store.UpdateServerLastSeen | backend/database/postgres.go:189-195 | Only the matching row changes, and it gets last seen now and status online. |
| Store.UpdateServerStatus | backend/database/postgres.go:197-199 | Only the matching row's status changes. |
| Store.GetServerMetrics | backend/database/postgres.go:206-212 | The result is exactly the server's rows with time at or after `since`, newest first. |
| Store.GetServerMetricsComplete | backend/database/postgres.go:206-212 | Every matching row is in the result. |
| Store.GetLatestMetrics | backend/database/postgres.go:214-223 | The result is a row of the server with the greatest time, or an error exactly when the server has none. |
| Store.GetServerAlerts | backend/database/postgres.go:230-238 | The server's alerts come newest first: min(limit, count) of them for a positive limit and all of them otherwise. They are a prefix of all the server's alerts in that order, and no alert left out is newer than one returned. |
| Store.GetUnresolvedAlerts | backend/database/postgres.go:240-246 | The result is exactly the server's unresolved alerts, newest first. |
| Store.ResolveAlert | backend/database/postgres.go:248-250 | Only the alert with that key becomes resolved, and nothing else changes. |
| Store.ResolveAlertIdempotent | backend/database/postgres.go:248-250 | Resolving twice is the same as resolving once. |
| Store.DeletionValid | backend/handlers/api.go:148-164 | Deleting a server's metrics, alerts and row keeps the store's invariants. |
| Query.TopDesc | backend/database/postgres.go:230-238 | `ORDER BY … DESC LIMIT` returns min(limit, count) rows for a positive limit and all rows otherwise. They are sorted, drawn from the table, a prefix of the full ordering, and no row left out ranks above a returned one. |
| Api.GetUserProfile | backend/handlers/api.go:32-46 | Absent claims give 401 with no change. Otherwise the answer is 200 with the caller's user, and the store and user are exactly what get-or-create gives: the existing row unchanged, or one new row with the claims' uid and email. |
| Api.WithLiveStatus | backend/handlers/api.go:63-68 | The status is online exactly when the agent is connected and offline otherwise, and no other field changes. |
| Api.GetUserServers | backend/handlers/api.go:49-71 | The caller's servers are listed with the stored status replaced by online exactly when connected and offline otherwise. Every other field is kept. An unknown user gives 500. |
| Api.CreateServer | backend/handlers/api.go:74-113 | A missing or empty name gives 400 with no change. Otherwise the caller's user row is created if missing, and it stays whether the insert answers 201 or 500. A created server is offline, owned by the caller's internal key, holds the fresh token and is the one row added. Creation succeeds exactly when the token is unused. |
| Api.CreatedServerReachable | backend/handlers/api.go:74-113 | A created server is exactly what an agent's token lookup then finds. |
| Api.DeleteServer | backend/handlers/api.go:116-167 | A bad id gives 400, an unknown user 500, a server the caller does not own 404, and a failing delete step 500. The answer is 200 exactly when the caller exists, owns the server and no delete step fails, and any other answer leaves the store unchanged. A 200 with a successful commit applies the cascade. |
| Api.CascadeExact | backend/handlers/api.go:148-164 | The cascade removes exactly the server's metrics, alerts and row, and keeps every other row. |
| Api.DeleteCommitFailureReportsSuccess | backend/handlers/api.go:163-166 | When the commit fails, the handler still answers 200 and nothing was deleted. |
| Api.DeleteServerChecked | backend/handlers/api.go:163-166 | With the commit checked, a 200 always means the cascade was applied and any other answer leaves the store unchanged. With a successful commit it answers as the original handler does. |
| Api.HoursParam | backend/handlers/api.go:202-206 | The hours value defaults to 24 and falls back to 24 when it does not parse or is below 1. There is no upper bound. |
| Api.GetServerMetrics | backend/handlers/api.go:170-220 | A bad id gives 400, an unknown user 500 and a server the caller does not own 404. The response is 200 exactly for an owned server. On 200 the body carries the stored server row with that id, owned by the caller's internal key. The metrics are the server's rows from the window start, computed with int64 wrap-around. |
| Api.SinceInRange | backend/handlers/api.go:208 | While the duration fits in int64, the window starts exactly `hours` hours back. |
| Api.Since | backend/handlers/api.go:208 | The window start is within int64 of now. While the duration fits in int64, it starts exactly `hours` hours back. |
| Api.HoursOverflowHidesMetrics | backend/handlers/api.go:202-208 | With 2562048 hours the window starts in the future, so no metrics are returned. |
| Api.OverflowHoursWraps | backend/handlers/api.go:208 | With 2562048 hours the computed window start lies after now. |
| Api.SinceExact | backend/handlers/api.go:208 | The corrected window start is at least an hour before now, and it agrees with the original whenever the duration fits in int64. |
| Api.GetServerMetricsExact | backend/handlers/api.go:170-220 | The corrected handler answers 200 exactly when the original does, with the same server row, and its window always starts before now. |
| Api.ExactKeepsRecentMetrics | backend/handlers/api.go:202-208 | With the window computed exactly, every metric from the last `hours` hours is returned. |
| Api.SinceExactMonotone | backend/handlers/api.go:202-208 | The exact window only grows with `hours` and always starts before now. |
| Api.LimitParam | backend/handlers/api.go:247-251 | The limit defaults to 50 and falls back to 50 when it does not parse or is below 1. |
| Api.GetServerAlerts | backend/handlers/api.go:223-263 | As written, ownership is checked against the uid read as an integer. A bad id gives 400, a non-numeric uid 500 and a server whose owner key is not that number 404. 200 is answered exactly for a server whose owner key equals that number, and the body carries that stored server row. |
| Api.UidAsUserId | backend/handlers/api.go:238 | The uid read as an integer is an int64 value. A uid that does not start with a digit or a sign gives an error, and one that reads at all has only digits after its first character. |
| Api.UidNumeralRead | backend/handlers/api.go:238 | A uid that is the decimal numeral of an int64 value reads as that value. |
| Api.ResolveAlert | backend/handlers/api.go:266-298 | As written, a bad id gives 400, a non-numeric uid 500, and an alert not joined to a server whose owner key equals the uid read as an integer 404. Otherwise the alert is resolved. Every answer but 200 leaves the store unchanged. |
| Api.UidOwnershipRejectsOwner | backend/handlers/api.go:237-283 | An owner whose uid begins with anything but a digit or a sign gets 500 from both alert handlers. |
| Api.GetServerAlertsOwn | backend/handlers/api.go:223-263 | With the correction, a bad id gives 400, an unknown user 500 and an unowned server 404. 200 is answered exactly for servers owned by the caller's internal key, with that stored server row and its limited alerts. |
| Api.ResolveAlertOwn | backend/handlers/api.go:266-298 | With the correction, a bad id gives 400, an unknown user 500 and an alert of another user's server 404. An alert is resolved exactly when its server is owned by the caller's internal key. |
| Api.OwnerReachesAlerts | backend/handlers/api.go:223-298 | With the correction, an owner can list and resolve their alerts. |
| Numerals.AtoiOfNumeral | backend/handlers/api.go:203 | `Atoi` reads canonical numerals and their negations back exactly. |
| Numerals.ParseUint32OfNumeral | backend/handlers/api.go:123 | The 32-bit id parser accepts exactly the numerals below 2^32 and refuses a sign. |
| Numerals.ScanDecimalOfNumeral | backend/handlers/dashboard.go:278-297 | `%d` scanning reads a numeral back whatever non-digit text follows it. |
| Numerals.Atoi | backend/handlers/api.go:203 | A parsed value lies in int64 and is negative only after a leading minus sign. Text starting with anything but a digit or a sign is refused. |
| Numerals.ParseUint32 | backend/handlers/api.go:123 | An accepted id is all digits and at most 2^32 - 1. Text starting with a non-digit is refused. |
| Numerals.ScanDecimal | backend/handlers/dashboard.go:278-297 | A scanned value fits in 64 bits: unsigned for the id and signed for the hours. |
| Dashboard.ParseServerId | backend/handlers/dashboard.go:278-286 | The id is the scanned value, or 0 together with an error flag. |
| Dashboard.ParseServerIdOfNumeral | backend/handlers/dashboard.go:278-286 | A server key followed by non-digit text reads back as that key. |
| Dashboard.ParseHours | backend/handlers/dashboard.go:288-297 | The result is always in [1, 168]. A failed scan or a value below 1 gives 24, and above 168 gives 168. |
| Dashboard.ParseHoursStable | backend/handlers/dashboard.go:288-297 | Every value the parser produces reads back as itself. |
| Dashboard.WindowStart | backend/handlers/dashboard.go:191-192 | For parsed hours the window starts exactly `hours` hours before now, with no wrap-around. |
| Dashboard.ColumnStatistics | backend/handlers/dashboard.go:319-350 | The average is the sum over the count. Every reading lies within [min, max], and min and max are readings or their starting values of 100 and 0. |
| Dashboard.CalculateMetricsStatistics | backend/handlers/dashboard.go:314-370 | An empty series gives no statistics. Otherwise cpu, memory and disk are each summarised as above. |
| Dashboard.StatisticsAttained | backend/handlers/dashboard.go:319-350 | For readings within [0, 100], min and max are readings of the series. |
| Dashboard.ChartPointOf | backend/handlers/dashboard.go:375-394 | The chosen field depends on the type, and an unknown type gives all three percentages. The timestamp is always kept. |
| Dashboard.FormatChartData | backend/handlers/dashboard.go:372-400 | One point per metric, at the same position. |
| Dashboard.ChartKeepsOrder | backend/handlers/dashboard.go:372-400 | A newest-first series is charted newest first. |
| Dashboard.SummaryOf | backend/handlers/dashboard.go:91-135 | A server's summary is connected exactly when its agent is registered. It has latest metrics exactly when it is connected and has a metric, and it holds exactly its unresolved alerts. |
| Dashboard.CountCritical | backend/handlers/dashboard.go:130-134 | The count is the number of alerts at level exactly "critical". |
| Dashboard.SummarizeServers | backend/handlers/dashboard.go:91-138 | The loop's counters and totals equal the reference counts and sums over the server summaries. |
| Dashboard.RecentAlerts | backend/handlers/dashboard.go:156-164 | The ten newest alerts of the user's servers from the last 24 hours, or all of them when there are fewer: min(10, count) rows, newest first, a prefix of the full ordering, with no left-out alert newer than a returned one. |
| Dashboard.GetDashboardData | backend/handlers/dashboard.go:57-167 | Total, online and offline counts are consistent with each other, and warning and critical counts are the reference counts. Health is zero with no metrics and the averages otherwise, with uptime truncated. Recent alerts are empty when the query fails. |
| Dashboard.LatestSumBounds | backend/handlers/dashboard.go:141-148 | For percentages in [0, 100], each column's total lies between 0 and 100 times the number of servers with metrics, so the averages stay in [0, 100]. |
| Dashboard.OverviewWarningsOnline | backend/handlers/dashboard.go:105-120 | The warning count never exceeds the online count. |
| Dashboard.ValidateServerOwnership | backend/handlers/dashboard.go:299-312 | A server is found exactly when the user exists and owns a server with that key. |
| Dashboard.GetServerDashboard | backend/handlers/dashboard.go:170-229 | A bad id gives 400 and an unowned server 404. Otherwise the server view copies the owned row's key, name, status and last seen, with the live connection flag, and the reply holds the window's metrics, the last 50 alerts and their statistics, with hours in [1, 168]. |
| Dashboard.GetMetricsChart | backend/handlers/dashboard.go:232-274 | A bad id gives 400, and a server the caller does not own gives 404. Otherwise there is one chart point per metric of the window, in order, over hours in [1, 168]. |
| Dashboard.ChartNewestFirst | backend/handlers/dashboard.go:253-264 | Chart points come newest first. |

## Left out

- Goroutines and locks are not modelled, and of the ticker only its period is. The reader, writer, sweep and reconnect loops are sequential step functions over an explicit event or outcome sequence. The race between reading the registry and sending in `SendMessageToAgent` is out of scope.
- WebSocket framing, the HTTP upgrade, deadlines and JSON encoding are not modelled. A payload is a structured value; the upgrade and each write are boolean outcomes.
- Email notification (`sendEmailAlert`, `sendEmail`, `getAlertRecipients` and the body builders) is left out as network I/O and templating. The model only records that a notification is due.
- Generic database faults are not modelled, except where the code branches on them: the token lookup, the metric and alert saves, the delete transaction's steps and commit, and the unique-token violation. `GetOrCreateUser` and the read queries always succeed.
- The Firebase verifier is a function parameter. Host sampling (cpu, memory, disk, network) is an input record. DNS lookup is an optional string.
- Floating-point arithmetic is modelled with `real`. IEEE rounding, `%.1f` alert text and JSON precision above 2^53 are not modelled; alert messages come from a formatter parameter.
- Producer.CollectMetrics: a cpu sampler that returns an empty list makes the source panic. The model reports that case as an `EmptyCpuReading` error.
- Dashboard.GetDashboardData: the uptime total is summed without int64 wrap-around.
- Api.HoursParam: the model reads the query value with Go's `Atoi`.
- Api.GetServerAlerts / Api.ResolveAlert: the uid is read as an integer with Go's `Atoi` rules. Postgres's integer input also accepts surrounding white space, which the model does not.
- The clock does not advance within a single agent tick or handler call.
- Dashboard.SummaryOf: each summary refers to its own server row. This holds for the loop at backend/handlers/dashboard.go:91-93 only under Go 1.22 or later, where `&server` takes a fresh variable per iteration; with older Go every summary would alias the last server.
- Only one disconnection handler runs at a time. The source can run two at once (heartbeat and listener); that interleaving is not modelled.
- Router wiring, server start-up, the backend's configuration loading, database migrations and the health check are not modelled.

## Findings

| source | as written | input that shows it | evidently intended | confidence | as-written member | corrected member |
|---|---|---|---|---|---|---|
| backend/handlers/websocket.go:561-563 | unregister deletes the entry for the server's key even when a newer connection owns it | an agent reconnects, then the old connection's reader exits | remove the entry only when it still belongs to the exiting connection | high, not executed | Registry.SupersededExitScenario | Registry.ReaderExitOwnKeepsSuccessor |
| backend/handlers/api.go:238 | ownership of a server's alerts is checked with `user_id = <Firebase uid>` | an owner whose uid is "abc123" (any uid starting with a letter) | compare with the caller's internal user key, as the other handlers do | medium, not executed | Api.UidOwnershipRejectsOwner | Api.OwnerReachesAlerts |
| backend/handlers/api.go:202-208 | `hours` has no upper bound, and `-Duration(hours) * Hour` wraps around int64 | `?hours=2562048` | the window starts `hours` hours before now | high, not executed | Api.HoursOverflowHidesMetrics | Api.ExactKeepsRecentMetrics |
| backend/handlers/api.go:163-166 | the result of the transaction's commit is ignored | the commit fails after the three deletes succeed | report the failure instead of 200 | medium, not executed | Api.DeleteCommitFailureReportsSuccess | Api.DeleteServerChecked |

=== FILE: agentconfig.dfy ===
/** The agent's configuration: defaults, the checks made after the file is read, and the
    sample file written by `-init`. Reading the file is abstract: the model receives what
    the file held, key by key, or why it could not be read. */
module AgentConfig {
  import opened Wrappers
  import opened Producer

  const DefaultEndpoint: string := "ws://localhost:8080/agent/connect"
  const DefaultInterval: int := 5
  const DefaultThresholds: Thresholds := Thresholds(80.0, 85.0, 90.0)
  const SampleToken: string := "your-server-token-here"
  const UnknownHost: string := "unknown"

  datatype Config = Config(
    token: string,
    apiEndpoint: string,
    collectionInterval: int,
    serverName: string,
    alertThresholds: Thresholds)

  /** The keys present in the configuration file; an absent key takes its default. */
  datatype ConfigFile = ConfigFile(
    token: Option<string>,
    apiEndpoint: Option<string>,
    collectionInterval: Option<int>,
    serverName: Option<string>,
    cpu: Option<real>,
    memory: Option<real>,
    disk: Option<real>)

  /** The outcome of looking for and decoding the file. */
  datatype ConfigSource = Missing | Unreadable | Malformed | Found(file: ConfigFile)

  datatype LoadError = ConfigNotFound | ReadFailed | DecodeFailed | TokenRequired

  /** getHostname: the host name, or "unknown" when the lookup fails. */
  function GetHostname(lookup: Option<string>): (h: string)
    ensures lookup.None? ==> h == UnknownHost
    ensures lookup.Some? ==> h == lookup.value
  {
    match lookup
    case None => UnknownHost
    case Some(name) => name
  }

  function OrElse<T>(o: Option<T>, d: T): T
  {
    if o.Some? then o.value else d
  }

  /** LoadConfig after the file has been located and decoded: defaults for absent keys,
      a required non-empty token, and the host name for an empty or absent server name.
      `hostname` is the outcome of the operating system's host name lookup. */
  function LoadConfig(src: ConfigSource, hostname: Option<string>): (r: Result<Config, LoadError>)
    ensures src == Missing <==> r == Err(ConfigNotFound)
    ensures src == Unreadable <==> r == Err(ReadFailed)
    ensures src == Malformed <==> r == Err(DecodeFailed)
    ensures r == Err(TokenRequired) <==> src.Found? && OrElse(src.file.token, "") == ""
    ensures r.Ok? ==>
      var f := src.file;
      && r.value.token != ""
      && Some(r.value.token) == f.token
      && r.value.apiEndpoint == OrElse(f.apiEndpoint, DefaultEndpoint)
      && r.value.collectionInterval == OrElse(f.collectionInterval, DefaultInterval)
      && r.value.alertThresholds == Thresholds(OrElse(f.cpu, 80.0), OrElse(f.memory, 85.0), OrElse(f.disk, 90.0))
      && r.value.serverName == if f.serverName.Some? && f.serverName.value != "" then f.serverName.value else GetHostname(hostname)
  {
    match src
    case Missing => Err(ConfigNotFound)
    case Unreadable => Err(ReadFailed)
    case Malformed => Err(DecodeFailed)
    case Found(f) =>
      var cfg := Config(
        OrElse(f.token, ""),
        OrElse(f.apiEndpoint, DefaultEndpoint),
        OrElse(f.collectionInterval, DefaultInterval),
        OrElse(f.serverName, GetHostname(hostname)),
        Thresholds(OrElse(f.cpu, DefaultThresholds.cpu), OrElse(f.memory, DefaultThresholds.memory), OrElse(f.disk, DefaultThresholds.disk)));
      if cfg.token == "" then Err(TokenRequired)
      else if cfg.serverName == "" then Ok(cfg.(serverName := GetHostname(hostname)))
      else Ok(cfg)
  }

  /** CreateSampleConfig: the values written by `-init`. */
  function CreateSampleConfig(hostname: Option<string>): (c: Config)
    ensures c.token == SampleToken && c.serverName == GetHostname(hostname)
  {
    Config(SampleToken, DefaultEndpoint, DefaultInterval, GetHostname(hostname), DefaultThresholds)
  }

  /** A file holding only a token loads to the sample configuration with that token: the
      sample file and the loader's defaults agree. */
  lemma SampleMatchesDefaults(token: string, hostname: Option<string>)
    requires token != ""
    ensures LoadConfig(Found(ConfigFile(Some(token), None, None, None, None, None, None)), hostname)
      == Ok(CreateSampleConfig(hostname).(token := token))
  {
  }

  /** The sample file, read back unedited, loads to itself. */
  lemma SampleRoundTrip(hostname: Option<string>)
    ensures var c := CreateSampleConfig(hostname);
      LoadConfig(Found(ConfigFile(Some(c.token), Some(c.apiEndpoint), Some(c.collectionInterval), Some(c.serverName),
        Some(c.alertThresholds.cpu), Some(c.alertThresholds.memory), Some(c.alertThresholds.disk))), hostname) == Ok(c)
  {
  }
}

=== FILE: agentmain.dfy ===
/** The agent process: command-line flag precedence, start-up, and one tick of the
    monitoring loop (collect, send metrics, evaluate and send alerts). */
module AgentMain {
  import opened Wrappers
  import opened Numeric
  import opened Wire
  import opened Producer
  import opened AgentConfig
  import opened AgentClient

  datatype Flags = Flags(init: bool, version: bool, help: bool)

  datatype Startup = ShowVersion | ShowHelp | WriteSample | Run

  /** `-version` wins over `-help`, which wins over `-init`; each of them exits before
      the configuration is loaded. */
  function StartupAction(f: Flags): (a: Startup)
    ensures a == Run <==> !f.init && !f.version && !f.help
    ensures a == ShowVersion <==> f.version
    ensures a == ShowHelp <==> f.help && !f.version
    ensures a == WriteSample <==> f.init && !f.version && !f.help
  {
    if f.version then ShowVersion
    else if f.help then ShowHelp
    else if f.init then WriteSample
    else Run
  }

  datatype AgentState = AgentState(cfg: Config, collector: Collector, agent: Agent)

  datatype StartError = ConfigFailed(reason: LoadError) | ConnectFailed(cause: ConnectError) | TickerPanic

  /** The monitoring ticker's period, `time.Duration(interval) * time.Second`, wrapping
      like int64. */
  function TickPeriod(interval: int): (p: int)
    ensures InInt64(p)
    ensures 1 <= interval && interval * Second <= Int64Max ==> p == interval * Second
    ensures interval <= 0 && InInt64(interval * Second) ==> p <= 0
  {
    WrapInt64(interval * Second)
  }

  /** Start-up after the flags: load the configuration (fatal on error), build the
      collector and client from it, connect (fatal on error), start the heartbeat and the
      listener, then create the monitoring ticker, which panics unless its period is
      positive. */
  function Start(src: ConfigSource, hostname: Option<string>, now: Time, parse: string -> Option<Url>, dial: DialOutcome): (r: Result<AgentState, StartError>)
    ensures LoadConfig(src, hostname).Err? ==> r == Err(ConfigFailed(LoadConfig(src, hostname).error))
    ensures r == Err(TickerPanic) <==>
      && LoadConfig(src, hostname).Ok? && parse(LoadConfig(src, hostname).value.apiEndpoint).Some? && dial.Dialled?
      && TickPeriod(LoadConfig(src, hostname).value.collectionInterval) <= 0
    ensures r.Ok? <==>
      && LoadConfig(src, hostname).Ok? && parse(LoadConfig(src, hostname).value.apiEndpoint).Some? && dial.Dialled?
      && TickPeriod(LoadConfig(src, hostname).value.collectionInterval) > 0
    ensures r.Ok? ==>
      var st := r.value;
      && st.cfg == LoadConfig(src, hostname).value
      && st.agent.running == multiset{Heartbeat, Listener}
      && IsConnected(st.agent.client)
      && st.agent.client.token == st.cfg.token
      && st.agent.client.serverName == st.cfg.serverName == st.collector.serverName
      && st.agent.client.endpoint == st.cfg.apiEndpoint
      && st.collector.startTime == now
  {
    match LoadConfig(src, hostname)
    case Err(e) => Err(ConfigFailed(e))
    case Ok(cfg) =>
      var collector := NewCollector(cfg.serverName, now);
      var cr := Connect(NewClient(cfg.apiEndpoint, cfg.token, cfg.serverName), parse, dial);
      if cr.error.Some? then Err(ConnectFailed(cr.error.value))
      else if TickPeriod(cfg.collectionInterval) <= 0 then Err(TickerPanic)
      else Ok(AgentState(cfg, collector, Agent(cr.client, multiset{Heartbeat, Listener})))
  }

  /** The smallest interval whose period leaves int64 wraps to a negative period, so an
      agent configured with it connects and then panics. */
  lemma TickPeriodWraps()
    ensures (Int64Max / Second + 1) * Second > Int64Max
    ensures TickPeriod(Int64Max / Second + 1) < 0
    ensures TickPeriod(Int64Max / Second) == (Int64Max / Second) * Second
  {
  }

  /** The thresholds handed to CheckAlerts: exactly the configured ones. */
  function ThresholdsOf(cfg: Config): (th: Thresholds)
    ensures th.cpu == cfg.alertThresholds.cpu && th.memory == cfg.alertThresholds.memory && th.disk == cfg.alertThresholds.disk
  {
    Thresholds(cfg.alertThresholds.cpu, cfg.alertThresholds.memory, cfg.alertThresholds.disk)
  }

  /** The numbers of the writes among `k`, ..., `k + n - 1` that succeed, in increasing
      order. */
  function SucceededWrites(writeOk: nat -> bool, k: nat, n: nat): (s: seq<nat>)
    ensures forall m :: 0 <= m < |s| ==> k <= s[m] < k + n
    decreases n
  {
    if n == 0 then [] else (if writeOk(k) then [k] else []) + SucceededWrites(writeOk, k + 1, n - 1)
  }

  /** SucceededWrites lists every successful write of the range once, in increasing
      order, and no failed one. */
  lemma {:induction false} SucceededWritesExact(writeOk: nat -> bool, k: nat, n: nat)
    ensures var s := SucceededWrites(writeOk, k, n);
      && (forall m :: 0 <= m < |s| ==> writeOk(s[m]))
      && (forall j :: k <= j < k + n && writeOk(j) ==> j in s)
      && (forall a, b :: 0 <= a < b < |s| ==> s[a] < s[b])
    decreases n
  {
    if n > 0 {
      SucceededWritesExact(writeOk, k + 1, n - 1);
      var s' := SucceededWrites(writeOk, k + 1, n - 1);
      var h := if writeOk(k) then [k] else [];
      assert SucceededWrites(writeOk, k, n) == h + s';
      forall j | k <= j < k + n && writeOk(j)
        ensures j in h + s'
      {
        if j > k {
          assert j in s';
        }
      }
    }
  }

  /** The alert envelopes written, in order; each alert is sent only while connected and
      a failed write skips just that alert. `writeOk(k)` is the outcome of the tick's k-th
      write. */
  function SendAlerts(c: Client, alerts: seq<AlertInfo>, now: Time, writeOk: nat -> bool, k: nat): (r: seq<Envelope>)
    ensures |r| <= |alerts|
    ensures !IsConnected(c) ==> r == []
    ensures forall i :: 0 <= i < |r| ==> r[i].kind == AlertKind && DecodeAlert(r[i].data).Some?
    ensures IsConnected(c) && (forall j :: k <= j < k + |alerts| ==> writeOk(j)) ==>
      |r| == |alerts| && forall i :: 0 <= i < |r| ==> r[i] == EnvelopeOf(c, AlertKind, AlertData(alerts[i]), now)
    ensures IsConnected(c) ==> r == AlertEnvelopes(c, Picked(alerts, writeOk, k), now)
    decreases |alerts|
  {
    if |alerts| == 0 then []
    else
      var head := if IsConnected(c) && SendAlert(c, alerts[0], now, writeOk(k)).Ok? then [SendAlert(c, alerts[0], now, writeOk(k)).value] else [];
      var rest := SendAlerts(c, alerts[1..], now, writeOk, k + 1);
      PickedEnvelopesCons(c, alerts, now, writeOk, k);
      head + rest
  }

  /** The elements of `xs` whose write succeeds, element i being written by write k + i. */
  function Picked<T>(xs: seq<T>, writeOk: nat -> bool, k: nat): (r: seq<T>)
    decreases |xs|
  {
    if |xs| == 0 then [] else (if writeOk(k) then [xs[0]] else []) + Picked(xs[1..], writeOk, k + 1)
  }

  /** The m-th pick is the element written by the m-th successful write. */
  lemma {:induction false} PickedAt<T>(xs: seq<T>, writeOk: nat -> bool, k: nat)
    ensures var r := Picked(xs, writeOk, k);
      var s := SucceededWrites(writeOk, k, |xs|);
      |r| == |s| && forall m :: 0 <= m < |r| ==> r[m] == xs[s[m] - k]
    decreases |xs|
  {
    if |xs| > 0 {
      PickedAt(xs[1..], writeOk, k + 1);
      var r' := Picked(xs[1..], writeOk, k + 1);
      var s' := SucceededWrites(writeOk, k + 1, |xs| - 1);
      forall m | 0 <= m < |r'|
        ensures r'[m] == xs[s'[m] - k]
      {
        assert xs[1..][s'[m] - (k + 1)] == xs[s'[m] - k];
      }
    }
  }

  /** The alert envelopes for a sequence of alerts. */
  function AlertEnvelopes(c: Client, alerts: seq<AlertInfo>, now: Time): (r: seq<Envelope>)
    ensures |r| == |alerts|
    ensures forall i :: 0 <= i < |r| ==> r[i] == EnvelopeOf(c, AlertKind, AlertData(alerts[i]), now)
  {
    seq(|alerts|, i requires 0 <= i < |alerts| => EnvelopeOf(c, AlertKind, AlertData(alerts[i]), now))
  }

  /** The envelopes of the picks split at the first alert. */
  lemma PickedEnvelopesCons(c: Client, alerts: seq<AlertInfo>, now: Time, writeOk: nat -> bool, k: nat)
    requires |alerts| > 0
    ensures AlertEnvelopes(c, Picked(alerts, writeOk, k), now)
      == (if writeOk(k) then [EnvelopeOf(c, AlertKind, AlertData(alerts[0]), now)] else [])
         + AlertEnvelopes(c, Picked(alerts[1..], writeOk, k + 1), now)
  {
    var p' := Picked(alerts[1..], writeOk, k + 1);
    var head := if writeOk(k) then [alerts[0]] else [];
    assert Picked(alerts, writeOk, k) == head + p';
    assert AlertEnvelopes(c, head + p', now) == AlertEnvelopes(c, head, now) + AlertEnvelopes(c, p', now);
  }

  /** While connected, the alerts sent are exactly those whose write succeeds, in order. */
  lemma SendAlertsDelivered(c: Client, alerts: seq<AlertInfo>, now: Time, writeOk: nat -> bool, k: nat)
    requires IsConnected(c)
    ensures var r := SendAlerts(c, alerts, now, writeOk, k);
      var s := SucceededWrites(writeOk, k, |alerts|);
      && |r| == |s|
      && forall m :: 0 <= m < |r| ==> r[m] == EnvelopeOf(c, AlertKind, AlertData(alerts[s[m] - k]), now)
  {
    PickedAt(alerts, writeOk, k);
  }

  /** An element whose write succeeds is picked, whatever the other writes did. */
  lemma {:induction false} PickedKeeps<T>(xs: seq<T>, writeOk: nat -> bool, k: nat, j: nat)
    requires j < |xs| && writeOk(k + j)
    ensures xs[j] in Picked(xs, writeOk, k)
    decreases |xs|
  {
    var head := if writeOk(k) then [xs[0]] else [];
    assert Picked(xs, writeOk, k) == head + Picked(xs[1..], writeOk, k + 1);
    if j > 0 {
      PickedKeeps(xs[1..], writeOk, k + 1, j - 1);
      assert xs[1..][j - 1] == xs[j];
    }
  }

  /** A failed write loses only its own alert: every alert whose write succeeds is sent,
      whatever happened to the writes before it. */
  lemma FailedWriteSkipsOnlyItsAlert(c: Client, alerts: seq<AlertInfo>, now: Time, writeOk: nat -> bool, k: nat, j: nat)
    requires IsConnected(c)
    requires j < |alerts| && writeOk(k + j)
    ensures EnvelopeOf(c, AlertKind, AlertData(alerts[j]), now) in SendAlerts(c, alerts, now, writeOk, k)
  {
    PickedKeeps(alerts, writeOk, k, j);
    var p := Picked(alerts, writeOk, k);
    var m :| 0 <= m < |p| && p[m] == alerts[j];
    assert SendAlerts(c, alerts, now, writeOk, k)[m] == EnvelopeOf(c, AlertKind, AlertData(alerts[j]), now);
  }

  datatype TickOutput = TickOutput(sent: seq<Envelope>, alerts: seq<AlertInfo>)

  /** One tick of the monitoring loop. The clock does not advance within the tick. */
  function Tick(st: AgentState, now: Time, rd: Readings, writeOk: nat -> bool, describe: (Family, real, real) -> string): (r: TickOutput)
    ensures CollectMetrics(st.collector, now, rd).Err? ==> r == TickOutput([], [])
    ensures !IsConnected(st.agent.client) ==> r.sent == []
    ensures CollectMetrics(st.collector, now, rd).Ok? ==>
      r.alerts == CheckAlerts(CollectMetrics(st.collector, now, rd).value, ThresholdsOf(st.cfg), describe)
    ensures |r.sent| <= 1 + |r.alerts|
    ensures forall i :: 0 < i < |r.sent| ==> r.sent[i].kind == AlertKind
  {
    match CollectMetrics(st.collector, now, rd)
    case Err(_) => TickOutput([], [])
    case Ok(m) =>
      var c := st.agent.client;
      var metricsSent := if IsConnected(c) && SendMetrics(c, m, now, writeOk(0)).Ok? then [SendMetrics(c, m, now, writeOk(0)).value] else [];
      var alerts := CheckAlerts(m, ThresholdsOf(st.cfg), describe);
      TickOutput(metricsSent + SendAlerts(c, alerts, now, writeOk, 1), alerts)
  }

  /** A connected tick whose writes all succeed sends the metrics envelope first and then
      one envelope per alert in evaluation order, each carrying the client's credentials. */
  lemma TickSendsMetricsThenAlerts(st: AgentState, now: Time, rd: Readings, writeOk: nat -> bool, describe: (Family, real, real) -> string)
    requires CollectMetrics(st.collector, now, rd).Ok?
    requires IsConnected(st.agent.client)
    requires forall j :: writeOk(j)
    ensures var m := CollectMetrics(st.collector, now, rd).value;
      var r := Tick(st, now, rd, writeOk, describe);
      && |r.sent| == 1 + |r.alerts|
      && r.sent[0] == EnvelopeOf(st.agent.client, MetricsKind, MetricsData(m), now)
      && (forall i :: 0 <= i < |r.alerts| ==> r.sent[i + 1] == EnvelopeOf(st.agent.client, AlertKind, AlertData(r.alerts[i]), now))
  {
  }

  /** A failed metrics write does not stop the alerts. */
  lemma MetricsFailureStillSendsAlerts(st: AgentState, now: Time, rd: Readings, writeOk: nat -> bool, describe: (Family, real, real) -> string)
    requires CollectMetrics(st.collector, now, rd).Ok?
    requires IsConnected(st.agent.client)
    requires !writeOk(0) && forall j :: j > 0 ==> writeOk(j)
    ensures var r := Tick(st, now, rd, writeOk, describe);
      && |r.sent| == |r.alerts|
      && (forall i :: 0 <= i < |r.sent| ==> DecodeAlert(r.sent[i].data) == Some(r.alerts[i]))
  {
  }
}

=== FILE: api.dfy ===
/** The REST handlers over the store: each is a function from the store, the request's
    claims (absent when unauthenticated) and its parameters to the new store and the
    response. Path and query parameters are the raw strings of the request; an absent
    query parameter is `None`. */
module Api {
  import opened Wrappers
  import opened Numeric
  import opened Numerals
  import opened Models
  import opened Query
  import opened Store
  import opened Registry
  import opened Auth

  datatype Body =
    | ErrorBody(message: string)
    | UserBody(user: User)
    | ServersBody(servers: seq<Server>)
    | ServerBody(server: Server)
    | MessageBody(message: string)
    | MetricsBody(server: Server, metrics: seq<Metric>, since: Time)
    | AlertsBody(server: Server, alerts: seq<Alert>)

  datatype Response = Response(status: int, body: Body)

  const NotAuthenticated: Response := Response(401, ErrorBody("User not authenticated"))

  /** `WHERE id = ? AND user_id = ?` on servers. */
  function IdAndOwner(id: nat, owner: int): Server -> bool
  {
    (s: Server) => s.id == id && s.userId == owner
  }

  predicate Owns(db: Db, owner: int, id: nat)
  {
    exists i :: 0 <= i < |db.servers| && db.servers[i].id == id && db.servers[i].userId == owner
  }

  /** The ownership query finds a row exactly when the server belongs to the owner. */
  lemma OwnershipQuery(db: Db, owner: int, id: nat)
    ensures First(db.servers, IdAndOwner(id, owner)).Some? <==> Owns(db, owner, id)
    ensures First(db.servers, IdAndOwner(id, owner)).Some? ==>
      First(db.servers, IdAndOwner(id, owner)).value.id == id
  {
    var p := IdAndOwner(id, owner);
    assert forall i :: 0 <= i < |db.servers| ==> (p(db.servers[i]) <==> db.servers[i].id == id && db.servers[i].userId == owner);
  }

  // ---------------------------------------------------------------- profile and listing

  /** GetUserProfile: the caller's user row, created on first use. */
  function GetUserProfile(db: Db, claims: Option<Claims>): (r: (Db, Response))
    ensures claims.None? ==> r == (db, NotAuthenticated)
    ensures claims.Some? ==> r.1.status == 200 && r.1.body.UserBody? && r.1.body.user.firebaseUid == claims.value.uid
    ensures claims.Some? && GetUserByUid(db, claims.value.uid).Ok? ==> r.0 == db
    ensures claims.Some? ==>
      && r.0 == GetOrCreateUser(db, claims.value.uid, claims.value.email).0
      && r.1.body == UserBody(GetOrCreateUser(db, claims.value.uid, claims.value.email).1)
  {
    match claims
    case None => (db, NotAuthenticated)
    case Some(cl) =>
      var (db1, user) := GetOrCreateUser(db, cl.uid, cl.email);
      (db1, Response(200, UserBody(user)))
  }

  /** The live-connection overlay: the stored status is replaced by the registry's view. */
  function WithLiveStatus(hub: Hub, s: Server): (r: Server)
    ensures r == s.(status := r.status)
    ensures r.status == Online <==> IsAgentConnected(hub, s.id)
    ensures r.status == Offline <==> !IsAgentConnected(hub, s.id)
  {
    s.(status := if IsAgentConnected(hub, s.id) then Online else Offline)
  }

  /** GetUserServers: the caller's servers, each with the status rewritten from the
      registry; an unknown user is a server error. */
  function GetUserServers(db: Db, hub: Hub, claims: Option<Claims>): (r: Response)
    ensures claims.None? ==> r == NotAuthenticated
    ensures claims.Some? && GetUserByUid(db, claims.value.uid).Err? ==> r.status == 500
    ensures claims.Some? && GetUserByUid(db, claims.value.uid).Ok? ==>
      var rows := Store.GetUserServers(db, claims.value.uid).value;
      && r.status == 200 && r.body.ServersBody?
      && |r.body.servers| == |rows|
      && forall i :: 0 <= i < |rows| ==>
           && r.body.servers[i] == rows[i].(status := r.body.servers[i].status)
           && (r.body.servers[i].status == Online <==> IsAgentConnected(hub, rows[i].id))
           && (r.body.servers[i].status == Offline <==> !IsAgentConnected(hub, rows[i].id))
  {
    match claims
    case None => NotAuthenticated
    case Some(cl) =>
      match Store.GetUserServers(db, cl.uid)
      case Err(_) => Response(500, ErrorBody("Failed to get servers"))
      case Ok(rows) => Response(200, ServersBody(seq(|rows|, i requires 0 <= i < |rows| => WithLiveStatus(hub, rows[i]))))
  }

  // ---------------------------------------------------------------- create

  /** CreateServer. `name` is the request body's name (None when the body does not bind);
      `token` is the freshly generated UUID. The caller's user row is created first if
      needed and stays even when the insert fails. */
  function CreateServer(db: Db, claims: Option<Claims>, name: Option<string>, token: string): (r: (Db, Response))
    ensures claims.None? ==> r == (db, NotAuthenticated)
    ensures claims.Some? && (name.None? || name.value == "") ==> r.0 == db && r.1.status == 400
    ensures r.1.status == 201 ==>
      && claims.Some? && name.Some?
      && var (db1, user) := GetOrCreateUser(db, claims.value.uid, claims.value.email);
      && r.1.body == ServerBody(Server(db1.nextServerId, user.id, token, name.value, None, Offline))
      && r.0.servers == db1.servers + [r.1.body.server]
    ensures claims.Some? && name.Some? && name.value != "" ==>
      (r.1.status == 201 <==> forall i :: 0 <= i < |db.servers| ==> db.servers[i].token != token)
    ensures claims.Some? && name.Some? && name.value != "" ==>
      var db1 := GetOrCreateUser(db, claims.value.uid, claims.value.email).0;
      && (r.1.status == 201 || r.1.status == 500)
      && (r.1.status == 500 ==> r.0 == db1)
      && (r.1.status == 201 ==> r.0 == db1.(servers := db1.servers + [r.1.body.server], nextServerId := db1.nextServerId + 1))
  {
    match claims
    case None => (db, NotAuthenticated)
    case Some(cl) =>
      if name.None? || name.value == "" then (db, Response(400, ErrorBody("name is required")))
      else
        var (db1, user) := GetOrCreateUser(db, cl.uid, cl.email);
        var (db2, created) := Store.CreateServer(db1, user.id, token, name.value, Offline);
        match created
        case Err(_) => (db2, Response(500, ErrorBody("Failed to create server")))
        case Ok(s) => (db2, Response(201, ServerBody(s)))
  }

  /** A created server is what its agent's token now finds. */
  lemma CreatedServerReachable(db: Db, claims: Option<Claims>, name: Option<string>, token: string)
    requires Store.Valid(db)
    requires CreateServer(db, claims, name, token).1.status == 201
    ensures var (db', resp) := CreateServer(db, claims, name, token);
      && Store.Valid(db')
      && GetServerByToken(db', token) == Ok(resp.body.server)
      && resp.body.server.status == Offline
  {
    var cl := claims.value;
    var (db1, user) := GetOrCreateUser(db, cl.uid, cl.email);
    GetOrCreateUserValid(db, cl.uid, cl.email);
    CreateServerValid(db1, user.id, token, name.value, Offline);
    var (db', resp) := CreateServer(db, claims, name, token);
    GetServerByTokenUnique(db', token, |db'.servers| - 1);
  }

  // ---------------------------------------------------------------- delete

  /** The three statements of the delete transaction. */
  datatype DeleteStep = DeleteMetricsStep | DeleteAlertsStep | DeleteServerStep

  /** The store after the whole cascade has been applied. */
  function Cascade(db: Db, id: nat): Db
  {
    DeleteServerRow(DeleteAlertsOf(DeleteMetricsOf(db, id), id), id)
  }

  /** DeleteServer as written. `failAt` is the first transaction statement that fails,
      if any, which rolls back; `commitOk` is the outcome of the commit, whose error the
      handler ignores. */
  function DeleteServer(db: Db, claims: Option<Claims>, idParam: string, failAt: Option<DeleteStep>, commitOk: bool): (r: (Db, Response))
    ensures claims.None? ==> r == (db, NotAuthenticated)
    ensures r.1.status != 200 ==> r.0 == db
    ensures claims.Some? && ParseUint32(idParam).None? ==> r.1.status == 400
    ensures claims.Some? && ParseUint32(idParam).Some? && GetUserByUid(db, claims.value.uid).Err? ==> r.1.status == 500
    ensures claims.Some? && ParseUint32(idParam).Some? && GetUserByUid(db, claims.value.uid).Ok? ==>
      var owned := Owns(db, GetUserByUid(db, claims.value.uid).value.id, ParseUint32(idParam).value);
      && (!owned ==> r.1.status == 404)
      && (owned && failAt.Some? ==> r.1.status == 500)
    ensures r.1.status == 200 <==>
      && claims.Some? && ParseUint32(idParam).Some?
      && GetUserByUid(db, claims.value.uid).Ok?
      && Owns(db, GetUserByUid(db, claims.value.uid).value.id, ParseUint32(idParam).value)
      && failAt.None?
    ensures r.1.status == 200 && commitOk ==> r.0 == Cascade(db, ParseUint32(idParam).value)
    ensures r.1.status == 200 && !commitOk ==> r.0 == db
  {
    match claims
    case None => (db, NotAuthenticated)
    case Some(cl) =>
      match ParseUint32(idParam)
      case None => (db, Response(400, ErrorBody("Invalid server ID")))
      case Some(id) =>
        match GetUserByUid(db, cl.uid)
        case Err(_) => (db, Response(500, ErrorBody("User not found")))
        case Ok(user) =>
          OwnershipQuery(db, user.id, id);
          if First(db.servers, IdAndOwner(id, user.id)).None? then (db, Response(404, ErrorBody("Server not found")))
          else match failAt
            case Some(DeleteMetricsStep) => (db, Response(500, ErrorBody("Failed to delete metrics")))
            case Some(DeleteAlertsStep) => (db, Response(500, ErrorBody("Failed to delete alerts")))
            case Some(DeleteServerStep) => (db, Response(500, ErrorBody("Failed to delete server")))
            case None => (if commitOk then Cascade(db, id) else db, Response(200, MessageBody("Server deleted successfully")))
  }

  /** The cascade removes exactly the server's rows from metrics, alerts and servers and
      keeps every other row; users are untouched. */
  lemma CascadeExact(db: Db, id: nat)
    ensures var c := Cascade(db, id);
      && c.users == db.users
      && (forall i :: 0 <= i < |c.metrics| ==> c.metrics[i].serverId != id)
      && (forall i :: 0 <= i < |db.metrics| && db.metrics[i].serverId != id ==> db.metrics[i] in c.metrics)
      && (forall i :: 0 <= i < |c.alerts| ==> c.alerts[i].serverId != id)
      && (forall i :: 0 <= i < |db.alerts| && db.alerts[i].serverId != id ==> db.alerts[i] in c.alerts)
      && (forall i :: 0 <= i < |c.servers| ==> c.servers[i].id != id)
      && (forall i :: 0 <= i < |db.servers| && db.servers[i].id != id ==> db.servers[i] in c.servers)
  {
  }

  /** As written, a failed commit still answers 200 while nothing was deleted. */
  lemma DeleteCommitFailureReportsSuccess(db: Db, cl: Claims, id: nat, k: nat)
    requires GetUserByUid(db, cl.uid).Ok?
    requires k < |db.servers| && db.servers[k].id == id && db.servers[k].userId == GetUserByUid(db, cl.uid).value.id
    requires id <= Uint32Max
    ensures var r := DeleteServer(db, Some(cl), Decimal(id), None, false);
      r.1.status == 200 && r.0 == db
  {
    ParseUint32OfNumeral(id);
  }

  /** DeleteServer with the commit's error checked: 200 exactly when the cascade was
      applied. */
  function DeleteServerChecked(db: Db, claims: Option<Claims>, idParam: string, failAt: Option<DeleteStep>, commitOk: bool): (r: (Db, Response))
    ensures r.1.status == 200 ==> ParseUint32(idParam).Some? && r.0 == Cascade(db, ParseUint32(idParam).value)
    ensures r.1.status != 200 ==> r.0 == db
    ensures commitOk ==> r == DeleteServer(db, claims, idParam, failAt, commitOk)
  {
    var r := DeleteServer(db, claims, idParam, failAt, commitOk);
    if r.1.status == 200 && !commitOk then (db, Response(500, ErrorBody("Failed to commit deletion")))
    else r
  }

  // ---------------------------------------------------------------- metrics

  /** The `hours` query parameter: default 24, and 24 for anything that does not parse
      or is below 1; no upper bound. */
  function HoursParam(param: Option<string>): (h: int)
    ensures h >= 1
    ensures param.None? ==> h == 24
    ensures param.Some? && Atoi(param.value).Some? && Atoi(param.value).value >= 1 ==> h == Atoi(param.value).value
    ensures param.Some? && (Atoi(param.value).None? || Atoi(param.value).value < 1) ==> h == 24
  {
    var p := if param.Some? then param.value else "24";
    AtoiOfNumeral(24);
    assert Decimal(24) == "24";
    match Atoi(p)
    case None => 24
    case Some(v) => if v < 1 then 24 else v
  }

  /** `now.Add(-time.Duration(hours) * time.Hour)`: the product wraps like int64. */
  function Since(now: Time, hours: int): (since: Time)
    ensures InInt64(since - now)
    ensures InInt64(hours * Hour) ==> since == now - hours * Hour
  {
    now + WrapInt64(-hours * Hour)
  }

  /** GetServerMetrics as written. */
  function GetServerMetrics(db: Db, claims: Option<Claims>, idParam: string, hoursParam: Option<string>, now: Time): (r: Response)
    ensures claims.None? ==> r == NotAuthenticated
    ensures claims.Some? && ParseUint32(idParam).None? ==> r.status == 400
    ensures claims.Some? && ParseUint32(idParam).Some? && GetUserByUid(db, claims.value.uid).Err? ==> r.status == 500
    ensures (claims.Some? && ParseUint32(idParam).Some? && GetUserByUid(db, claims.value.uid).Ok?
      && !Owns(db, GetUserByUid(db, claims.value.uid).value.id, ParseUint32(idParam).value)) ==> r.status == 404
    ensures r.status == 200 <==>
      && claims.Some? && ParseUint32(idParam).Some?
      && GetUserByUid(db, claims.value.uid).Ok?
      && Owns(db, GetUserByUid(db, claims.value.uid).value.id, ParseUint32(idParam).value)
    ensures r.status == 200 ==>
      && r.body.MetricsBody?
      && r.body.server in db.servers
      && r.body.server.id == ParseUint32(idParam).value
      && r.body.server.userId == GetUserByUid(db, claims.value.uid).value.id
      && r.body.since == Since(now, HoursParam(hoursParam))
      && r.body.metrics == Store.GetServerMetrics(db, ParseUint32(idParam).value, r.body.since)
  {
    match claims
    case None => NotAuthenticated
    case Some(cl) =>
      match ParseUint32(idParam)
      case None => Response(400, ErrorBody("Invalid server ID"))
      case Some(id) =>
        match GetUserByUid(db, cl.uid)
        case Err(_) => Response(500, ErrorBody("User not found"))
        case Ok(user) =>
          OwnershipQuery(db, user.id, id);
          match First(db.servers, IdAndOwner(id, user.id))
          case None => Response(404, ErrorBody("Server not found"))
          case Some(server) =>
            var since := Since(now, HoursParam(hoursParam));
            Response(200, MetricsBody(server, Store.GetServerMetrics(db, id, since), since))
  }

  /** Up to the point where the product leaves int64, `since` lies `hours` hours back. */
  lemma SinceInRange(now: Time, hours: int)
    requires 1 <= hours && hours * Hour <= Int64Max
    ensures Since(now, hours) == now - hours * Hour
  {
  }

  /** The smallest hours value whose duration leaves int64. */
  const OverflowHours: nat := 2562048

  /** That many hours wraps the duration to a positive value: the window starts about
      292 years after `now`. */
  lemma OverflowHoursWraps(now: Time)
    ensures Since(now, OverflowHours) > now
  {
    WrapBelowMin(-(OverflowHours as int) * Hour);
  }

  /** A request carrying that value is taken at face value by the hours parameter ... */
  lemma OverflowHoursParsed()
    ensures HoursParam(Some(Decimal(OverflowHours))) == OverflowHours
  {
    AtoiOfNumeral(OverflowHours);
  }

  /** ... so it returns no metrics, although the server has data up to now. */
  lemma HoursOverflowHidesMetrics(db: Db, cl: Claims, id: nat, now: Time)
    requires id <= Uint32Max
    requires GetUserByUid(db, cl.uid).Ok? && Owns(db, GetUserByUid(db, cl.uid).value.id, id)
    requires forall i :: 0 <= i < |db.metrics| ==> db.metrics[i].time <= now
    ensures var r := GetServerMetrics(db, Some(cl), Decimal(id), Some(Decimal(OverflowHours)), now);
      r.status == 200 && r.body.metrics == []
  {
    ParseUint32OfNumeral(id);
    OverflowHoursParsed();
    OverflowHoursWraps(now);
    var r := GetServerMetrics(db, Some(cl), Decimal(id), Some(Decimal(OverflowHours)), now);
    assert r.status == 200;
    assert r.body.since > now;
    assert forall m :: m in r.body.metrics ==> m.time > now;
  }

  /** The window start computed without wrap-around: exactly `hours` hours before `now`. */
  function SinceExact(now: Time, hours: int): (since: Time)
    requires hours >= 1
    ensures since <= now - Hour
    ensures hours * Hour <= Int64Max ==> since == Since(now, hours)
  {
    now - hours * Hour
  }

  /** The exact window only grows as `hours` grows. */
  lemma SinceExactMonotone(now: Time, h1: int, h2: int)
    requires 1 <= h1 <= h2
    ensures SinceExact(now, h2) <= SinceExact(now, h1) < now
  {
    assert h1 * Hour <= h2 * Hour;
  }

  /** GetServerMetrics with the exact window start. */
  function GetServerMetricsExact(db: Db, claims: Option<Claims>, idParam: string, hoursParam: Option<string>, now: Time): (r: Response)
    ensures r.status == 200 <==> GetServerMetrics(db, claims, idParam, hoursParam, now).status == 200
    ensures r.status == 200 ==>
      && r.body.MetricsBody? && r.body.since < now
      && r.body.server == GetServerMetrics(db, claims, idParam, hoursParam, now).body.server
      && r.body.metrics == Store.GetServerMetrics(db, ParseUint32(idParam).value, r.body.since)
  {
    var r := GetServerMetrics(db, claims, idParam, hoursParam, now);
    if r.status != 200 then r
    else
      var since := SinceExact(now, HoursParam(hoursParam));
      Response(200, MetricsBody(r.body.server, Store.GetServerMetrics(db, ParseUint32(idParam).value, since), since))
  }

  /** With the exact window every metric of the server from the last `hours` hours is
      returned, however large `hours` is. */
  lemma ExactKeepsRecentMetrics(db: Db, cl: Claims, id: nat, hoursParam: Option<string>, now: Time, k: nat)
    requires id <= Uint32Max
    requires GetUserByUid(db, cl.uid).Ok? && Owns(db, GetUserByUid(db, cl.uid).value.id, id)
    requires k < |db.metrics| && db.metrics[k].serverId == id
    requires now - HoursParam(hoursParam) * Hour <= db.metrics[k].time
    ensures var r := GetServerMetricsExact(db, Some(cl), Decimal(id), hoursParam, now);
      r.status == 200 && db.metrics[k] in r.body.metrics
  {
    ParseUint32OfNumeral(id);
    var since := SinceExact(now, HoursParam(hoursParam));
    GetServerMetricsComplete(db, id, since, k);
  }

  // ---------------------------------------------------------------- alerts

  /** The `limit` query parameter: default 50, and 50 for anything that does not parse or
      is below 1. */
  function LimitParam(param: Option<string>): (l: int)
    ensures l >= 1
    ensures param.None? ==> l == 50
    ensures param.Some? && Atoi(param.value).Some? && Atoi(param.value).value >= 1 ==> l == Atoi(param.value).value
    ensures param.Some? && (Atoi(param.value).None? || Atoi(param.value).value < 1) ==> l == 50
  {
    var p := if param.Some? then param.value else "50";
    AtoiOfNumeral(50);
    assert Decimal(50) == "50";
    match Atoi(p)
    case None => 50
    case Some(v) => if v < 1 then 50 else v
  }

  /** How the database reads the Firebase UID when it is compared with the integer
      `user_id` column: a decimal integer literal, or an error. */
  function UidAsUserId(uid: string): (r: Option<int>)
    ensures r.Some? ==> InInt64(r.value)
    ensures r.Some? ==> |uid| > 0 && forall i :: 1 <= i < |uid| ==> IsDigit(uid[i])
    ensures |uid| > 0 && !IsDigit(uid[0]) && uid[0] != '+' && uid[0] != '-' ==> r.None?
  {
    Atoi(uid)
  }

  /** A uid that is the decimal numeral of an int64 value reads as that value. */
  lemma UidNumeralRead(n: nat)
    requires n <= Int64Max
    ensures UidAsUserId(Decimal(n)) == Some(n)
  {
    AtoiOfNumeral(n);
  }

  /** GetServerAlerts as written: ownership is checked against the Firebase UID. */
  function GetServerAlerts(db: Db, claims: Option<Claims>, idParam: string, limitParam: Option<string>): (r: Response)
    ensures claims.None? ==> r == NotAuthenticated
    ensures claims.Some? && ParseUint32(idParam).None? ==> r.status == 400
    ensures claims.Some? && ParseUint32(idParam).Some? && UidAsUserId(claims.value.uid).None? ==> r.status == 500
    ensures (claims.Some? && ParseUint32(idParam).Some? && UidAsUserId(claims.value.uid).Some?
      && !Owns(db, UidAsUserId(claims.value.uid).value, ParseUint32(idParam).value)) ==> r.status == 404
    ensures r.status == 200 <==>
      && claims.Some? && ParseUint32(idParam).Some? && UidAsUserId(claims.value.uid).Some?
      && Owns(db, UidAsUserId(claims.value.uid).value, ParseUint32(idParam).value)
    ensures r.status == 200 ==>
      && r.body.AlertsBody?
      && r.body.server in db.servers
      && r.body.server.id == ParseUint32(idParam).value
      && r.body.server.userId == UidAsUserId(claims.value.uid).value
      && r.body.alerts == Store.GetServerAlerts(db, ParseUint32(idParam).value, LimitParam(limitParam))
  {
    match claims
    case None => NotAuthenticated
    case Some(cl) =>
      match ParseUint32(idParam)
      case None => Response(400, ErrorBody("Invalid server ID"))
      case Some(id) =>
        match UidAsUserId(cl.uid)
        case None => Response(500, ErrorBody("Database error"))
        case Some(owner) =>
          OwnershipQuery(db, owner, id);
          match First(db.servers, IdAndOwner(id, owner))
          case None => Response(404, ErrorBody("Server not found"))
          case Some(server) => Response(200, AlertsBody(server, Store.GetServerAlerts(db, id, LimitParam(limitParam))))
  }

  /** `JOIN servers ON alerts.server_id = servers.id WHERE alerts.id = ? AND servers.user_id = ?` */
  predicate AlertOwnedBy(db: Db, alertId: nat, owner: int)
  {
    exists i, j :: 0 <= i < |db.alerts| && 0 <= j < |db.servers|
      && db.alerts[i].id == alertId && db.servers[j].id == db.alerts[i].serverId && db.servers[j].userId == owner
  }

  /** ResolveAlert as written: ownership is checked against the Firebase UID. */
  function ResolveAlert(db: Db, claims: Option<Claims>, idParam: string): (r: (Db, Response))
    ensures claims.None? ==> r == (db, NotAuthenticated)
    ensures r.1.status != 200 ==> r.0 == db
    ensures claims.Some? && ParseUint32(idParam).None? ==> r.1.status == 400
    ensures claims.Some? && ParseUint32(idParam).Some? && UidAsUserId(claims.value.uid).None? ==> r.1.status == 500
    ensures (claims.Some? && ParseUint32(idParam).Some? && UidAsUserId(claims.value.uid).Some?
      && !AlertOwnedBy(db, ParseUint32(idParam).value, UidAsUserId(claims.value.uid).value)) ==> r.1.status == 404
    ensures r.1.status == 200 <==>
      && claims.Some? && ParseUint32(idParam).Some? && UidAsUserId(claims.value.uid).Some?
      && AlertOwnedBy(db, ParseUint32(idParam).value, UidAsUserId(claims.value.uid).value)
    ensures r.1.status == 200 ==> r.0 == Store.ResolveAlert(db, ParseUint32(idParam).value)
  {
    match claims
    case None => (db, NotAuthenticated)
    case Some(cl) =>
      match ParseUint32(idParam)
      case None => (db, Response(400, ErrorBody("Invalid alert ID")))
      case Some(id) =>
        match UidAsUserId(cl.uid)
        case None => (db, Response(500, ErrorBody("Database error")))
        case Some(owner) =>
          if AlertOwnedBy(db, id, owner) then (Store.ResolveAlert(db, id), Response(200, MessageBody("Alert resolved successfully")))
          else (db, Response(404, ErrorBody("Alert not found")))
  }

  /** A Firebase UID is not a decimal integer (it starts with a letter), so as written the
      owner of a server can neither list its alerts nor resolve them. */
  lemma UidOwnershipRejectsOwner(db: Db, cl: Claims, id: nat, alertId: nat, limitParam: Option<string>)
    requires |cl.uid| > 0 && !IsDigit(cl.uid[0]) && cl.uid[0] != '+' && cl.uid[0] != '-'
    requires id <= Uint32Max && alertId <= Uint32Max
    requires GetUserByUid(db, cl.uid).Ok? && Owns(db, GetUserByUid(db, cl.uid).value.id, id)
    ensures GetServerAlerts(db, Some(cl), Decimal(id), limitParam).status == 500
    ensures ResolveAlert(db, Some(cl), Decimal(alertId)).1.status == 500
  {
    ParseUint32OfNumeral(id);
    ParseUint32OfNumeral(alertId);
  }

  /** GetServerAlerts with ownership checked against the caller's internal user key, as
      the other handlers do. */
  function GetServerAlertsOwn(db: Db, claims: Option<Claims>, idParam: string, limitParam: Option<string>): (r: Response)
    ensures claims.None? ==> r == NotAuthenticated
    ensures claims.Some? && ParseUint32(idParam).None? ==> r.status == 400
    ensures claims.Some? && ParseUint32(idParam).Some? && GetUserByUid(db, claims.value.uid).Err? ==> r.status == 500
    ensures (claims.Some? && ParseUint32(idParam).Some? && GetUserByUid(db, claims.value.uid).Ok?
      && !Owns(db, GetUserByUid(db, claims.value.uid).value.id, ParseUint32(idParam).value)) ==> r.status == 404
    ensures r.status == 200 <==>
      && claims.Some? && ParseUint32(idParam).Some?
      && GetUserByUid(db, claims.value.uid).Ok?
      && Owns(db, GetUserByUid(db, claims.value.uid).value.id, ParseUint32(idParam).value)
    ensures r.status == 200 ==>
      && r.body.AlertsBody?
      && r.body.server in db.servers
      && r.body.server.id == ParseUint32(idParam).value
      && r.body.server.userId == GetUserByUid(db, claims.value.uid).value.id
      && r.body.alerts == Store.GetServerAlerts(db, ParseUint32(idParam).value, LimitParam(limitParam))
  {
    match claims
    case None => NotAuthenticated
    case Some(cl) =>
      match ParseUint32(idParam)
      case None => Response(400, ErrorBody("Invalid server ID"))
      case Some(id) =>
        match GetUserByUid(db, cl.uid)
        case Err(_) => Response(500, ErrorBody("User not found"))
        case Ok(user) =>
          OwnershipQuery(db, user.id, id);
          match First(db.servers, IdAndOwner(id, user.id))
          case None => Response(404, ErrorBody("Server not found"))
          case Some(server) => Response(200, AlertsBody(server, Store.GetServerAlerts(db, id, LimitParam(limitParam))))
  }

  /** ResolveAlert with ownership checked against the caller's internal user key. */
  function ResolveAlertOwn(db: Db, claims: Option<Claims>, idParam: string): (r: (Db, Response))
    ensures claims.None? ==> r == (db, NotAuthenticated)
    ensures r.1.status != 200 ==> r.0 == db
    ensures claims.Some? && ParseUint32(idParam).None? ==> r.1.status == 400
    ensures claims.Some? && ParseUint32(idParam).Some? && GetUserByUid(db, claims.value.uid).Err? ==> r.1.status == 500
    ensures (claims.Some? && ParseUint32(idParam).Some? && GetUserByUid(db, claims.value.uid).Ok?
      && !AlertOwnedBy(db, ParseUint32(idParam).value, GetUserByUid(db, claims.value.uid).value.id)) ==> r.1.status == 404
    ensures r.1.status == 200 <==>
      && claims.Some? && ParseUint32(idParam).Some?
      && GetUserByUid(db, claims.value.uid).Ok?
      && AlertOwnedBy(db, ParseUint32(idParam).value, GetUserByUid(db, claims.value.uid).value.id)
    ensures r.1.status == 200 ==> r.0 == Store.ResolveAlert(db, ParseUint32(idParam).value)
  {
    match claims
    case None => (db, NotAuthenticated)
    case Some(cl) =>
      match ParseUint32(idParam)
      case None => (db, Response(400, ErrorBody("Invalid alert ID")))
      case Some(id) =>
        match GetUserByUid(db, cl.uid)
        case Err(_) => (db, Response(500, ErrorBody("User not found")))
        case Ok(user) =>
          if AlertOwnedBy(db, id, user.id) then (Store.ResolveAlert(db, id), Response(200, MessageBody("Alert resolved successfully")))
          else (db, Response(404, ErrorBody("Alert not found")))
  }

  /** With the correction, the owner of a server lists its alerts and resolves them. */
  lemma OwnerReachesAlerts(db: Db, cl: Claims, id: nat, alertId: nat, limitParam: Option<string>)
    requires id <= Uint32Max && alertId <= Uint32Max
    requires GetUserByUid(db, cl.uid).Ok? && Owns(db, GetUserByUid(db, cl.uid).value.id, id)
    requires AlertOwnedBy(db, alertId, GetUserByUid(db, cl.uid).value.id)
    ensures GetServerAlertsOwn(db, Some(cl), Decimal(id), limitParam).status == 200
    ensures ResolveAlertOwn(db, Some(cl), Decimal(alertId)).1.status == 200
  {
    ParseUint32OfNumeral(id);
    ParseUint32OfNumeral(alertId);
  }
}

=== FILE: auth.dfy ===
/** The bearer-token middlewares of the HTTP API. Token verification is an oracle from
    the ID token to the verified claims or an error. */
module Auth {
  import opened Wrappers

  datatype Claims = Claims(uid: string, email: string)

  const UidKey: string := "user_uid"
  const EmailKey: string := "user_email"

  /** The request context's key/value store. */
  datatype Context = Context(values: map<string, string>)

  // ---------------------------------------------------------------- strings.Split

  /** strings.Split on a one-character separator: the maximal separator-free pieces,
      one more than there are separators (the empty string gives one empty piece). */
  function Split(s: string, sep: char): (r: seq<string>)
    ensures |r| >= 1
    ensures forall i :: 0 <= i < |r| ==> sep !in r[i]
    decreases |s|
  {
    if |s| == 0 then [""]
    else if s[0] == sep then [""] + Split(s[1..], sep)
    else
      var rest := Split(s[1..], sep);
      [[s[0]] + rest[0]] + rest[1..]
  }

  /** strings.Join, the inverse of Split. */
  function Join(parts: seq<string>, sep: char): string
    requires |parts| >= 1
  {
    if |parts| == 1 then parts[0] else parts[0] + [sep] + Join(parts[1..], sep)
  }

  function Count(s: string, c: char): nat
  {
    if |s| == 0 then 0 else (if s[0] == c then 1 else 0) + Count(s[1..], c)
  }

  /** Joining the pieces back with the separator gives the original string. */
  lemma {:induction false} JoinSplit(s: string, sep: char)
    ensures Join(Split(s, sep), sep) == s
    decreases |s|
  {
    if |s| > 0 {
      JoinSplit(s[1..], sep);
      var rest := Split(s[1..], sep);
      if s[0] == sep {
        assert s == [sep] + s[1..];
      } else if |rest| == 1 {
        assert s == [s[0]] + s[1..];
      } else {
        assert Join(rest, sep) == rest[0] + [sep] + Join(rest[1..], sep);
        assert s == [s[0]] + s[1..];
      }
    }
  }

  /** There is one more piece than there are separators. */
  lemma {:induction false} SplitCount(s: string, sep: char)
    ensures |Split(s, sep)| == Count(s, sep) + 1
    decreases |s|
  {
    if |s| > 0 {
      SplitCount(s[1..], sep);
    }
  }

  /** A string without the separator is a single piece. */
  lemma {:induction false} SplitWhole(s: string, sep: char)
    requires sep !in s
    ensures Split(s, sep) == [s]
    decreases |s|
  {
    if |s| > 0 {
      assert sep !in s[1..] by {
        forall i | 0 <= i < |s[1..]| ensures s[1..][i] != sep {
          assert s[1..][i] == s[i + 1];
        }
      }
      SplitWhole(s[1..], sep);
      assert [s[0]] + s[1..] == s;
    }
  }

  /** A separator-free word followed by the separator splits off as the first piece. */
  lemma {:induction false} SplitAfterWord(w: string, sep: char, t: string)
    requires sep !in w
    ensures Split(w + [sep] + t, sep) == [w] + Split(t, sep)
    decreases |w|
  {
    if |w| == 0 {
      assert w + [sep] + t == [sep] + t;
      assert ([sep] + t)[1..] == t;
    } else {
      assert sep !in w[1..] by {
        forall i | 0 <= i < |w[1..]| ensures w[1..][i] != sep {
          assert w[1..][i] == w[i + 1];
        }
      }
      SplitAfterWord(w[1..], sep, t);
      assert (w + [sep] + t)[1..] == w[1..] + [sep] + t;
      assert [w[0]] + w[1..] == w;
    }
  }

  // ---------------------------------------------------------------- header

  const Bearer: string := "Bearer"

  /** The token of an `Authorization` header: exactly two space-separated pieces, the
      first exactly "Bearer". The token may be empty. */
  function ParseBearer(header: string): (r: Option<string>)
    ensures r.Some? ==> ' ' !in r.value
    ensures header == "" ==> r.None?
  {
    var parts := Split(header, ' ');
    if |parts| == 2 && parts[0] == Bearer then Some(parts[1]) else None
  }

  /** A header is accepted with token `t` exactly when it is "Bearer " followed by a
      space-free `t`. */
  lemma ParseBearerIff(header: string, t: string)
    ensures ParseBearer(header) == Some(t) <==> header == Bearer + " " + t && ' ' !in t
  {
    if ParseBearer(header) == Some(t) {
      var parts := Split(header, ' ');
      JoinSplit(header, ' ');
      assert Join(parts[1..], ' ') == parts[1];
      assert parts[1] == t;
    }
    if header == Bearer + " " + t && ' ' !in t {
      SplitAfterWord(Bearer, ' ', t);
      SplitWhole(t, ' ');
      assert Bearer + [' '] + t == Bearer + " " + t;
    }
  }

  // ---------------------------------------------------------------- middlewares

  datatype Outcome = Abort(httpStatus: int) | Continue(ctx: Context)

  function WithClaims(ctx: Context, cl: Claims): Context
  {
    Context(ctx.values[UidKey := cl.uid][EmailKey := cl.email])
  }

  /** AuthMiddleware. An absent header reads as the empty string. */
  function AuthMiddleware(header: string, verify: string -> Result<Claims, string>, ctx: Context): (r: Outcome)
    ensures r.Abort? ==> r.httpStatus == 401
    ensures r.Continue? <==> ParseBearer(header).Some? && verify(ParseBearer(header).value).Ok?
    ensures header == "" ==> r == Abort(401)
    ensures r.Continue? ==> r.ctx == WithClaims(ctx, verify(ParseBearer(header).value).value)
  {
    if header == "" then Abort(401)
    else
      match ParseBearer(header)
      case None => Abort(401)
      case Some(token) =>
        match verify(token)
        case Err(_) => Abort(401)
        case Ok(cl) => Continue(WithClaims(ctx, cl))
  }

  /** OptionalAuthMiddleware: never aborts; claims are added only when the header parses
      and verifies. */
  function OptionalAuthMiddleware(header: string, verify: string -> Result<Claims, string>, ctx: Context): (r: Outcome)
    ensures r.Continue?
    ensures AuthMiddleware(header, verify, ctx).Abort? ==> r.ctx == ctx
    ensures AuthMiddleware(header, verify, ctx).Continue? ==> r == AuthMiddleware(header, verify, ctx)
  {
    if header == "" then Continue(ctx)
    else
      match ParseBearer(header)
      case None => Continue(ctx)
      case Some(token) =>
        match verify(token)
        case Err(_) => Continue(ctx)
        case Ok(cl) => Continue(WithClaims(ctx, cl))
  }

  /** GetUserFromContext: both keys must be present. */
  function GetUserFromContext(ctx: Context): (r: Option<Claims>)
    ensures r.Some? <==> UidKey in ctx.values && EmailKey in ctx.values
    ensures r.Some? ==> r.value.uid == ctx.values[UidKey] && r.value.email == ctx.values[EmailKey]
  {
    if UidKey in ctx.values && EmailKey in ctx.values then Some(Claims(ctx.values[UidKey], ctx.values[EmailKey]))
    else None
  }

  /** What the middleware stores is what the handlers read back. */
  lemma ClaimsRoundTrip(ctx: Context, cl: Claims)
    ensures GetUserFromContext(WithClaims(ctx, cl)) == Some(cl)
  {
  }

  /** A request that passes the middleware carries the verifier's claims for the header's
      token. */
  lemma AuthenticatedRequest(verify: string -> Result<Claims, string>, ctx: Context, t: string)
    requires ' ' !in t && verify(t).Ok?
    ensures var r := AuthMiddleware(Bearer + " " + t, verify, ctx);
      r.Continue? && GetUserFromContext(r.ctx) == Some(verify(t).value)
  {
    ParseBearerIff(Bearer + " " + t, t);
  }
}

=== FILE: client.dfy ===
/** The agent's transport client: connection state, the envelope it writes, the heartbeat
    step, and the linear capped backoff of its reconnect loop. The socket is abstract: a
    dial either yields a connection handle or fails, and every write either succeeds or
    fails. */
module AgentClient {
  import opened Wrappers
  import opened Numeric
  import opened Wire

  /** A parsed endpoint: everything before the query string, and the query values by key. */
  datatype Url = Url(base: string, query: map<string, seq<string>>)

  datatype DialOutcome = Dialled(handle: nat) | DialRefused(httpStatus: Option<int>)

  datatype ConnectError = InvalidEndpoint | ConnectionFailed(httpStatus: Option<int>)

  datatype Client = Client(
    conn: Option<nat>,
    token: string,
    endpoint: string,
    serverName: string,
    reconnectInterval: Time,
    maxReconnectDelay: Time,
    reconnectAttempts: int)

  /** NewClient: not connected, no attempts yet, backoff step 5s capped at 60s. */
  function NewClient(endpoint: string, token: string, serverName: string): (c: Client)
    ensures !IsConnected(c) && c.reconnectAttempts == 0
    ensures c.endpoint == endpoint && c.token == token && c.serverName == serverName
    ensures c.reconnectInterval == 5 * Second && c.maxReconnectDelay == 60 * Second
  {
    Client(None, token, endpoint, serverName, 5 * Second, 60 * Second, 0)
  }

  predicate IsConnected(c: Client)
  {
    c.conn.Some?
  }

  // ---------------------------------------------------------------- connect

  /** The dialled URL: the endpoint with `token` and `server_name` set to single values,
      every other query key kept. */
  function DialUrl(u: Url, token: string, serverName: string): (d: Url)
    ensures d.base == u.base
    ensures d.query.Keys == u.query.Keys + {"token", "server_name"}
    ensures d.query["token"] == [token] && d.query["server_name"] == [serverName]
    ensures forall k :: k in u.query && k != "token" && k != "server_name" ==> d.query[k] == u.query[k]
  {
    u.(query := u.query["token" := [token]]["server_name" := [serverName]])
  }

  datatype ConnectResult = ConnectResult(client: Client, dialled: Option<Url>, error: Option<ConnectError>)

  /** Connect. `parse` is the URL parser applied to the endpoint and `dial` the outcome of
      dialling the URL it builds. Success stores the handle and resets the attempt
      counter; any failure leaves the client as it was. */
  function Connect(c: Client, parse: string -> Option<Url>, dial: DialOutcome): (r: ConnectResult)
    ensures r.error.None? <==> parse(c.endpoint).Some? && dial.Dialled?
    ensures r.error.Some? ==> r.client == c
    ensures r.error.None? ==> r.client == c.(conn := Some(dial.handle), reconnectAttempts := 0)
    ensures parse(c.endpoint).None? <==> r.error == Some(InvalidEndpoint)
    ensures parse(c.endpoint).Some? ==> r.dialled == Some(DialUrl(parse(c.endpoint).value, c.token, c.serverName))
    ensures dial.DialRefused? && parse(c.endpoint).Some? ==> r.error == Some(ConnectionFailed(dial.httpStatus))
  {
    match parse(c.endpoint)
    case None => ConnectResult(c, None, Some(InvalidEndpoint))
    case Some(u) =>
      var d := DialUrl(u, c.token, c.serverName);
      match dial
      case DialRefused(status) => ConnectResult(c, Some(d), Some(ConnectionFailed(status)))
      case Dialled(h) => ConnectResult(c.(conn := Some(h), reconnectAttempts := 0), Some(d), None)
  }

  // ---------------------------------------------------------------- sending

  datatype SendError = NotConnected | WriteFailed

  /** The envelope the client writes: its own token and server name around the data. */
  function EnvelopeOf(c: Client, kind: string, data: Payload, now: Time): Envelope
  {
    Envelope(kind, c.token, c.serverName, data, now)
  }

  /** SendMetrics / SendAlert. Returns the envelope put on the wire, if any. A failed
      write does not change the client: it stays "connected" until a heartbeat or read
      fails. */
  function Send(c: Client, kind: string, data: Payload, now: Time, writeOk: bool): (r: Result<Envelope, SendError>)
    ensures !IsConnected(c) <==> r == Err(NotConnected)
    ensures IsConnected(c) && !writeOk ==> r == Err(WriteFailed)
    ensures r.Ok? ==>
      && IsConnected(c) && writeOk
      && r.value.kind == kind && r.value.token == c.token && r.value.serverName == c.serverName
      && r.value.data == data && r.value.timestamp == now
  {
    if c.conn.None? then Err(NotConnected)
    else if !writeOk then Err(WriteFailed)
    else Ok(EnvelopeOf(c, kind, data, now))
  }

  function SendMetrics(c: Client, m: MetricSample, now: Time, writeOk: bool): (r: Result<Envelope, SendError>)
    ensures r.Ok? ==> r.value.kind == MetricsKind && DecodeMetrics(r.value.data) == Some(m)
    ensures r.Err? <==> !IsConnected(c) || !writeOk
  {
    Send(c, MetricsKind, MetricsData(m), now, writeOk)
  }

  function SendAlert(c: Client, a: AlertInfo, now: Time, writeOk: bool): (r: Result<Envelope, SendError>)
    ensures r.Ok? ==> r.value.kind == AlertKind && DecodeAlert(r.value.data) == Some(a)
    ensures r.Err? <==> !IsConnected(c) || !writeOk
  {
    Send(c, AlertKind, AlertData(a), now, writeOk)
  }

  datatype ClientFrame = ClientClose | ClientPing

  /** Close: nothing to do without a connection; otherwise a close frame, then the
      socket's own close result. The handle is not cleared. */
  function Close(c: Client, closeOk: bool): (r: (seq<ClientFrame>, Option<string>))
    ensures !IsConnected(c) ==> r == ([], None)
    ensures IsConnected(c) ==> r.0 == [ClientClose] && (r.1.None? <==> closeOk)
  {
    if c.conn.None? then ([], None)
    else ([ClientClose], if closeOk then None else Some("close failed"))
  }

  // ---------------------------------------------------------------- backoff

  /** The reconnect delay after `attempts` consecutive losses: the Duration product (which
      wraps like int64), capped at the maximum. */
  function Delay(attempts: int, interval: Time, maxDelay: Time): Time
  {
    var d := WrapInt64(attempts * interval);
    if d > maxDelay then maxDelay else d
  }

  function ReconnectDelay(c: Client): Time
  {
    Delay(c.reconnectAttempts, c.reconnectInterval, c.maxReconnectDelay)
  }

  /** With the defaults the schedule is 5s, 10s, 15s, ... up to 60s and never above it. */
  lemma DefaultSchedule(n: nat)
    requires n * (5 * Second) <= Int64Max
    ensures var d := Delay(n, 5 * Second, 60 * Second);
      && d <= 60 * Second
      && (n <= 12 ==> d == n * (5 * Second))
      && (n >= 12 ==> d == 60 * Second)
  {
  }

  /** Whatever the counter, even past int64 wrap-around, the delay never exceeds the cap. */
  lemma DelayCapped(n: int, interval: Time, maxDelay: Time)
    ensures Delay(n, interval, maxDelay) <= maxDelay
  {
  }

  /** While the product fits in int64 and stays under the cap, the delay is exactly the
      attempt count times the interval. */
  lemma DelayExact(n: int, interval: Time, maxDelay: Time)
    requires InInt64(n * interval) && n * interval <= maxDelay
    ensures Delay(n, interval, maxDelay) == n * interval
  {
  }

  /** Within int64 range the delay grows with the attempt count. */
  lemma DelayMonotone(m: nat, n: nat, interval: nat, maxDelay: Time)
    requires m <= n && n * interval <= Int64Max
    ensures Delay(m, interval, maxDelay) <= Delay(n, interval, maxDelay)
  {
    assert m * interval <= n * interval by {
      MulMonotone(m, n, interval);
    }
  }

  lemma MulMonotone(m: nat, n: nat, k: nat)
    requires m <= n
    ensures m * k <= n * k
  {
  }

  /** The first half of handleDisconnection: drop the handle, count the loss, and compute
      the delay from the new count. */
  function Disconnect(c: Client): (r: (Client, Time))
    ensures !IsConnected(r.0)
    ensures r.0.reconnectAttempts == c.reconnectAttempts + 1
    ensures r.0 == c.(conn := None, reconnectAttempts := r.0.reconnectAttempts)
    ensures r.1 == Delay(c.reconnectAttempts + 1, c.reconnectInterval, c.maxReconnectDelay)
  {
    var d := c.(conn := None, reconnectAttempts := c.reconnectAttempts + 1);
    (d, ReconnectDelay(d))
  }

  // ---------------------------------------------------------------- reconnect loop

  /** The background loops of the agent process that read or write the socket. */
  datatype Loop = Heartbeat | Listener

  /** How long a sleep of `d` lasts: a zero or negative duration (a wrapped delay)
      returns at once. */
  function Slept(d: Time): Time
  {
    if d > 0 then d else 0
  }

  /** A run of handleDisconnection against a sequence of dial outcomes, starting at `t`.
      Each round drops the handle, counts the loss, sleeps the delay and dials; a failed
      dial sleeps the same delay again before the next round. `dialTimes` are the instants
      of the dials made and `delays` the delay computed for each of those rounds; the run
      ends at the first success or when the outcomes run out. */
  datatype ReconnectRun = ReconnectRun(client: Client, dialTimes: seq<Time>, delays: seq<Time>, connected: bool)

  function Reconnect(c: Client, t: Time, parse: string -> Option<Url>, outcomes: seq<DialOutcome>): (r: ReconnectRun)
    ensures |r.dialTimes| == |r.delays| <= |outcomes|
    ensures r.connected <==> IsConnected(r.client)
    ensures r.connected ==> r.client.reconnectAttempts == 0
    ensures !r.connected ==> r.client.reconnectAttempts == c.reconnectAttempts + |r.dialTimes| + 1
    ensures r.client.token == c.token && r.client.serverName == c.serverName && r.client.endpoint == c.endpoint
    ensures r.client.reconnectInterval == c.reconnectInterval && r.client.maxReconnectDelay == c.maxReconnectDelay
    decreases |outcomes|
  {
    var (d, delay) := Disconnect(c);
    var at := t + Slept(delay);
    if |outcomes| == 0 then ReconnectRun(d, [], [], false)
    else
      var cr := Connect(d, parse, outcomes[0]);
      if cr.error.None? then ReconnectRun(cr.client, [at], [delay], true)
      else
        var rest := Reconnect(cr.client, at + Slept(delay), parse, outcomes[1..]);
        ReconnectRun(rest.client, [at] + rest.dialTimes, [delay] + rest.delays, rest.connected)
  }

  /** Between dial k and dial k+1 the loop sleeps the delay of round k again and then the
      delay of round k+1. */
  predicate Gapped(times: seq<Time>, delays: seq<Time>)
    requires |times| == |delays|
  {
    forall k :: 0 <= k < |times| - 1 ==> GapAt(times, delays, k)
  }

  /** The gap between dial k and dial k+1 is the delays of both rounds. */
  predicate GapAt(times: seq<Time>, delays: seq<Time>, k: nat)
    requires |times| == |delays| && k + 1 < |times|
  {
    times[k + 1] - times[k] == Slept(delays[k]) + Slept(delays[k + 1])
  }

  /** The first dial waits one delay; between dial k and dial k+1 the loop sleeps the
      delay of round k again and then the delay of round k+1. A delay that wrapped to a
      negative value sleeps not at all, so no dial comes before the loss or before the
      dial preceding it. */
  lemma {:induction false} ReconnectGaps(c: Client, t: Time, parse: string -> Option<Url>, outcomes: seq<DialOutcome>)
    ensures var r := Reconnect(c, t, parse, outcomes);
      && (|r.dialTimes| > 0 ==> r.dialTimes[0] == t + Slept(r.delays[0]) >= t)
      && (forall k :: 0 <= k < |r.dialTimes| - 1 ==> r.dialTimes[k + 1] - r.dialTimes[k] == Slept(r.delays[k]) + Slept(r.delays[k + 1]))
      && (forall k :: 0 <= k < |r.dialTimes| - 1 ==> r.dialTimes[k] <= r.dialTimes[k + 1])
    decreases |outcomes|
  {
    var r := Reconnect(c, t, parse, outcomes);
    ReconnectGapped(c, t, parse, outcomes);
    forall k | 0 <= k < |r.dialTimes| - 1
      ensures r.dialTimes[k + 1] - r.dialTimes[k] == Slept(r.delays[k]) + Slept(r.delays[k + 1])
    {
      assert GapAt(r.dialTimes, r.delays, k);
    }
  }

  /** Every run of the reconnect loop keeps the gap property. */
  lemma {:induction false} ReconnectGapped(c: Client, t: Time, parse: string -> Option<Url>, outcomes: seq<DialOutcome>)
    ensures var r := Reconnect(c, t, parse, outcomes);
      && Gapped(r.dialTimes, r.delays)
      && (|r.dialTimes| > 0 ==> r.dialTimes[0] == t + Slept(r.delays[0]))
    decreases |outcomes|, 1
  {
    if |outcomes| > 0 && Connect(Disconnect(c).0, parse, outcomes[0]).error.Some? {
      ReconnectGappedAfterFailure(c, t, parse, outcomes);
    } else {
      var r := Reconnect(c, t, parse, outcomes);
      assert |r.dialTimes| <= 1;
    }
  }

  /** The inductive step: a failed first round prepends one dial to a gapped run. */
  lemma {:induction false} ReconnectGappedAfterFailure(c: Client, t: Time, parse: string -> Option<Url>, outcomes: seq<DialOutcome>)
    requires |outcomes| > 0 && Connect(Disconnect(c).0, parse, outcomes[0]).error.Some?
    ensures var r := Reconnect(c, t, parse, outcomes);
      && Gapped(r.dialTimes, r.delays)
      && (|r.dialTimes| > 0 ==> r.dialTimes[0] == t + Slept(r.delays[0]))
    decreases |outcomes|, 0
  {
    var r := Reconnect(c, t, parse, outcomes);
    var dd := Disconnect(c);
    var delay := dd.1;
    var next := Connect(dd.0, parse, outcomes[0]).client;
    var at := t + Slept(delay);
    var rest := Reconnect(next, at + Slept(delay), parse, outcomes[1..]);
    ReconnectGapped(next, at + Slept(delay), parse, outcomes[1..]);
    GapsCons(at, delay, rest.dialTimes, rest.delays);
    assert r == ReconnectRun(rest.client, [at] + rest.dialTimes, [delay] + rest.delays, rest.connected);
    GappedSame([at] + rest.dialTimes, [delay] + rest.delays, r.dialTimes, r.delays);
  }

  /** The gap property carried over to equal sequences. */
  lemma GappedSame(times: seq<Time>, delays: seq<Time>, times': seq<Time>, delays': seq<Time>)
    requires |times| == |delays| && Gapped(times, delays)
    requires times' == times && delays' == delays
    ensures |times'| == |delays'| && Gapped(times', delays')
  {
  }

  /** Prepending a dial that precedes the rest by the sleeps of its own delay and the
      rest's first delay keeps the gap property. */
  lemma GapsCons(at: Time, delay: Time, times: seq<Time>, delays: seq<Time>)
    requires |times| == |delays| && Gapped(times, delays)
    requires |times| > 0 ==> times[0] == at + Slept(delay) + Slept(delays[0])
    ensures Gapped([at] + times, [delay] + delays)
  {
    var ts, ds := [at] + times, [delay] + delays;
    forall k | 0 <= k < |ts| - 1
      ensures GapAt(ts, ds, k)
    {
      if k > 0 {
        assert GapAt(times, delays, k - 1);
        assert ts[k + 1] == times[k] && ts[k] == times[k - 1];
        assert ds[k + 1] == delays[k] && ds[k] == delays[k - 1];
      }
    }
  }

  /** The delay of round k of a run starting from `c`: the delay after k+1 further losses. */
  function RoundDelay(c: Client, k: nat): Time
  {
    Delay(c.reconnectAttempts + k + 1, c.reconnectInterval, c.maxReconnectDelay)
  }

  lemma RoundDelayShift(c: Client, c': Client, k: nat)
    requires c'.reconnectAttempts == c.reconnectAttempts + 1
    requires c'.reconnectInterval == c.reconnectInterval && c'.maxReconnectDelay == c.maxReconnectDelay
    ensures RoundDelay(c', k) == RoundDelay(c, k + 1)
  {
    assert c'.reconnectAttempts + k + 1 == c.reconnectAttempts + (k + 1) + 1;
  }

  /** Round k of the run sleeps the delay computed from the count after k+1 losses. */
  lemma {:induction false} ReconnectDelays(c: Client, t: Time, parse: string -> Option<Url>, outcomes: seq<DialOutcome>)
    ensures var r := Reconnect(c, t, parse, outcomes);
      forall k :: 0 <= k < |r.delays| ==> r.delays[k] == RoundDelay(c, k)
    decreases |outcomes|
  {
    var r := Reconnect(c, t, parse, outcomes);
    var (d, delay) := Disconnect(c);
    if |outcomes| > 0 {
      var cr := Connect(d, parse, outcomes[0]);
      if cr.error.Some? {
        var rest := Reconnect(cr.client, t + Slept(delay) + Slept(delay), parse, outcomes[1..]);
        ReconnectDelays(cr.client, t + Slept(delay) + Slept(delay), parse, outcomes[1..]);
        assert r.delays == [delay] + rest.delays;
        forall k | 0 <= k < |r.delays|
          ensures r.delays[k] == RoundDelay(c, k)
        {
          if k > 0 {
            assert r.delays[k] == rest.delays[k - 1];
            RoundDelayShift(c, cr.client, k - 1);
          }
        }
      }
    }
  }

  /** Only the outcome that succeeded is a success: every earlier dial failed. */
  lemma {:induction false} ReconnectStopsAtFirstSuccess(c: Client, t: Time, parse: string -> Option<Url>, outcomes: seq<DialOutcome>)
    requires parse(c.endpoint).Some?
    ensures var r := Reconnect(c, t, parse, outcomes);
      && (forall k :: 0 <= k < |r.dialTimes| - 1 ==> outcomes[k].DialRefused?)
      && (r.connected <==> |r.dialTimes| > 0 && outcomes[|r.dialTimes| - 1].Dialled?)
      && (!r.connected ==> |r.dialTimes| == |outcomes|)
    decreases |outcomes|
  {
    if |outcomes| > 0 {
      var (d, delay) := Disconnect(c);
      var cr := Connect(d, parse, outcomes[0]);
      if cr.error.Some? {
        ReconnectStopsAtFirstSuccess(cr.client, t + Slept(delay) + Slept(delay), parse, outcomes[1..]);
        var rest := Reconnect(cr.client, t + Slept(delay) + Slept(delay), parse, outcomes[1..]);
        var r := Reconnect(c, t, parse, outcomes);
        assert r.dialTimes == [t + Slept(delay)] + rest.dialTimes;
        forall k | 0 <= k < |r.dialTimes| - 1
          ensures outcomes[k].DialRefused?
        {
          if k > 0 {
            assert outcomes[k] == outcomes[1..][k - 1];
          }
        }
      }
    }
  }

  // ---------------------------------------------------------------- agent loops

  /** The client together with the loops currently running in the agent process, with
      their multiplicity: a heartbeat whose connection was lost keeps ticking, so a
      reconnect can leave two of them running. */
  datatype Agent = Agent(client: Client, running: multiset<Loop>)

  /** What ends a loop: the listener's read failing, or the heartbeat's ping failing. */
  datatype LoopFailure = ReadError | PingError

  function FailedLoop(f: LoopFailure): Loop
  {
    match f
    case ReadError => Listener
    case PingError => Heartbeat
  }

  /** A loop fails and hands off to handleDisconnection; the failing loop exits and a
      successful reconnect starts a heartbeat. */
  function OnLoopFailure(a: Agent, f: LoopFailure, t: Time, parse: string -> Option<Url>, outcomes: seq<DialOutcome>): (r: Agent)
    ensures FailedLoop(f) in a.running ==>
      r.running + multiset{FailedLoop(f)} == a.running + (if IsConnected(r.client) then multiset{Heartbeat} else multiset{})
    ensures IsConnected(r.client) ==> r.client.reconnectAttempts == 0
    ensures !IsConnected(r.client) ==> r.client.reconnectAttempts > a.client.reconnectAttempts
  {
    var run := Reconnect(a.client, t, parse, outcomes);
    Agent(run.client, (a.running - multiset{FailedLoop(f)}) + (if run.connected then multiset{Heartbeat} else multiset{}))
  }

  /** A reconnect never restarts the listener: once it has exited, incoming messages are
      no longer read even while the client reports itself connected. */
  lemma ListenerNeverRestarted(a: Agent, f: LoopFailure, t: Time, parse: string -> Option<Url>, outcomes: seq<DialOutcome>)
    requires FailedLoop(f) in a.running
    ensures var r := OnLoopFailure(a, f, t, parse, outcomes);
      && r.running[Listener] == a.running[Listener] - (if f == ReadError then 1 else 0)
      && r.running[Heartbeat] == a.running[Heartbeat] - (if f == PingError then 1 else 0) + (if IsConnected(r.client) then 1 else 0)
      && (IsConnected(r.client) ==> Heartbeat in r.running)
  {
  }

  /** The end-to-end case: the listener's read fails and the first redial succeeds. The
      client is connected, but nothing reads from the new connection. */
  lemma ReconnectAfterReadError(a: Agent, t: Time, parse: string -> Option<Url>, h: nat)
    requires a.running == multiset{Heartbeat, Listener}
    requires parse(a.client.endpoint).Some?
    ensures var r := OnLoopFailure(a, ReadError, t, parse, [Dialled(h)]);
      && IsConnected(r.client)
      && r.client.reconnectAttempts == 0
      && r.running == multiset{Heartbeat, Heartbeat}
  {
  }

  /** The heartbeat's ping fails and the first redial succeeds: the new heartbeat takes
      the old one's place. The listener loop is still counted as running, but the old
      socket was dropped without being closed, so it stays blocked reading that
      connection rather than the new one; StaleReadDropsNewConnection follows it on. */
  lemma ReconnectAfterPingError(a: Agent, t: Time, parse: string -> Option<Url>, h: nat)
    requires a.running == multiset{Heartbeat, Listener}
    requires parse(a.client.endpoint).Some?
    ensures var r := OnLoopFailure(a, PingError, t, parse, [Dialled(h)]);
      && IsConnected(r.client)
      && r.running == multiset{Heartbeat, Listener}
  {
  }

  /** After a ping failure and a successful redial, the listener's pending read of the
      old socket fails in turn: it hands off to handleDisconnection, which drops the
      connection just made and starts over. However that second reconnect ends, no
      listener is left; if it succeeds two heartbeats run. */
  lemma StaleReadDropsNewConnection(a: Agent, t: Time, t': Time, parse: string -> Option<Url>, h: nat, outcomes: seq<DialOutcome>)
    requires a.running == multiset{Heartbeat, Listener}
    requires parse(a.client.endpoint).Some?
    ensures var r := OnLoopFailure(a, PingError, t, parse, [Dialled(h)]);
      var r' := OnLoopFailure(r, ReadError, t', parse, outcomes);
      && r.client.conn == Some(h)
      && ListenStep(ReadFailed) == HandOff
      && (outcomes == [] ==> r'.client.conn == None)
      && r'.running[Listener] == 0
      && (IsConnected(r'.client) ==> r'.running == multiset{Heartbeat, Heartbeat})
      && (!IsConnected(r'.client) ==> r'.running == multiset{Heartbeat})
  {
    ReconnectAfterPingError(a, t, parse, h);
    var r := OnLoopFailure(a, PingError, t, parse, [Dialled(h)]);
    var d := Disconnect(a.client).0;
    assert Connect(d, parse, Dialled(h)).client.conn == Some(h);
    var run := Reconnect(r.client, t', parse, outcomes);
    assert OnLoopFailure(r, ReadError, t', parse, outcomes).running
      == multiset{Heartbeat} + (if run.connected then multiset{Heartbeat} else multiset{});
  }

  /** One heartbeat tick: skipped without a handle, otherwise a ping; a failed ping ends
      the heartbeat loop and starts handleDisconnection. */
  datatype TickResult = Skipped | Pinged | PingFailed

  function HeartbeatTick(c: Client, writeOk: bool): (r: TickResult)
    ensures r == Skipped <==> !IsConnected(c)
    ensures r == PingFailed <==> IsConnected(c) && !writeOk
  {
    if c.conn.None? then Skipped
    else if writeOk then Pinged
    else PingFailed
  }

  // ---------------------------------------------------------------- listener

  /** A JSON value as far as the listener inspects it. */
  datatype JsonValue = JString(s: string) | JNonString

  datatype Incoming = ReadFailed | Received(fields: map<string, JsonValue>)

  datatype ListenAction = SkipUntyped | ConfigUpdate | Command | UnknownType(kind: string) | HandOff

  /** One iteration of ListenForMessages: every well-read message is only logged. */
  function ListenStep(m: Incoming): (r: ListenAction)
    ensures r == HandOff <==> m == ReadFailed
    ensures r == SkipUntyped <==> m.Received? && !("type" in m.fields && m.fields["type"].JString?)
    ensures r.UnknownType? ==> r.kind != "config_update" && r.kind != "command"
  {
    match m
    case ReadFailed => HandOff
    case Received(fields) =>
      if "type" !in fields || !fields["type"].JString? then SkipUntyped
      else
        var t := fields["type"].s;
        if t == "config_update" then ConfigUpdate
        else if t == "command" then Command
        else UnknownType(t)
  }

  /** ListenForMessages over a stream: returns immediately without a handle; otherwise
      reads until the first read error, after which it hands off and exits. Returns the
      actions taken, in order. */
  function Listen(c: Client, stream: seq<Incoming>): (r: seq<ListenAction>)
    ensures !IsConnected(c) ==> r == []
    ensures IsConnected(c) ==> |r| <= |stream|
    ensures forall k :: 0 <= k < |r| ==> r[k] == ListenStep(stream[k])
    ensures forall k :: 0 <= k < |r| - 1 ==> r[k] != HandOff
    ensures IsConnected(c) && |r| < |stream| ==> |r| > 0 && r[|r| - 1] == HandOff
    decreases |stream|
  {
    if c.conn.None? || |stream| == 0 then []
    else
      var a := ListenStep(stream[0]);
      if a == HandOff then [a]
      else [a] + Listen(c, stream[1..])
  }
}

=== FILE: dashboard.dfy ===
/** The dashboard handlers: the per-user overview, the per-server detail view and the
    chart series, with their parameter parsers and the statistics over a metric series. */
module Dashboard {
  import opened Wrappers
  import opened Numeric
  import opened Numerals
  import opened Models
  import opened Query
  import opened Store
  import opened Registry
  import opened Auth

  // ---------------------------------------------------------------- parameters

  /** parseServerID: `%d` into an unsigned integer; on failure the id is 0 and the error
      flag is set. */
  function ParseServerId(param: string): (r: (nat, bool))
    ensures r.1 <==> ScanDecimal(param, false).Some?
    ensures r.1 ==> r.0 == ScanDecimal(param, false).value
    ensures !r.1 ==> r.0 == 0
  {
    match ScanDecimal(param, false)
    case None => (0, false)
    case Some(v) => (v, true)
  }

  /** A server's key followed by any non-digit text reads back as that key. */
  lemma ParseServerIdOfNumeral(n: nat, trailer: string)
    requires n <= Int64Max
    requires |trailer| == 0 || !IsDigit(trailer[0])
    ensures ParseServerId(Decimal(n) + trailer) == (n, true)
  {
    ScanDecimalOfNumeral(n, trailer, false);
  }

  const DefaultHours: int := 24
  const MaxHours: int := 168

  /** parseHours: a failed scan or a value below 1 gives 24, a value above a week is cut
      to a week, anything else is kept. */
  function ParseHours(param: string): (h: int)
    ensures 1 <= h <= MaxHours
    ensures ScanDecimal(param, true).None? ==> h == DefaultHours
    ensures ScanDecimal(param, true).Some? ==>
      var v := ScanDecimal(param, true).value;
      h == (if v < 1 then DefaultHours else if v > MaxHours then MaxHours else v)
  {
    match ScanDecimal(param, true)
    case None => DefaultHours
    case Some(v) => if v < 1 then DefaultHours else if v > MaxHours then MaxHours else v
  }

  /** Every hours value the parser can produce reads back as itself. */
  lemma ParseHoursStable(param: string)
    ensures ParseHours(Decimal(ParseHours(param))) == ParseHours(param)
  {
    ScanDecimalOfNumeral(ParseHours(param), [], true);
    assert Decimal(ParseHours(param)) + [] == Decimal(ParseHours(param));
  }

  /** `now.Add(-time.Duration(hours) * time.Hour)` for a parsed hours value: the product
      stays inside int64, so the window is exactly `hours` hours long. */
  function WindowStart(now: Time, hours: int): (since: Time)
    requires 1 <= hours <= MaxHours
    ensures since == now - hours * Hour
  {
    now + WrapInt64(-hours * Hour)
  }

  // ---------------------------------------------------------------- statistics

  /** The three percentage columns a metric series is summarised over. */
  datatype Column = CpuColumn | MemoryColumn | DiskColumn

  function ColumnOf(m: Metric, c: Column): real
  {
    match c
    case CpuColumn => m.cpuUsage
    case MemoryColumn => m.memoryPercent
    case DiskColumn => m.diskPercent
  }

  /** The sum of a column over a series, first to last. */
  function Sum(ms: seq<Metric>, c: Column): real
  {
    if |ms| == 0 then 0.0 else Sum(ms[..|ms| - 1], c) + ColumnOf(ms[|ms| - 1], c)
  }

  datatype ColumnStats = ColumnStats(average: real, max: real, min: real)

  /** calculateMetricsStatistics' result: an empty object for an empty series. */
  datatype Statistics = NoStatistics | Statistics(cpu: ColumnStats, memory: ColumnStats, disk: ColumnStats)

  /** What the per-column loop promises: the average is the mean; `max` starts at 0 and
      `min` at 100, so each is either a reading of the series or its starting value, and
      every reading lies between them. */
  ghost predicate Summarises(ms: seq<Metric>, c: Column, s: ColumnStats)
    requires |ms| > 0
  {
    && s.average == Sum(ms, c) / (|ms| as real)
    && (forall i :: 0 <= i < |ms| ==> s.min <= ColumnOf(ms[i], c) <= s.max)
    && 0.0 <= s.max && s.min <= 100.0
    && (s.max == 0.0 || exists i :: 0 <= i < |ms| && ColumnOf(ms[i], c) == s.max)
    && (s.min == 100.0 || exists i :: 0 <= i < |ms| && ColumnOf(ms[i], c) == s.min)
  }

  /** One column's share of calculateMetricsStatistics' loop. */
  method ColumnStatistics(ms: seq<Metric>, c: Column) returns (s: ColumnStats)
    requires |ms| > 0
    ensures Summarises(ms, c, s)
  {
    var total, max, min := 0.0, 0.0, 100.0;
    var i := 0;
    while i < |ms|
      invariant 0 <= i <= |ms|
      invariant total == Sum(ms[..i], c)
      invariant forall k :: 0 <= k < i ==> min <= ColumnOf(ms[k], c) <= max
      invariant 0.0 <= max && min <= 100.0
      invariant max == 0.0 || exists k :: 0 <= k < i && ColumnOf(ms[k], c) == max
      invariant min == 100.0 || exists k :: 0 <= k < i && ColumnOf(ms[k], c) == min
    {
      var v := ColumnOf(ms[i], c);
      assert ms[..i + 1][..i] == ms[..i];
      total := total + v;
      if v > max {
        max := v;
      }
      if v < min {
        min := v;
      }
      i := i + 1;
    }
    assert ms[..|ms|] == ms;
    s := ColumnStats(total / (|ms| as real), max, min);
  }

  /** calculateMetricsStatistics */
  method CalculateMetricsStatistics(ms: seq<Metric>) returns (r: Statistics)
    ensures r.NoStatistics? <==> |ms| == 0
    ensures r.Statistics? ==>
      && Summarises(ms, CpuColumn, r.cpu)
      && Summarises(ms, MemoryColumn, r.memory)
      && Summarises(ms, DiskColumn, r.disk)
  {
    if |ms| == 0 {
      return NoStatistics;
    }
    var cpu := ColumnStatistics(ms, CpuColumn);
    var memory := ColumnStatistics(ms, MemoryColumn);
    var disk := ColumnStatistics(ms, DiskColumn);
    r := Statistics(cpu, memory, disk);
  }

  /** For a series of genuine percentages the starting values never leak out: `max` and
      `min` are readings of the series. */
  lemma StatisticsAttained(ms: seq<Metric>, c: Column, s: ColumnStats)
    requires |ms| > 0 && Summarises(ms, c, s)
    requires forall i :: 0 <= i < |ms| ==> 0.0 <= ColumnOf(ms[i], c) <= 100.0
    ensures exists i :: 0 <= i < |ms| && ColumnOf(ms[i], c) == s.max
    ensures exists i :: 0 <= i < |ms| && ColumnOf(ms[i], c) == s.min
  {
    assert s.min <= ColumnOf(ms[0], c) <= s.max;
  }

  // ---------------------------------------------------------------- chart data

  datatype ChartPoint =
    | ValuePoint(timestamp: Time, value: real)
    | NetworkPoint(timestamp: Time, bytesIn: u64, bytesOut: u64)
    | AllPoint(timestamp: Time, cpu: real, memory: real, disk: real)

  /** One point of a chart series; an unknown type selects all three percentages. */
  function ChartPointOf(m: Metric, kind: string): (p: ChartPoint)
    ensures p.timestamp == m.time
    ensures kind == "cpu" ==> p == ValuePoint(m.time, m.cpuUsage)
    ensures kind == "memory" ==> p == ValuePoint(m.time, m.memoryPercent)
    ensures kind == "disk" ==> p == ValuePoint(m.time, m.diskPercent)
    ensures kind == "network" ==> p == NetworkPoint(m.time, m.networkBytesIn, m.networkBytesOut)
    ensures p.AllPoint? <==> kind !in {"cpu", "memory", "disk", "network"}
  {
    if kind == "cpu" then ValuePoint(m.time, m.cpuUsage)
    else if kind == "memory" then ValuePoint(m.time, m.memoryPercent)
    else if kind == "disk" then ValuePoint(m.time, m.diskPercent)
    else if kind == "network" then NetworkPoint(m.time, m.networkBytesIn, m.networkBytesOut)
    else AllPoint(m.time, m.cpuUsage, m.memoryPercent, m.diskPercent)
  }

  /** formatChartData: one point per metric, in the same order. */
  function FormatChartData(ms: seq<Metric>, kind: string): (r: seq<ChartPoint>)
    ensures |r| == |ms|
    ensures forall i :: 0 <= i < |ms| ==> r[i].timestamp == ms[i].time
    ensures forall i :: 0 <= i < |ms| ==> r[i] == ChartPointOf(ms[i], kind)
  {
    seq(|ms|, i requires 0 <= i < |ms| => ChartPointOf(ms[i], kind))
  }

  /** A series read newest first is charted newest first. */
  lemma ChartKeepsOrder(ms: seq<Metric>, kind: string)
    requires SortedDesc(ms, MetricTime)
    ensures var r := FormatChartData(ms, kind);
      forall i, j :: 0 <= i < j < |r| ==> r[i].timestamp >= r[j].timestamp
  {
    var r := FormatChartData(ms, kind);
    forall i, j | 0 <= i < j < |r|
      ensures r[i].timestamp >= r[j].timestamp
    {
      assert MetricTime(ms[i]) >= MetricTime(ms[j]);
    }
  }

  // ---------------------------------------------------------------- overview

  const WarnCpu: real := 80.0
  const WarnMemory: real := 85.0
  const WarnDisk: real := 90.0
  const Critical: string := "critical"
  const RecentWindow: int := 24 * Hour
  const RecentLimit: nat := 10

  predicate IsWarning(m: Metric)
  {
    m.cpuUsage > WarnCpu || m.memoryPercent > WarnMemory || m.diskPercent > WarnDisk
  }

  predicate IsCritical(a: Alert)
  {
    a.level == Critical
  }

  datatype ServerSummary = ServerSummary(server: Server, isConnected: bool, latest: Option<Metric>, unresolved: seq<Alert>)

  /** The summary of one server: latest metrics are read only for connected servers. */
  function SummaryOf(db: Db, hub: Hub, s: Server): (r: ServerSummary)
    ensures r.server == s
    ensures r.isConnected <==> IsAgentConnected(hub, s.id)
    ensures r.latest.Some? <==> IsAgentConnected(hub, s.id) && GetLatestMetrics(db, s.id).Ok?
    ensures r.latest.Some? ==> r.latest.value == GetLatestMetrics(db, s.id).value
    ensures r.unresolved == GetUnresolvedAlerts(db, s.id)
  {
    var connected := IsAgentConnected(hub, s.id);
    var latest := if connected && GetLatestMetrics(db, s.id).Ok? then Some(GetLatestMetrics(db, s.id).value) else None;
    ServerSummary(s, connected, latest, GetUnresolvedAlerts(db, s.id))
  }

  /** How many elements satisfy `p`. */
  function Count<T>(s: seq<T>, p: T -> bool): (n: nat)
    ensures n <= |s|
  {
    if |s| == 0 then 0 else Count(s[..|s| - 1], p) + (if p(s[|s| - 1]) then 1 else 0)
  }

  lemma CountAppend<T>(s: seq<T>, x: T, p: T -> bool)
    ensures Count(s + [x], p) == Count(s, p) + (if p(x) then 1 else 0)
  {
    assert (s + [x])[..|s|] == s;
  }

  function Connected(x: ServerSummary): bool { x.isConnected }
  function HasMetrics(x: ServerSummary): bool { x.latest.Some? }
  function Warns(x: ServerSummary): bool { x.latest.Some? && IsWarning(x.latest.value) }

  /** The number of critical unresolved alerts over all summaries. */
  function CriticalTotal(ss: seq<ServerSummary>): nat
  {
    if |ss| == 0 then 0 else CriticalTotal(ss[..|ss| - 1]) + Count(ss[|ss| - 1].unresolved, IsCritical)
  }

  /** The sum of a column over the latest metrics of the summaries that have them. */
  function LatestSum(ss: seq<ServerSummary>, c: Column): real
  {
    if |ss| == 0 then 0.0
    else LatestSum(ss[..|ss| - 1], c) + (if ss[|ss| - 1].latest.Some? then ColumnOf(ss[|ss| - 1].latest.value, c) else 0.0)
  }

  function UptimeSum(ss: seq<ServerSummary>): int
  {
    if |ss| == 0 then 0
    else UptimeSum(ss[..|ss| - 1]) + (if ss[|ss| - 1].latest.Some? then ss[|ss| - 1].latest.value.uptime else 0)
  }

  datatype Summary = Summary(total: nat, online: nat, offline: nat, warning: nat, critical: nat)

  datatype SystemHealth = SystemHealth(averageCpu: real, averageMemory: real, averageDisk: real, totalUptime: int)

  const NoHealth: SystemHealth := SystemHealth(0.0, 0.0, 0.0, 0)

  datatype Overview = Overview(summary: Summary, servers: seq<ServerSummary>, recentAlerts: seq<Alert>, health: SystemHealth)

  datatype OverviewReply = OverviewError(status: int, message: string) | OverviewOk(overview: Overview)

  /** `server_id IN ids AND created_at > cutoff` */
  function RecentOf(ids: seq<nat>, cutoff: Time): Alert -> bool
  {
    (a: Alert) => a.serverId in ids && a.createdAt > cutoff
  }

  /** The rows the recent-alerts query selects before ordering and limiting. */
  function RecentRows(db: Db, ids: seq<nat>, now: Time): seq<Alert>
  {
    Filter(db.alerts, RecentOf(ids, now - RecentWindow))
  }

  /** The recent-alerts query: the ten newest alerts of the given servers from the last
      day, newest first. */
  function RecentAlerts(db: Db, ids: seq<nat>, now: Time): (r: seq<Alert>)
    ensures |r| == if RecentLimit < |RecentRows(db, ids, now)| then RecentLimit
      else |RecentRows(db, ids, now)|
    ensures r <= SortDesc(RecentRows(db, ids, now), AlertCreatedAt)
    ensures forall i, j :: 0 <= j < |r| <= i < |RecentRows(db, ids, now)| ==>
      SortDesc(RecentRows(db, ids, now), AlertCreatedAt)[i].createdAt <= r[j].createdAt
    ensures SortedDesc(r, AlertCreatedAt)
    ensures forall i :: 0 <= i < |r| ==> r[i] in db.alerts && r[i].serverId in ids && r[i].createdAt > now - RecentWindow
    ensures |RecentRows(db, ids, now)| <= RecentLimit ==>
      multiset(r) == multiset(RecentRows(db, ids, now))
  {
    TopDesc(RecentRows(db, ids, now), AlertCreatedAt, RecentLimit)
  }

  /** The critical unresolved alerts of one server, counted as the inner loop does. */
  method CountCritical(alerts: seq<Alert>) returns (n: nat)
    ensures n == Count(alerts, IsCritical)
  {
    n := 0;
    var j := 0;
    while j < |alerts|
      invariant 0 <= j <= |alerts|
      invariant n == Count(alerts[..j], IsCritical)
    {
      CountAppend(alerts[..j], alerts[j], IsCritical);
      assert alerts[..j + 1] == alerts[..j] + [alerts[j]];
      if IsCritical(alerts[j]) {
        n := n + 1;
      }
      j := j + 1;
    }
    assert alerts[..|alerts|] == alerts;
  }

  /** The loop's accumulators. */
  datatype Totals = Totals(
    summaries: seq<ServerSummary>,
    online: nat, offline: nat, warning: nat, critical: nat, metricsCount: nat,
    cpu: real, memory: real, disk: real, uptime: int)

  /** The accumulators agree with the reference definitions over the summaries so far. */
  ghost predicate Accumulated(t: Totals)
  {
    && t.online == Count(t.summaries, Connected)
    && t.offline == |t.summaries| - t.online
    && t.warning == Count(t.summaries, Warns)
    && t.metricsCount == Count(t.summaries, HasMetrics)
    && t.critical == CriticalTotal(t.summaries)
    && t.cpu == LatestSum(t.summaries, CpuColumn)
    && t.memory == LatestSum(t.summaries, MemoryColumn)
    && t.disk == LatestSum(t.summaries, DiskColumn)
    && t.uptime == UptimeSum(t.summaries)
  }

  /** One iteration of the loop: the server's summary joins the accumulators. */
  method AddSummary(t: Totals, s: ServerSummary) returns (r: Totals)
    requires Accumulated(t)
    ensures r.summaries == t.summaries + [s]
    ensures Accumulated(r)
  {
    var ss := t.summaries;
    CountAppend(ss, s, Connected);
    CountAppend(ss, s, Warns);
    CountAppend(ss, s, HasMetrics);
    var next := ss + [s];
    assert next[..|next| - 1] == ss;
    r := t.(summaries := next);
    if s.isConnected {
      r := r.(online := r.online + 1);
    } else {
      r := r.(offline := r.offline + 1);
    }
    if s.latest.Some? {
      var m := s.latest.value;
      r := r.(cpu := r.cpu + m.cpuUsage, memory := r.memory + m.memoryPercent, disk := r.disk + m.diskPercent,
              uptime := r.uptime + m.uptime, metricsCount := r.metricsCount + 1);
      if IsWarning(m) {
        r := r.(warning := r.warning + 1);
      }
    }
    var c := CountCritical(s.unresolved);
    r := r.(critical := r.critical + c);
  }

  /** `ss` summarises the first `|ss|` of `servers`, in order. */
  ghost predicate SummariesOf(db: Db, hub: Hub, servers: seq<Server>, ss: seq<ServerSummary>)
  {
    |ss| <= |servers| && forall k :: 0 <= k < |ss| ==> ss[k] == SummaryOf(db, hub, servers[k])
  }

  /** The loop over the user's servers. */
  method SummarizeServers(db: Db, hub: Hub, servers: seq<Server>) returns (t: Totals)
    ensures |t.summaries| == |servers|
    ensures forall i :: 0 <= i < |servers| ==> t.summaries[i] == SummaryOf(db, hub, servers[i])
    ensures Accumulated(t)
  {
    t := Totals([], 0, 0, 0, 0, 0, 0.0, 0.0, 0.0, 0);
    var i := 0;
    while i < |servers|
      invariant 0 <= i <= |servers|
      invariant |t.summaries| == i
      invariant SummariesOf(db, hub, servers, t.summaries)
      invariant Accumulated(t)
    {
      var s := SummaryOf(db, hub, servers[i]);
      var before := t.summaries;
      t := AddSummary(t, s);
      assert forall k :: 0 <= k < i ==> t.summaries[k] == before[k];
      i := i + 1;
    }
  }

  /** The averages over the servers that reported metrics; zero when none did. */
  function Health(t: Totals): (h: SystemHealth)
    ensures t.metricsCount == 0 ==> h == NoHealth
  {
    if t.metricsCount == 0 then NoHealth
    else
      var n := t.metricsCount;
      SystemHealth(t.cpu / (n as real), t.memory / (n as real), t.disk / (n as real), TruncDiv(t.uptime, n))
  }

  function ServerIds(servers: seq<Server>): (ids: seq<nat>)
    ensures |ids| == |servers|
    ensures forall i :: 0 <= i < |servers| ==> ids[i] == servers[i].id
  {
    seq(|servers|, i requires 0 <= i < |servers| => servers[i].id)
  }

  /** GetDashboardData. `recentOk` is whether the recent-alerts query succeeds; when it
      fails the list stays empty and the reply is still 200. */
  method GetDashboardData(db: Db, hub: Hub, claims: Option<Claims>, now: Time, recentOk: bool) returns (r: OverviewReply)
    ensures claims.None? ==> r == OverviewError(401, "User not authenticated")
    ensures claims.Some? ==> (r.OverviewError? <==> GetUserByUid(db, claims.value.uid).Err?)
    ensures claims.Some? && r.OverviewError? ==> r.status == 500
    ensures r.OverviewOk? ==>
      var servers := Store.GetUserServers(db, claims.value.uid).value;
      var o := r.overview;
      && |o.servers| == |servers|
      && (forall i :: 0 <= i < |servers| ==> o.servers[i] == SummaryOf(db, hub, servers[i]))
      && o.summary.total == |servers|
      && o.summary.online == Count(o.servers, Connected)
      && o.summary.offline == |servers| - o.summary.online
      && o.summary.warning == Count(o.servers, Warns)
      && o.summary.critical == CriticalTotal(o.servers)
      && (Count(o.servers, HasMetrics) == 0 ==> o.health == NoHealth)
      && (Count(o.servers, HasMetrics) > 0 ==>
            var n := Count(o.servers, HasMetrics);
            && o.health.averageCpu == LatestSum(o.servers, CpuColumn) / (n as real)
            && o.health.averageMemory == LatestSum(o.servers, MemoryColumn) / (n as real)
            && o.health.averageDisk == LatestSum(o.servers, DiskColumn) / (n as real)
            && o.health.totalUptime == TruncDiv(UptimeSum(o.servers), n))
      && o.recentAlerts == (if recentOk && |servers| > 0 then RecentAlerts(db, ServerIds(servers), now) else [])
  {
    if claims.None? {
      return OverviewError(401, "User not authenticated");
    }
    var found := Store.GetUserServers(db, claims.value.uid);
    if found.Err? {
      return OverviewError(500, "Failed to get servers");
    }
    var servers := found.value;
    if |servers| == 0 {
      return OverviewOk(Overview(Summary(0, 0, 0, 0, 0), [], [], NoHealth));
    }
    var t := SummarizeServers(db, hub, servers);
    var recent := if recentOk then RecentAlerts(db, ServerIds(servers), now) else [];
    var summary := Summary(|servers|, t.online, t.offline, t.warning, t.critical);
    r := OverviewOk(Overview(summary, t.summaries, recent, Health(t)));
  }

  /** Only a connected server can be in warning: summaries carry latest metrics for
      connected servers alone, so the warning count never exceeds the online count. */
  lemma {:induction false} WarningAtMostOnline(ss: seq<ServerSummary>)
    requires forall i :: 0 <= i < |ss| ==> ss[i].latest.Some? ==> ss[i].isConnected
    ensures Count(ss, Warns) <= Count(ss, HasMetrics) <= Count(ss, Connected)
  {
    if |ss| > 0 {
      WarningAtMostOnline(ss[..|ss| - 1]);
    }
  }

  /** The overview's warning count is bounded by its online count. */
  lemma OverviewWarningsOnline(db: Db, hub: Hub, servers: seq<Server>, ss: seq<ServerSummary>)
    requires |ss| == |servers|
    requires forall i :: 0 <= i < |servers| ==> ss[i] == SummaryOf(db, hub, servers[i])
    ensures Count(ss, Warns) <= Count(ss, Connected)
  {
    WarningAtMostOnline(ss);
  }

  /** The health averages of genuine percentages are percentages. */
  lemma {:induction false} LatestSumBounds(ss: seq<ServerSummary>, c: Column)
    requires forall i :: 0 <= i < |ss| ==> ss[i].latest.Some? ==> 0.0 <= ColumnOf(ss[i].latest.value, c) <= 100.0
    ensures 0.0 <= LatestSum(ss, c) <= 100.0 * (Count(ss, HasMetrics) as real)
  {
    if |ss| > 0 {
      LatestSumBounds(ss[..|ss| - 1], c);
    }
  }

  // ---------------------------------------------------------------- per-server views

  /** validateServerOwnership: the user's row, then the server with that key and owner;
      any failure is reported as a missing server. */
  function ValidateServerOwnership(db: Db, id: nat, uid: string): (r: Option<Server>)
    ensures r.Some? <==> (GetUserByUid(db, uid).Ok? &&
      exists i :: 0 <= i < |db.servers| && db.servers[i].id == id && db.servers[i].userId == GetUserByUid(db, uid).value.id)
    ensures r.Some? ==> r.value in db.servers && r.value.id == id && r.value.userId == GetUserByUid(db, uid).value.id
  {
    match GetUserByUid(db, uid)
    case Err(_) => None
    case Ok(user) =>
      var p := (s: Server) => s.id == id && s.userId == user.id;
      assert forall i :: 0 <= i < |db.servers| ==> (p(db.servers[i]) <==> db.servers[i].id == id && db.servers[i].userId == user.id);
      First(db.servers, p)
  }

  datatype ServerView = ServerView(id: nat, name: string, status: string, lastSeen: Option<Time>, isConnected: bool)

  datatype DetailReply =
    | DetailError(status: int, message: string)
    | Detail(server: ServerView, metrics: seq<Metric>, alerts: seq<Alert>, statistics: Statistics, since: Time, hours: int)

  /** GetServerDashboard. `hoursParam` is the query value, "24" when absent. */
  method GetServerDashboard(db: Db, hub: Hub, claims: Option<Claims>, idParam: string, hoursParam: string, now: Time) returns (r: DetailReply)
    ensures claims.None? ==> r == DetailError(401, "User not authenticated")
    ensures claims.Some? && !ParseServerId(idParam).1 ==> r == DetailError(400, "Invalid server ID")
    ensures claims.Some? && ParseServerId(idParam).1 ==>
      (r.DetailError? <==> ValidateServerOwnership(db, ParseServerId(idParam).0, claims.value.uid).None?)
    ensures r.DetailError? && claims.Some? && ParseServerId(idParam).1 ==> r.status == 404
    ensures r.Detail? ==>
      var id := ParseServerId(idParam).0;
      && claims.Some? && ValidateServerOwnership(db, id, claims.value.uid).Some?
      && var row := ValidateServerOwnership(db, id, claims.value.uid).value;
      && r.server == ServerView(id, row.name, row.status, row.lastSeen, r.server.isConnected)
      && (r.server.isConnected <==> IsAgentConnected(hub, id))
      && r.hours == ParseHours(hoursParam)
      && r.since == now - r.hours * Hour
      && r.metrics == Store.GetServerMetrics(db, id, r.since)
      && r.alerts == Store.GetServerAlerts(db, id, 50)
      && (r.statistics.NoStatistics? <==> |r.metrics| == 0)
      && (r.statistics.Statistics? ==>
            && Summarises(r.metrics, CpuColumn, r.statistics.cpu)
            && Summarises(r.metrics, MemoryColumn, r.statistics.memory)
            && Summarises(r.metrics, DiskColumn, r.statistics.disk))
  {
    if claims.None? {
      return DetailError(401, "User not authenticated");
    }
    var (id, ok) := ParseServerId(idParam);
    if !ok {
      return DetailError(400, "Invalid server ID");
    }
    var owned := ValidateServerOwnership(db, id, claims.value.uid);
    if owned.None? {
      return DetailError(404, "Server not found");
    }
    var server := owned.value;
    var hours := ParseHours(hoursParam);
    var since := WindowStart(now, hours);
    var metrics := Store.GetServerMetrics(db, id, since);
    var alerts := Store.GetServerAlerts(db, id, 50);
    var stats := CalculateMetricsStatistics(metrics);
    var view := ServerView(server.id, server.name, server.status, server.lastSeen, IsAgentConnected(hub, id));
    r := Detail(view, metrics, alerts, stats, since, hours);
  }

  datatype ChartReply =
    | ChartError(status: int, message: string)
    | Chart(kind: string, data: seq<ChartPoint>, since: Time, hours: int)

  /** GetMetricsChart. `kind` is the `type` query value, "cpu" when absent. */
  function GetMetricsChart(db: Db, claims: Option<Claims>, idParam: string, hoursParam: string, kind: string, now: Time): (r: ChartReply)
    ensures claims.None? ==> r == ChartError(401, "User not authenticated")
    ensures claims.Some? && !ParseServerId(idParam).1 ==> r == ChartError(400, "Invalid server ID")
    ensures claims.Some? && ParseServerId(idParam).1 ==>
      (r.ChartError? <==> ValidateServerOwnership(db, ParseServerId(idParam).0, claims.value.uid).None?)
    ensures r.ChartError? && claims.Some? && ParseServerId(idParam).1 ==> r.status == 404
    ensures r.Chart? ==>
      && r.kind == kind
      && r.hours == ParseHours(hoursParam)
      && r.since == now - r.hours * Hour
      && |r.data| == |Store.GetServerMetrics(db, ParseServerId(idParam).0, r.since)|
      && forall i :: 0 <= i < |r.data| ==> r.data[i] == ChartPointOf(Store.GetServerMetrics(db, ParseServerId(idParam).0, r.since)[i], kind)
  {
    match claims
    case None => ChartError(401, "User not authenticated")
    case Some(cl) =>
      var (id, ok) := ParseServerId(idParam);
      if !ok then ChartError(400, "Invalid server ID")
      else if ValidateServerOwnership(db, id, cl.uid).None? then ChartError(404, "Server not found")
      else
        var hours := ParseHours(hoursParam);
        var since := WindowStart(now, hours);
        Chart(kind, FormatChartData(Store.GetServerMetrics(db, id, since), kind), since, hours)
  }

  /** A chart is drawn newest point first, like the stored series it comes from. */
  lemma ChartNewestFirst(db: Db, claims: Option<Claims>, idParam: string, hoursParam: string, kind: string, now: Time)
    requires GetMetricsChart(db, claims, idParam, hoursParam, kind, now).Chart?
    ensures var d := GetMetricsChart(db, claims, idParam, hoursParam, kind, now).data;
      forall i, j :: 0 <= i < j < |d| ==> d[i].timestamp >= d[j].timestamp
  {
    var r := GetMetricsChart(db, claims, idParam, hoursParam, kind, now);
    ChartKeepsOrder(Store.GetServerMetrics(db, ParseServerId(idParam).0, r.since), kind);
  }
}

=== FILE: models.dfy ===
/** The collector's persistent records: users, monitored servers, stored metric samples
    and stored alerts. Relationship fields and GORM bookkeeping columns that no modelled
    operation reads are omitted. */
module Models {
  import opened Wrappers
  import opened Numeric

  /** The three values the `status` column takes. */
  const Online: string := "online"
  const Offline: string := "offline"
  const Warning: string := "warning"

  datatype User = User(id: nat, firebaseUid: string, email: string)

  datatype Server = Server(
    id: nat,
    userId: nat,
    token: string,
    name: string,
    lastSeen: Option<Time>,
    status: string)

  datatype Metric = Metric(
    id: nat,
    time: Time,
    serverId: nat,
    cpuUsage: real,
    cpuCores: int,
    memoryTotal: u64,
    memoryUsed: u64,
    memoryAvailable: u64,
    memoryPercent: real,
    diskTotal: u64,
    diskUsed: u64,
    diskFree: u64,
    diskPercent: real,
    networkBytesIn: u64,
    networkBytesOut: u64,
    uptime: int)

  datatype Alert = Alert(
    id: nat,
    serverId: nat,
    kind: string,
    level: string,
    message: string,
    value: real,
    threshold: real,
    resolved: bool,
    createdAt: Time)

  function UserId(u: User): nat { u.id }
  function ServerId(s: Server): nat { s.id }
  function MetricId(m: Metric): nat { m.id }
  function AlertId(a: Alert): nat { a.id }
  function MetricTime(m: Metric): int { m.time }
  function AlertCreatedAt(a: Alert): int { a.createdAt }
}

=== FILE: numerals.dfy ===
/** Decimal numerals as Go's `strconv` and `fmt.Sscanf("%d")` read them. Only base 10 is
    modelled; that is the only base the handlers use. */
module Numerals {
  import opened Wrappers
  import opened Numeric

  predicate IsDigit(c: char)
  {
    '0' <= c <= '9'
  }

  predicate AllDigits(s: string)
  {
    forall i :: 0 <= i < |s| ==> IsDigit(s[i])
  }

  function DigitValue(c: char): nat
    requires IsDigit(c)
  {
    c as int - '0' as int
  }

  /** The value of a string of decimal digits, most significant first. */
  function Value(s: string): nat
    requires AllDigits(s)
  {
    if |s| == 0 then 0 else Value(s[..|s| - 1]) * 10 + DigitValue(s[|s| - 1])
  }

  function DigitChar(d: nat): (c: char)
    requires d < 10
    ensures IsDigit(c) && DigitValue(c) == d
  {
    ('0' as int + d) as char
  }

  /** The canonical numeral of `n`: no sign, no leading zeros. */
  function Decimal(n: nat): (s: string)
    ensures |s| > 0 && AllDigits(s)
  {
    if n < 10 then [DigitChar(n)] else Decimal(n / 10) + [DigitChar(n % 10)]
  }

  lemma {:induction false} DecimalValue(n: nat)
    ensures Value(Decimal(n)) == n
  {
    if n >= 10 {
      DecimalValue(n / 10);
      var s := Decimal(n);
      assert s[..|s| - 1] == Decimal(n / 10);
    }
  }

  /** strconv.ParseUint(s, 10, 32): digits only, no sign, at least one digit, and a
      value that fits in 32 bits. */
  function ParseUint32(s: string): (r: Option<nat>)
    ensures r.Some? ==> r.value <= Uint32Max && |s| > 0 && AllDigits(s)
    ensures |s| > 0 && !IsDigit(s[0]) ==> r.None?
  {
    if |s| > 0 && AllDigits(s) && Value(s) <= Uint32Max then Some(Value(s)) else None
  }

  /** strconv.Atoi on a 64-bit platform: an optional `+` or `-`, at least one digit, and
      a value within int64. */
  function Atoi(s: string): (r: Option<int>)
    ensures r.Some? ==> InInt64(r.value)
    ensures r.Some? && r.value < 0 ==> |s| > 0 && s[0] == '-'
    ensures |s| > 0 && !IsDigit(s[0]) && s[0] != '+' && s[0] != '-' ==> r.None?
  {
    var negative := |s| > 0 && s[0] == '-';
    var digits := if |s| > 0 && (s[0] == '+' || s[0] == '-') then s[1..] else s;
    if |digits| == 0 || !AllDigits(digits) then None
    else
      var v: int := if negative then 0 - Value(digits) else Value(digits);
      if InInt64(v) then Some(v) else None
  }

  /** The white space `fmt`'s scanner skips (unicode.IsSpace minus the newline). */
  predicate IsScanSpace(c: char)
  {
    || c == ' ' || c == '\t' || c == '\U{000B}' || c == '\U{000C}' || c == '\r'
    || c == '\U{0085}' || c == '\U{00A0}' || c == '\U{1680}'
    || ('\U{2000}' <= c <= '\U{200A}')
    || c == '\U{2028}' || c == '\U{2029}' || c == '\U{202F}' || c == '\U{205F}' || c == '\U{3000}'
  }

  /** Sscanf skips leading spaces before a number; with Sscanf (unlike Sscanln) a
      newline there is an error, reported here as None. */
  function SkipSpace(s: string): Option<string>
  {
    if |s| == 0 then Some(s)
    else if s[0] == '\n' then None
    else if IsScanSpace(s[0]) then SkipSpace(s[1..])
    else Some(s)
  }

  /** The longest prefix of `s` made of decimal digits. */
  function LeadingDigits(s: string): (d: string)
    ensures AllDigits(d) && d <= s
    ensures |d| < |s| ==> !IsDigit(s[|d|])
  {
    if |s| == 0 || !IsDigit(s[0]) then [] else [s[0]] + LeadingDigits(s[1..])
  }

  /** fmt.Sscanf(s, "%d", &x): skip spaces, read an optional sign (only when `signed`,
      the target being `int` rather than `uint`) and as many digits as follow, and ignore
      whatever comes after them. The token must fit in 64 bits. */
  function ScanDecimal(s: string, signed: bool): (r: Option<int>)
    ensures r.Some? && !signed ==> 0 <= r.value <= Uint64Max
    ensures r.Some? && signed ==> InInt64(r.value)
  {
    match SkipSpace(s)
    case None => None
    case Some(t) =>
      var negative := signed && |t| > 0 && t[0] == '-';
      var rest := if signed && |t| > 0 && (t[0] == '+' || t[0] == '-') then t[1..] else t;
      var digits := LeadingDigits(rest);
      if |digits| == 0 then None
      else if signed then
        var v: int := if negative then 0 - Value(digits) else Value(digits);
        if InInt64(v) then Some(v) else None
      else if Value(digits) <= Uint64Max then Some(Value(digits))
      else None
  }

  lemma {:induction false} DigitsPrefixValue(s: string, t: string)
    requires AllDigits(s) && |s| > 0
    requires |t| == 0 || !IsDigit(t[0])
    ensures LeadingDigits(s + t) == s
  {
    var st := s + t;
    assert st[0] == s[0] && IsDigit(st[0]);
    assert LeadingDigits(st) == [s[0]] + LeadingDigits(st[1..]);
    if |s| == 1 {
      assert st[1..] == t;
      assert LeadingDigits(t) == [];
      assert s == [s[0]];
    } else {
      assert st[1..] == s[1..] + t;
      DigitsPrefixValue(s[1..], t);
      assert s == [s[0]] + s[1..];
    }
  }

  /** Reading back a canonical numeral gives the number, whatever non-digit text follows
      it: Sscanf's `%d` ignores trailing input. */
  lemma ScanDecimalOfNumeral(n: nat, trailer: string, signed: bool)
    requires n <= Int64Max
    requires |trailer| == 0 || !IsDigit(trailer[0])
    ensures ScanDecimal(Decimal(n) + trailer, signed) == Some(n)
  {
    var s := Decimal(n) + trailer;
    assert s[0] == Decimal(n)[0];
    assert SkipSpace(s) == Some(s);
    DigitsPrefixValue(Decimal(n), trailer);
    DecimalValue(n);
  }

  /** Atoi reads canonical numerals and their negations back exactly. */
  lemma AtoiOfNumeral(n: nat)
    requires n <= Int64Max
    ensures Atoi(Decimal(n)) == Some(n)
    ensures Atoi("-" + Decimal(n)) == Some(-(n as int))
  {
    DecimalValue(n);
    assert ("-" + Decimal(n))[1..] == Decimal(n);
  }

  /** ParseUint32 accepts exactly the canonical numerals below 2^32 among numerals, and
      refuses anything carrying a sign. */
  lemma ParseUint32OfNumeral(n: nat)
    ensures n <= Uint32Max ==> ParseUint32(Decimal(n)) == Some(n)
    ensures n > Uint32Max ==> ParseUint32(Decimal(n)) == None
    ensures ParseUint32("+" + Decimal(n)) == None
  {
    DecimalValue(n);
    assert !IsDigit(("+" + Decimal(n))[0]);
  }
}

=== FILE: numeric.dfy ===
/** Go's fixed-width integers and time values, written out over Dafny's unbounded `int`. */
module Numeric {

  /** time.Time and time.Duration are both modelled as integer nanoseconds. */
  type Time = int

  const Second: int := 1_000_000_000
  const Minute: int := 60 * Second
  const Hour: int := 60 * Minute

  const TwoTo64: int := 0x1_0000_0000_0000_0000
  const Int64Min: int := -0x8000_0000_0000_0000
  const Int64Max: int := 0x7FFF_FFFF_FFFF_FFFF
  const Uint32Max: int := 0xFFFF_FFFF
  const Uint64Max: int := 0xFFFF_FFFF_FFFF_FFFF

  /** Go's uint64. */
  type u64 = x: int | 0 <= x <= 0xFFFF_FFFF_FFFF_FFFF

  predicate InInt64(x: int)
  {
    Int64Min <= x <= Int64Max
  }

  /** Two's-complement wrap-around of an exact result into int64, which is what Go's
      int64 (and time.Duration) arithmetic does on overflow. */
  function WrapInt64(x: int): (r: int)
    ensures InInt64(r)
    ensures (x - r) % TwoTo64 == 0
    ensures InInt64(x) ==> r == x
  {
    (x - Int64Min) % TwoTo64 + Int64Min
  }

  /** One step below the int64 range wraps to the top of it. */
  lemma WrapBelowMin(x: int)
    requires Int64Min - TwoTo64 <= x < Int64Min
    ensures WrapInt64(x) == x + TwoTo64
  {
    var y := x - Int64Min + TwoTo64;
    assert 0 <= y < TwoTo64;
    assert x - Int64Min == y - TwoTo64;
  }

  function Abs(x: int): nat
  {
    if x < 0 then -x else x
  }

  /** Go's integer division: the quotient is truncated toward zero, unlike Dafny's
      Euclidean `/`. */
  function TruncDiv(a: int, b: int): (q: int)
    requires b != 0
    ensures Abs(q) == Abs(a) / Abs(b)
    ensures q != 0 ==> (q > 0 <==> (a > 0) == (b > 0))
    ensures a >= 0 && b > 0 ==> q == a / b
  {
    var x, y := Abs(a), Abs(b);
    DivNonNegative(x, y);
    var m := x / y;
    if (a < 0) == (b < 0) then m else -m
  }

  lemma DivNonNegative(x: nat, y: nat)
    requires y > 0
    ensures x / y >= 0
  {
  }
}

=== FILE: producer.dfy ===
/** The agent's metric producer: one sample from the host samplers, and the threshold
    evaluator that turns a sample into alerts. The samplers' results are inputs. */
module Producer {
  import opened Wrappers
  import opened Numeric
  import opened Wire

  datatype Collector = Collector(serverName: string, startTime: Time)

  function NewCollector(serverName: string, now: Time): (c: Collector)
    ensures c.serverName == serverName && c.startTime == now
  {
    Collector(serverName, now)
  }

  /** What the host samplers returned. `cpuPercent` is the aggregate CPU reading list,
      `netCounters` the aggregate interface counters (possibly empty). */
  datatype Readings = Readings(
    cpuPercent: Result<seq<real>, string>,
    numCpu: int,
    memory: Result<MemInfo, string>,
    disk: Result<DiskInfo, string>,
    netCounters: Result<seq<NetInfo>, string>)

  datatype CollectError =
    | SamplerFailed(reason: string)
    /** An empty CPU reading list: the source indexes its first element and panics. */
    | EmptyCpuReading

  predicate AllSamplersOk(r: Readings)
  {
    r.cpuPercent.Ok? && r.memory.Ok? && r.disk.Ok? && r.netCounters.Ok?
  }

  /** Whole seconds elapsed since the collector was created, truncated toward zero. */
  function UptimeSeconds(c: Collector, now: Time): (u: int)
    ensures now >= c.startTime ==> u * Second <= now - c.startTime < (u + 1) * Second
  {
    TruncDiv(now - c.startTime, Second)
  }

  /** CollectMetrics: all or nothing. The samplers are consulted in the order cpu, memory,
      disk, network and the first failure is the error. */
  function CollectMetrics(c: Collector, now: Time, rd: Readings): (r: Result<MetricSample, CollectError>)
    ensures r.Ok? <==> AllSamplersOk(rd) && |rd.cpuPercent.value| > 0
    ensures rd.cpuPercent.Err? ==> r == Err(SamplerFailed(rd.cpuPercent.error))
    ensures r.Ok? ==>
      && r.value.timestamp == now
      && r.value.serverName == c.serverName
      && r.value.uptime == UptimeSeconds(c, now)
      && r.value.cpu == CpuInfo(rd.cpuPercent.value[0], rd.numCpu)
      && r.value.memory == rd.memory.value
      && r.value.disk == rd.disk.value
      && r.value.network == (if |rd.netCounters.value| > 0 then rd.netCounters.value[0] else ZeroNet)
  {
    match rd.cpuPercent
    case Err(e) => Err(SamplerFailed(e))
    case Ok(cpu) =>
      if |cpu| == 0 then Err(EmptyCpuReading)
      else
        match rd.memory
        case Err(e) => Err(SamplerFailed(e))
        case Ok(mem) =>
          match rd.disk
          case Err(e) => Err(SamplerFailed(e))
          case Ok(disk) =>
            match rd.netCounters
            case Err(e) => Err(SamplerFailed(e))
            case Ok(counters) =>
              var net := if |counters| > 0 then counters[0] else ZeroNet;
              Ok(MetricSample(now, c.serverName, CpuInfo(cpu[0], rd.numCpu), mem, disk, net, UptimeSeconds(c, now)))
  }

  // ---------------------------------------------------------------- alerts

  datatype Thresholds = Thresholds(cpu: real, memory: real, disk: real)

  /** The three resource families, in the order they are evaluated. */
  datatype Family = Cpu | Memory | Disk

  const Families: seq<Family> := [Cpu, Memory, Disk]

  const WarningLevel: string := "warning"

  function KindOf(f: Family): string
  {
    match f
    case Cpu => "cpu"
    case Memory => "memory"
    case Disk => "disk"
  }

  function Reading(m: MetricSample, f: Family): real
  {
    match f
    case Cpu => m.cpu.usage
    case Memory => m.memory.usedPercent
    case Disk => m.disk.usedPercent
  }

  function Limit(th: Thresholds, f: Family): real
  {
    match f
    case Cpu => th.cpu
    case Memory => th.memory
    case Disk => th.disk
  }

  /** The alert for one family. `describe` renders the message from the family, the
      observed value and the threshold (the source formats both with one decimal). */
  function AlertFor(m: MetricSample, th: Thresholds, f: Family, describe: (Family, real, real) -> string): AlertInfo
  {
    AlertInfo(KindOf(f), WarningLevel, describe(f, Reading(m, f), Limit(th, f)), Reading(m, f), Limit(th, f), m.timestamp)
  }

  function AlertIf(m: MetricSample, th: Thresholds, f: Family, describe: (Family, real, real) -> string): seq<AlertInfo>
  {
    if Reading(m, f) > Limit(th, f) then [AlertFor(m, th, f, describe)] else []
  }

  /** CheckAlerts: one warning per family whose reading strictly exceeds its threshold,
      in the order cpu, memory, disk. */
  function CheckAlerts(m: MetricSample, th: Thresholds, describe: (Family, real, real) -> string): (r: seq<AlertInfo>)
    ensures |r| <= 3
    ensures forall i :: 0 <= i < |r| ==> r[i].level == WarningLevel && r[i].timestamp == m.timestamp
  {
    AlertIf(m, th, Cpu, describe) + AlertIf(m, th, Memory, describe) + AlertIf(m, th, Disk, describe)
  }

  /** Reference definition: the families in evaluation order whose reading exceeds the
      threshold. */
  function Exceeded(m: MetricSample, th: Thresholds, fs: seq<Family>): (r: seq<Family>)
    ensures forall f :: f in r <==> f in fs && Reading(m, f) > Limit(th, f)
  {
    if |fs| == 0 then []
    else (if Reading(m, fs[0]) > Limit(th, fs[0]) then [fs[0]] else []) + Exceeded(m, th, fs[1..])
  }

  /** The alerts for a list of families, each evaluated in turn. */
  function AlertsOver(m: MetricSample, th: Thresholds, fs: seq<Family>, describe: (Family, real, real) -> string): seq<AlertInfo>
  {
    if |fs| == 0 then [] else AlertIf(m, th, fs[0], describe) + AlertsOver(m, th, fs[1..], describe)
  }

  lemma {:induction false} AlertsOverExceeded(m: MetricSample, th: Thresholds, fs: seq<Family>, describe: (Family, real, real) -> string)
    ensures var r := AlertsOver(m, th, fs, describe);
      var ex := Exceeded(m, th, fs);
      |r| == |ex| && forall i :: 0 <= i < |r| ==> r[i] == AlertFor(m, th, ex[i], describe)
    decreases |fs|
  {
    if |fs| > 0 {
      AlertsOverExceeded(m, th, fs[1..], describe);
    }
  }

  lemma CheckAlertsInOrder(m: MetricSample, th: Thresholds, describe: (Family, real, real) -> string)
    ensures CheckAlerts(m, th, describe) == AlertsOver(m, th, Families, describe)
  {
    var a, b, c := AlertIf(m, th, Cpu, describe), AlertIf(m, th, Memory, describe), AlertIf(m, th, Disk, describe);
    assert Families[1..] == [Memory, Disk];
    assert [Memory, Disk][1..] == [Disk];
    assert [Disk][1..] == [];
    assert AlertsOver(m, th, [Disk], describe) == c + [];
    assert AlertsOver(m, th, [Memory, Disk], describe) == b + c;
    assert AlertsOver(m, th, Families, describe) == a + (b + c);
    assert a + b + c == a + (b + c);
  }

  /** CheckAlerts is exactly one alert per exceeded family, in evaluation order. */
  lemma CheckAlertsExact(m: MetricSample, th: Thresholds, describe: (Family, real, real) -> string)
    ensures var r := CheckAlerts(m, th, describe);
      var ex := Exceeded(m, th, Families);
      && |r| == |ex|
      && (forall i :: 0 <= i < |r| ==> r[i] == AlertFor(m, th, ex[i], describe))
  {
    CheckAlertsInOrder(m, th, describe);
    AlertsOverExceeded(m, th, Families, describe);
  }

  /** An alert for a family exists iff its reading is strictly above its threshold. */
  lemma CheckAlertsIff(m: MetricSample, th: Thresholds, describe: (Family, real, real) -> string, f: Family)
    ensures var r := CheckAlerts(m, th, describe);
      (exists i :: 0 <= i < |r| && r[i].kind == KindOf(f)) <==> Reading(m, f) > Limit(th, f)
  {
    var r := CheckAlerts(m, th, describe);
    var ex := Exceeded(m, th, Families);
    CheckAlertsExact(m, th, describe);
    if Reading(m, f) > Limit(th, f) {
      assert f in ex;
      var i :| 0 <= i < |ex| && ex[i] == f;
      assert r[i].kind == KindOf(f);
    }
    if i :| 0 <= i < |r| && r[i].kind == KindOf(f) {
      assert KindOf(ex[i]) == KindOf(f);
      assert ex[i] == f;
    }
  }

  /** A reading equal to its threshold raises nothing. */
  lemma AtThresholdNoAlert(m: MetricSample, th: Thresholds, describe: (Family, real, real) -> string)
    requires m.cpu.usage == th.cpu && m.memory.usedPercent == th.memory && m.disk.usedPercent == th.disk
    ensures CheckAlerts(m, th, describe) == []
  {
  }
}

=== FILE: query.dfy ===
/** The relational operators the store's queries are built from: a `WHERE` filter, an
    `ORDER BY ... DESC` sort and a `LIMIT`. Rows are kept in primary-key order, which
    is also the order `First` reads them in. */
module Query {
  import opened Wrappers

  /** `WHERE p`: the rows satisfying `p`, in their original order. */
  function Filter<T>(s: seq<T>, p: T -> bool): (r: seq<T>)
    ensures |r| <= |s|
    ensures forall i :: 0 <= i < |r| ==> r[i] in s && p(r[i])
    ensures forall i :: 0 <= i < |s| && p(s[i]) ==> s[i] in r
  {
    if |s| == 0 then []
    else if p(s[0]) then [s[0]] + Filter(s[1..], p)
    else Filter(s[1..], p)
  }

  /** Rows in descending order of `key` (ties in either order). */
  ghost predicate SortedDesc<T>(s: seq<T>, key: T -> int)
  {
    forall i, j :: 0 <= i < j < |s| ==> key(s[i]) >= key(s[j])
  }

  function InsertDesc<T>(x: T, s: seq<T>, key: T -> int): (r: seq<T>)
    requires SortedDesc(s, key)
    ensures SortedDesc(r, key)
    ensures multiset(r) == multiset(s) + multiset{x}
    ensures |r| == |s| + 1
  {
    if |s| == 0 then [x]
    else if key(x) >= key(s[0]) then [x] + s
    else
      var rest := InsertDesc(x, s[1..], key);
      assert s == [s[0]] + s[1..];
      BelowHead(x, s, rest, key);
      [s[0]] + rest
  }

  /** What is inserted behind the head of a sorted sequence stays below the head. */
  lemma BelowHead<T>(x: T, s: seq<T>, rest: seq<T>, key: T -> int)
    requires SortedDesc(s, key) && |s| > 0 && key(x) < key(s[0])
    requires multiset(rest) == multiset(s[1..]) + multiset{x}
    ensures forall i :: 0 <= i < |rest| ==> key(rest[i]) <= key(s[0])
  {
    forall i | 0 <= i < |rest|
      ensures key(rest[i]) <= key(s[0])
    {
      assert rest[i] in multiset(rest);
      if rest[i] != x {
        assert rest[i] in multiset(s[1..]);
        var k :| 0 <= k < |s[1..]| && s[1..][k] == rest[i];
        assert s[k + 1] == rest[i];
      }
    }
  }

  /** `ORDER BY key DESC`: the same rows, as a multiset, in descending key order. */
  function SortDesc<T>(s: seq<T>, key: T -> int): (r: seq<T>)
    ensures SortedDesc(r, key)
    ensures multiset(r) == multiset(s)
    ensures |r| == |s|
  {
    if |s| == 0 then []
    else
      assert s == [s[0]] + s[1..];
      InsertDesc(s[0], SortDesc(s[1..], key), key)
  }

  /** `LIMIT n` */
  function Take<T>(s: seq<T>, n: nat): (r: seq<T>)
    ensures |r| == if n < |s| then n else |s|
    ensures r <= s
  {
    if n < |s| then s[..n] else s
  }

  /** `ORDER BY key DESC LIMIT limit`, the limit applied only when it is positive: the
      first rows of the sorted table. */
  function TopDesc<T>(rows: seq<T>, key: T -> int, limit: int): (r: seq<T>)
    ensures SortedDesc(r, key)
    ensures forall i :: 0 <= i < |r| ==> r[i] in rows
    ensures |r| == if 0 < limit < |rows| then limit else |rows|
    ensures r <= SortDesc(rows, key)
    ensures forall i, j :: 0 <= j < |r| <= i < |rows| ==> key(SortDesc(rows, key)[i]) <= key(r[j])
    ensures limit <= 0 || limit >= |rows| ==> multiset(r) == multiset(rows)
  {
    var sorted := SortDesc(rows, key);
    SortedMembers(rows, key);
    if limit > 0 && limit < |sorted| then
      var r := sorted[..limit];
      assert forall i :: 0 <= i < |r| ==> r[i] == sorted[i];
      r
    else sorted
  }

  lemma SortedMembers<T>(rows: seq<T>, key: T -> int)
    ensures forall i :: 0 <= i < |SortDesc(rows, key)| ==> SortDesc(rows, key)[i] in rows
  {
    var sorted := SortDesc(rows, key);
    forall i | 0 <= i < |sorted|
      ensures sorted[i] in rows
    {
      assert sorted[i] in multiset(sorted);
    }
  }

  /** `.First(...)` on a filtered query: the earliest row (in primary-key order) that
      satisfies `p`, or nothing. */
  function First<T>(s: seq<T>, p: T -> bool): (r: Option<T>)
    ensures r.Some? <==> exists i :: 0 <= i < |s| && p(s[i])
    ensures r.Some? ==> r.value in s && p(r.value)
    ensures r.Some? ==> Filter(s, p)[0] == r.value
  {
    if |s| == 0 then None
    else if p(s[0]) then Some(s[0])
    else
      var r := First(s[1..], p);
      assert forall i :: 1 <= i < |s| ==> s[i] == s[1..][i - 1];
      r
  }

  /** Primary keys strictly increase along the table and lie in [1, next). */
  ghost predicate KeyedBelow<T>(s: seq<T>, id: T -> nat, next: nat)
  {
    && (forall i, j :: 0 <= i < j < |s| ==> id(s[i]) < id(s[j]))
    && (forall i :: 0 <= i < |s| ==> 1 <= id(s[i]) < next)
  }

  /** Inserting a row with the next serial key keeps the table keyed. */
  lemma AppendKeyed<T>(s: seq<T>, x: T, id: T -> nat, next: nat)
    requires KeyedBelow(s, id, next)
    requires id(x) == next && next >= 1
    ensures KeyedBelow(s + [x], id, next + 1)
  {
  }

  /** Filter keeps every satisfying element as often as it occurs, and nothing else. */
  lemma {:induction false} FilterCount<T>(s: seq<T>, p: T -> bool)
    ensures forall x :: multiset(Filter(s, p))[x] == if p(x) then multiset(s)[x] else 0
  {
    if |s| > 0 {
      FilterCount(s[1..], p);
      assert s == [s[0]] + s[1..];
      assert multiset(s) == multiset{s[0]} + multiset(s[1..]);
    }
  }

  /** Deleting rows keeps the table keyed. */
  lemma FilterKeyed<T>(s: seq<T>, p: T -> bool, id: T -> nat, next: nat)
    requires KeyedBelow(s, id, next)
    ensures KeyedBelow(Filter(s, p), id, next)
  {
    if |s| > 0 {
      FilterKeyed(s[1..], p, id, next);
    }
  }
}

=== FILE: registry.dfy ===
/** The collector side of the live link: the registry of agent connections keyed by
    server, the per-connection reader and writer steps, the stale-connection sweep and the
    non-blocking push to an agent.

    A Go `*AgentConnection` has identity: the registry holds a pointer, and the reader,
    writer and pong handler of one connection keep their own pointer even after another
    connection has replaced it in the registry. The model therefore keeps every started
    session under a connection number (`sessions`) and lets the registry map a server key
    to the connection number currently registered for it. */
module Registry {
  import opened Wrappers
  import opened Numeric
  import opened Models
  import opened Wire
  import opened Store
  import Query

  /** Capacity of the buffered `send` channel. */
  const QueueCapacity: nat := 256

  /** A connection whose last pong is older than this is evicted by the sweep. */
  const StaleAfter: int := 2 * Minute

  /** A server-initiated message waiting in a connection's outbound queue. */
  datatype Outbound = Outbound(kind: string, data: Payload, timestamp: Time)

  /** The buffered channel: pending messages and whether it has been closed. */
  datatype Queue = Queue(items: seq<Outbound>, closed: bool)

  datatype Session = Session(
    serverId: nat,
    serverName: string,
    lastPing: Time,
    queue: Queue,
    transportOpen: bool)

  datatype Hub = Hub(
    registry: map<nat, nat>,
    sessions: map<nat, Session>,
    nextConn: nat,
    db: Db)

  /** What every reachable hub satisfies: registered connections exist, are registered
      under their own server key and have an open queue; connection numbers are fresh
      below `nextConn`; no queue exceeds its capacity. */
  ghost predicate Valid(hub: Hub)
  {
    && (forall id :: id in hub.registry ==>
          && hub.registry[id] in hub.sessions
          && hub.sessions[hub.registry[id]].serverId == id
          && !hub.sessions[hub.registry[id]].queue.closed)
    && (forall c :: c in hub.sessions ==> c < hub.nextConn)
    && (forall c :: c in hub.sessions ==> |hub.sessions[c].queue.items| <= QueueCapacity)
  }

  // ---------------------------------------------------------------- queries

  /** IsAgentConnected */
  predicate IsAgentConnected(hub: Hub, serverId: nat): (b: bool)
    ensures b <==> serverId in hub.registry
    ensures b && Valid(hub) ==>
      hub.registry[serverId] in hub.sessions && hub.sessions[hub.registry[serverId]].serverId == serverId
  {
    serverId in hub.registry
  }

  /** GetConnectedAgents: every registered server key exactly once, in map order. */
  method GetConnectedAgents(hub: Hub) returns (agents: seq<nat>)
    ensures forall id :: id in agents <==> IsAgentConnected(hub, id)
    ensures forall i, j :: 0 <= i < j < |agents| ==> agents[i] != agents[j]
    ensures |agents| == |hub.registry.Keys|
  {
    agents := [];
    var rest := hub.registry.Keys;
    while rest != {}
      invariant rest <= hub.registry.Keys
      invariant forall id :: id in agents <==> id in hub.registry && id !in rest
      invariant forall i, j :: 0 <= i < j < |agents| ==> agents[i] != agents[j]
      invariant |agents| + |rest| == |hub.registry.Keys|
      decreases |rest|
    {
      var id :| id in rest;
      agents := agents + [id];
      rest := rest - {id};
    }
  }

  // ---------------------------------------------------------------- connection

  datatype AcceptOutcome =
    | Rejected(httpStatus: int)
    | UpgradeFailed
    | Accepted(conn: nat, serverId: nat)

  /** HandleAgentConnection. `lookupFault` stands for a database error other than "not
      found" during the token lookup; `upgradeOk` for the outcome of the transport
      upgrade. A declared name different from the stored one is saved before the
      upgrade. Registration overwrites any previous entry for the server and does not
      close the connection it replaces. */
  /** The store after the declared name is saved: only when one was given and it differs
      from the stored name. */
  function Renamed(db: Db, server: Server, serverName: string): Db
  {
    if serverName != "" && server.name != serverName then SaveServerName(db, server.id, serverName) else db
  }

  function Accept(hub: Hub, token: string, serverName: string, now: Time, lookupFault: bool, upgradeOk: bool): (r: (Hub, AcceptOutcome))
    ensures r.1 == Rejected(400) <==> token == ""
    ensures r.1 == Rejected(500) <==> token != "" && lookupFault
    ensures r.1 == Rejected(401) <==> token != "" && !lookupFault && GetServerByToken(hub.db, token).Err?
    ensures r.1.Rejected? ==> r.0 == hub
    ensures !r.1.Accepted? ==> r.0.registry == hub.registry && r.0.sessions == hub.sessions
    ensures r.1.Accepted? <==> token != "" && !lookupFault && GetServerByToken(hub.db, token).Ok? && upgradeOk
    ensures r.1.Accepted? ==>
      && r.1.serverId == GetServerByToken(hub.db, token).value.id
      && r.1.conn == hub.nextConn
      && r.0.registry == hub.registry[r.1.serverId := r.1.conn]
      && r.0.sessions == hub.sessions[r.1.conn := Session(r.1.serverId,
           if serverName != "" then serverName else GetServerByToken(hub.db, token).value.name,
           now, Queue([], false), true)]
    ensures r.1 == UpgradeFailed ==>
      && GetServerByToken(hub.db, token).Ok?
      && r.0 == hub.(db := Renamed(hub.db, GetServerByToken(hub.db, token).value, serverName))
    ensures r.1.Accepted? ==>
      && r.0.nextConn == hub.nextConn + 1
      && r.0.db == UpdateServerLastSeen(Renamed(hub.db, GetServerByToken(hub.db, token).value, serverName), r.1.serverId, now)
  {
    if token == "" then (hub, Rejected(400))
    else if lookupFault then (hub, Rejected(500))
    else
      match GetServerByToken(hub.db, token)
      case Err(_) => (hub, Rejected(401))
      case Ok(server) =>
        var db1 := Renamed(hub.db, server, serverName);
        var name := if serverName != "" then serverName else server.name;
        if !upgradeOk then (hub.(db := db1), UpgradeFailed)
        else
          var c := hub.nextConn;
          var s := Session(server.id, name, now, Queue([], false), true);
          (Hub(hub.registry[server.id := c], hub.sessions[c := s], c + 1, UpdateServerLastSeen(db1, server.id, now)),
           Accepted(c, server.id))
  }

  /** Unless the request is rejected, a declared name is what the server's row holds
      afterwards, whether or not the upgrade succeeds. */
  lemma AcceptSavesName(hub: Hub, token: string, serverName: string, now: Time, lookupFault: bool, upgradeOk: bool)
    requires Store.Valid(hub.db) && serverName != ""
    ensures var r := Accept(hub, token, serverName, now, lookupFault, upgradeOk);
      !r.1.Rejected? ==>
        forall i :: 0 <= i < |r.0.db.servers| && r.0.db.servers[i].id == GetServerByToken(hub.db, token).value.id ==>
          r.0.db.servers[i].name == serverName
  {
    var r := Accept(hub, token, serverName, now, lookupFault, upgradeOk);
    if !r.1.Rejected? {
      RenamedHoldsName(hub.db, GetServerByToken(hub.db, token).value, serverName);
    }
  }

  /** On a store with distinct keys, every row with the server's key carries the declared
      name once it has been saved. */
  lemma RenamedHoldsName(db: Db, server: Server, serverName: string)
    requires Store.Valid(db) && server in db.servers && serverName != ""
    ensures var db1 := Renamed(db, server, serverName);
      forall i :: 0 <= i < |db1.servers| && db1.servers[i].id == server.id ==> db1.servers[i].name == serverName
  {
    var db1 := Renamed(db, server, serverName);
    var k :| 0 <= k < |db.servers| && db.servers[k] == server;
    assert Query.KeyedBelow(db.servers, ServerId, db.nextServerId);
    forall i | 0 <= i < |db1.servers| && db1.servers[i].id == server.id
      ensures db1.servers[i].name == serverName
    {
      assert ServerId(db.servers[i]) == ServerId(db.servers[k]);
    }
  }

  lemma AcceptValid(hub: Hub, token: string, serverName: string, now: Time, lookupFault: bool, upgradeOk: bool)
    requires Valid(hub)
    ensures Valid(Accept(hub, token, serverName, now, lookupFault, upgradeOk).0)
  {
  }

  /** After a successful registration the server has exactly the new connection, the
      connection it replaced (if any) is still open, and the stored status is online. */
  lemma AcceptSupersedes(hub: Hub, token: string, serverName: string, now: Time)
    requires Valid(hub)
    requires token != "" && GetServerByToken(hub.db, token).Ok?
    ensures var (h, o) := Accept(hub, token, serverName, now, false, true);
      && o.Accepted?
      && IsAgentConnected(h, o.serverId)
      && h.sessions[h.registry[o.serverId]].lastPing == now
      && (o.serverId in hub.registry ==>
            && hub.registry[o.serverId] != o.conn
            && h.sessions[hub.registry[o.serverId]] == hub.sessions[hub.registry[o.serverId]])
      && (forall i :: 0 <= i < |h.db.servers| && h.db.servers[i].id == o.serverId ==> h.db.servers[i].status == Online)
  {
  }

  // ---------------------------------------------------------------- reader

  /** The coarse status the collector derives from a sample: strict comparisons against
      90% CPU, 95% memory and 95% disk. */
  function MetricsStatus(m: MetricSample): (st: string)
    ensures st == Warning <==> m.cpu.usage > 90.0 || m.memory.usedPercent > 95.0 || m.disk.usedPercent > 95.0
    ensures st == Online <==> !(m.cpu.usage > 90.0 || m.memory.usedPercent > 95.0 || m.disk.usedPercent > 95.0)
  {
    if m.cpu.usage > 90.0 || m.memory.usedPercent > 95.0 || m.disk.usedPercent > 95.0 then Warning else Online
  }

  /** Reading a stored row back as the sample shape (the API's view of it): the stored
      row carries no server name and no packet counters. */
  function SampleOf(row: Metric): MetricSample
  {
    MetricSample(row.time, "",
      CpuInfo(row.cpuUsage, row.cpuCores),
      MemInfo(row.memoryTotal, row.memoryAvailable, row.memoryUsed, row.memoryPercent),
      DiskInfo(row.diskTotal, row.diskFree, row.diskUsed, row.diskPercent),
      NetInfo(row.networkBytesOut, row.networkBytesIn, 0, 0),
      row.uptime)
  }

  /** The stored row built from a received sample: bytes received become bytes in,
      bytes sent become bytes out, packet counters are dropped. */
  function MetricRecord(serverId: nat, m: MetricSample): (r: Metric)
    ensures r.serverId == serverId
    ensures SampleOf(r) == m.(serverName := "", network := NetInfo(m.network.bytesSent, m.network.bytesRecv, 0, 0))
  {
    Metric(0, m.timestamp, serverId,
      m.cpu.usage, m.cpu.cores,
      m.memory.total, m.memory.used, m.memory.available, m.memory.usedPercent,
      m.disk.total, m.disk.used, m.disk.free, m.disk.usedPercent,
      m.network.bytesRecv, m.network.bytesSent,
      m.uptime)
  }

  /** handleMetricsMessage: decode, save, then set the derived status. Nothing is
      written when the data does not decode, and the status is left alone when the save
      fails (`saveOk` is the outcome of CreateMetric). */
  function HandleMetrics(db: Db, serverId: nat, data: Payload, saveOk: bool): (r: Db)
    ensures DecodeMetrics(data).None? || !saveOk ==> r == db
    ensures DecodeMetrics(data).Some? && saveOk ==>
      var m := DecodeMetrics(data).value;
      && |r.metrics| == |db.metrics| + 1
      && r.metrics[..|db.metrics|] == db.metrics
      && r.metrics[|db.metrics|] == MetricRecord(serverId, m).(id := db.nextMetricId)
      && |r.servers| == |db.servers|
      && r.alerts == db.alerts && r.users == db.users
      && (forall i :: 0 <= i < |r.servers| ==>
            r.servers[i] == if db.servers[i].id == serverId then db.servers[i].(status := MetricsStatus(m)) else db.servers[i])
  {
    match DecodeMetrics(data)
    case None => db
    case Some(m) =>
      if !saveOk then db
      else
        var (db1, _) := CreateMetric(db, MetricRecord(serverId, m));
        UpdateServerStatus(db1, serverId, MetricsStatus(m))
  }

  /** handleAlertMessage: decode and save an unresolved alert; notify the owners only
      after a successful save. Returns the stored row to notify about. */
  function HandleAlert(db: Db, serverId: nat, data: Payload, now: Time, saveOk: bool): (r: (Db, Option<Alert>))
    ensures r.1.Some? <==> DecodeAlert(data).Some? && saveOk
    ensures r.1.None? ==> r.0 == db
    ensures r.1.Some? ==>
      var a := DecodeAlert(data).value;
      && r.1.value == Alert(db.nextAlertId, serverId, a.kind, a.level, a.message, a.value, a.threshold, false, now)
      && r.0 == db.(alerts := db.alerts + [r.1.value], nextAlertId := db.nextAlertId + 1)
  {
    match DecodeAlert(data)
    case None => (db, None)
    case Some(a) =>
      if !saveOk then (db, None)
      else
        var (db1, row) := CreateAlert(db, Alert(0, serverId, a.kind, a.level, a.message, a.value, a.threshold, false, 0), now);
        (db1, Some(row))
  }

  /** One successfully read envelope on connection `c`: dispatch by type, then the
      unconditional last-seen write, which also sets the status to online. */
  function Receive(hub: Hub, c: nat, env: Envelope, now: Time, saveOk: bool): (r: (Hub, Option<Alert>))
    requires c in hub.sessions
    ensures r.0.registry == hub.registry && r.0.sessions == hub.sessions && r.0.nextConn == hub.nextConn
    ensures r.1.Some? ==> env.kind == AlertKind && saveOk
    ensures var id := hub.sessions[c].serverId;
      env.kind == MetricsKind ==>
        r.0.db == UpdateServerLastSeen(HandleMetrics(hub.db, id, env.data, saveOk), id, now) && r.1.None?
    ensures var id := hub.sessions[c].serverId;
      env.kind == AlertKind ==>
        var (db1, notify) := HandleAlert(hub.db, id, env.data, now, saveOk);
        r.0.db == UpdateServerLastSeen(db1, id, now) && r.1 == notify
    ensures var id := hub.sessions[c].serverId;
      env.kind != MetricsKind && env.kind != AlertKind ==>
        r.0.db == UpdateServerLastSeen(hub.db, id, now) && r.1.None?
  {
    var id := hub.sessions[c].serverId;
    var (db1, notify) :=
      if env.kind == MetricsKind then (HandleMetrics(hub.db, id, env.data, saveOk), None)
      else if env.kind == AlertKind then HandleAlert(hub.db, id, env.data, now, saveOk)
      else (hub.db, None);
    (hub.(db := UpdateServerLastSeen(db1, id, now)), notify)
  }

  /** Whatever the message, afterwards the sender's row is online and last seen now: the
      last-seen write overrides a warning just derived from the sample. */
  lemma ReceiveMarksOnline(hub: Hub, c: nat, env: Envelope, now: Time, saveOk: bool)
    requires c in hub.sessions
    ensures var h := Receive(hub, c, env, now, saveOk).0;
      forall i :: 0 <= i < |h.db.servers| && h.db.servers[i].id == hub.sessions[c].serverId ==>
        h.db.servers[i].status == Online && h.db.servers[i].lastSeen == Some(now)
  {
  }

  /** A hot sample is stored with the warning status for an instant, and the reader's
      next write turns it back to online. */
  lemma WarningOverwritten(hub: Hub, c: nat, m: MetricSample, token: string, name: string, ts: Time, now: Time)
    requires c in hub.sessions
    requires m.cpu.usage > 90.0
    requires exists i :: 0 <= i < |hub.db.servers| && hub.db.servers[i].id == hub.sessions[c].serverId
    ensures var id := hub.sessions[c].serverId;
      && StatusOf(HandleMetrics(hub.db, id, MetricsData(m), true), id) == Some(Warning)
      && StatusOf(Receive(hub, c, Envelope(MetricsKind, token, name, MetricsData(m), ts), now, true).0.db, id) == Some(Online)
  {
    var id := hub.sessions[c].serverId;
    var db1 := CreateMetric(hub.db, MetricRecord(id, m)).0;
    FirstOfUpdate(db1.servers, id, (s: Server) => s.(status := Warning));
    var db2 := HandleMetrics(hub.db, id, MetricsData(m), true);
    FirstOfUpdate(db2.servers, id, (s: Server) => s.(lastSeen := Some(now), status := Online));
  }

  lemma ReceiveValid(hub: Hub, c: nat, env: Envelope, now: Time, saveOk: bool)
    requires Valid(hub) && c in hub.sessions
    ensures Valid(Receive(hub, c, env, now, saveOk).0)
  {
  }

  /** The pong handler: the only place besides registration that refreshes `lastPing`. */
  function Pong(hub: Hub, c: nat, now: Time): (r: Hub)
    requires c in hub.sessions
    ensures r.registry == hub.registry && r.db == hub.db && r.nextConn == hub.nextConn
    ensures r.sessions.Keys == hub.sessions.Keys
    ensures r.sessions[c].lastPing == now
    ensures forall d :: d in hub.sessions && d != c ==> r.sessions[d] == hub.sessions[d]
  {
    hub.(sessions := hub.sessions[c := hub.sessions[c].(lastPing := now)])
  }

  /** unregisterConnection, as written: it looks up the server key of the connection
      passing in, and when that key is registered (by this connection or by a newer one)
      deletes it, closes THIS connection's queue and records the server offline. */
  function Unregister(hub: Hub, c: nat): (r: Hub)
    requires c in hub.sessions
    ensures var id := hub.sessions[c].serverId;
      && (id !in hub.registry ==> r == hub)
      && (id in hub.registry ==>
            && r.registry == hub.registry - {id}
            && r.sessions == hub.sessions[c := hub.sessions[c].(queue := hub.sessions[c].queue.(closed := true))]
            && r.db == UpdateServerStatus(hub.db, id, Offline))
  {
    var s := hub.sessions[c];
    if s.serverId in hub.registry then
      hub.(registry := hub.registry - {s.serverId},
           sessions := hub.sessions[c := s.(queue := s.queue.(closed := true))],
           db := UpdateServerStatus(hub.db, s.serverId, Offline))
    else hub
  }

  lemma UnregisterIdempotent(hub: Hub, c: nat)
    requires c in hub.sessions
    ensures Unregister(Unregister(hub, c), c) == Unregister(hub, c)
  {
  }

  /** The reader's exit path (read error or an envelope that does not parse): unregister,
      then close the transport. */
  function ReaderExit(hub: Hub, c: nat): (r: Hub)
    requires c in hub.sessions
    ensures r.sessions.Keys == hub.sessions.Keys
    ensures !r.sessions[c].transportOpen
    ensures !IsAgentConnected(r, hub.sessions[c].serverId)
  {
    var h := Unregister(hub, c);
    h.(sessions := h.sessions[c := h.sessions[c].(transportOpen := false)])
  }

  lemma ReaderExitValid(hub: Hub, c: nat)
    requires Valid(hub) && c in hub.sessions
    ensures Valid(ReaderExit(hub, c))
  {
  }

  /** As written, a superseded connection's exit removes the entry of the connection that
      replaced it: the server is reported disconnected while its live successor keeps its
      transport and queue open. */
  lemma UnregisterDropsSuccessor(hub: Hub, c: nat)
    requires Valid(hub) && c in hub.sessions
    requires var id := hub.sessions[c].serverId; id in hub.registry && hub.registry[id] != c
    ensures var id := hub.sessions[c].serverId;
      var successor := hub.registry[id];
      var r := ReaderExit(hub, c);
      && !IsAgentConnected(r, id)
      && r.sessions[successor] == hub.sessions[successor]
      && hub.sessions[successor].transportOpen == r.sessions[successor].transportOpen
      && !r.sessions[successor].queue.closed
  {
  }

  /** The input that shows it: one server, an agent connects, reconnects before the first
      connection's reader has noticed, then the first reader exits. */
  lemma SupersededExitScenario()
    ensures var db := Db([], [Server(1, 1, "t", "web", None, Offline)], [], [], 2, 2, 1, 1);
      var h0 := Hub(map[], map[], 0, db);
      var (h1, a) := Accept(h0, "t", "", 0, false, true);
      var (h2, b) := Accept(h1, "t", "", Second, false, true);
      && a == Accepted(0, 1) && b == Accepted(1, 1)
      && var h3 := ReaderExit(h2, 0);
      && !IsAgentConnected(h3, 1)
      && h3.sessions[1].transportOpen
      && !h3.sessions[1].queue.closed
  {
    var db := Db([], [Server(1, 1, "t", "web", None, Offline)], [], [], 2, 2, 1, 1);
    assert GetServerByToken(db, "t") == Ok(Server(1, 1, "t", "web", None, Offline));
  }

  /** unregisterConnection as evidently intended: only the connection that owns the
      server's entry removes it; a superseded connection leaves the registry and the
      stored status alone. */
  function UnregisterOwn(hub: Hub, c: nat): (r: Hub)
    requires c in hub.sessions
    ensures forall id :: id in hub.registry && hub.registry[id] != c ==> id in r.registry && r.registry[id] == hub.registry[id]
    ensures Valid(hub) ==> forall id :: id in r.registry ==> id in hub.registry && hub.registry[id] != c
    ensures var id := hub.sessions[c].serverId;
      id in hub.registry && hub.registry[id] == c ==> r == Unregister(hub, c)
  {
    var id := hub.sessions[c].serverId;
    if id in hub.registry && hub.registry[id] == c then Unregister(hub, c) else hub
  }

  /** The reader's exit path with the corrected unregister. */
  function ReaderExitOwn(hub: Hub, c: nat): (r: Hub)
    requires c in hub.sessions
    ensures r.sessions.Keys == hub.sessions.Keys
    ensures !r.sessions[c].transportOpen
  {
    var h := UnregisterOwn(hub, c);
    h.(sessions := h.sessions[c := h.sessions[c].(transportOpen := false)])
  }

  /** With the correction, a connection's exit never disconnects another connection, and
      a Valid hub stays Valid. */
  lemma ReaderExitOwnKeepsSuccessor(hub: Hub, c: nat)
    requires Valid(hub) && c in hub.sessions
    ensures var r := ReaderExitOwn(hub, c);
      && Valid(r)
      && (forall id :: IsAgentConnected(r, id) <==> IsAgentConnected(hub, id) && hub.registry[id] != c)
      && (forall id :: id in r.registry ==> r.registry[id] == hub.registry[id] && r.sessions[r.registry[id]] == hub.sessions[hub.registry[id]])
  {
  }

  /** In the scenario above, the corrected exit keeps the reconnected agent registered. */
  lemma SupersededExitScenarioOwn()
    ensures var db := Db([], [Server(1, 1, "t", "web", None, Offline)], [], [], 2, 2, 1, 1);
      var h0 := Hub(map[], map[], 0, db);
      var h2 := Accept(Accept(h0, "t", "", 0, false, true).0, "t", "", Second, false, true).0;
      IsAgentConnected(ReaderExitOwn(h2, 0), 1)
  {
    var db := Db([], [Server(1, 1, "t", "web", None, Offline)], [], [], 2, 2, 1, 1);
    assert GetServerByToken(db, "t") == Ok(Server(1, 1, "t", "web", None, Offline));
  }

  // ---------------------------------------------------------------- writer

  datatype WriterEvent = QueueReady | PingTick

  datatype Frame = TextFrame(msg: Outbound) | CloseFrame | PingFrame

  datatype WriterStep = WriterStep(hub: Hub, frame: Option<Frame>, stop: bool)

  /** One iteration of handleAgentWrites. A receive from the channel delivers buffered
      messages first, even after close; a drained closed channel produces a close frame
      and ends the writer; a failed write (`writeOk` false) ends it too. With nothing
      buffered and the channel open the writer stays blocked. */
  function WriterStepOf(hub: Hub, c: nat, event: WriterEvent, writeOk: bool): (r: WriterStep)
    requires c in hub.sessions
    ensures r.hub.registry == hub.registry && r.hub.db == hub.db
    ensures event == PingTick ==> r == WriterStep(hub, Some(PingFrame), !writeOk)
    ensures event == QueueReady && |hub.sessions[c].queue.items| > 0 ==>
      && r.frame == Some(TextFrame(hub.sessions[c].queue.items[0]))
      && r.stop == !writeOk
      && c in r.hub.sessions
      && r.hub.sessions[c].queue.items == hub.sessions[c].queue.items[1..]
    ensures event == QueueReady && |hub.sessions[c].queue.items| == 0 ==>
      r == WriterStep(hub, if hub.sessions[c].queue.closed then Some(CloseFrame) else None, hub.sessions[c].queue.closed)
  {
    var s := hub.sessions[c];
    match event
    case PingTick => WriterStep(hub, Some(PingFrame), !writeOk)
    case QueueReady =>
      if |s.queue.items| > 0 then
        var h := hub.(sessions := hub.sessions[c := s.(queue := s.queue.(items := s.queue.items[1..]))]);
        WriterStep(h, Some(TextFrame(s.queue.items[0])), !writeOk)
      else if s.queue.closed then WriterStep(hub, Some(CloseFrame), true)
      else WriterStep(hub, None, false)
  }

  lemma WriterStepValid(hub: Hub, c: nat, event: WriterEvent, writeOk: bool)
    requires Valid(hub) && c in hub.sessions
    ensures Valid(WriterStepOf(hub, c, event, writeOk).hub)
  {
  }

  // ---------------------------------------------------------------- sweep

  /** A registered server whose connection has not ponged for more than two minutes. */
  predicate Stale(hub: Hub, id: nat, now: Time)
  {
    id in hub.registry && hub.registry[id] in hub.sessions
    && now - hub.sessions[hub.registry[id]].lastPing > StaleAfter
  }

  function StaleIds(hub: Hub, now: Time): set<nat>
  {
    set id | id in hub.registry && Stale(hub, id, now)
  }

  /** Status `offline` on every row whose key is in `ids`. */
  function MarkOffline(db: Db, ids: set<nat>): (r: Db)
    ensures r == db.(servers := r.servers) && |r.servers| == |db.servers|
    ensures forall i :: 0 <= i < |r.servers| ==>
      r.servers[i] == if db.servers[i].id in ids then db.servers[i].(status := Offline) else db.servers[i]
  {
    db.(servers := seq(|db.servers|, i requires 0 <= i < |db.servers| =>
      if db.servers[i].id in ids then db.servers[i].(status := Offline) else db.servers[i]))
  }

  /** cleanupStaleConnections: close, deregister and mark offline every stale
      connection; its queue is not closed. */
  function Sweep(hub: Hub, now: Time): (r: Hub)
    ensures r.nextConn == hub.nextConn
    ensures forall id :: id in r.registry <==> id in hub.registry && !Stale(hub, id, now)
    ensures forall id :: id in r.registry ==> r.registry[id] == hub.registry[id]
    ensures r.sessions.Keys == hub.sessions.Keys
    ensures forall c :: c in r.sessions ==> r.sessions[c] == hub.sessions[c].(transportOpen := r.sessions[c].transportOpen)
    ensures forall c :: c in r.sessions ==>
      var id := hub.sessions[c].serverId;
      (r.sessions[c].transportOpen <==> hub.sessions[c].transportOpen && !(Stale(hub, id, now) && hub.registry[id] == c))
    ensures Valid(hub) ==> forall id :: id in r.registry ==> r.sessions[r.registry[id]] == hub.sessions[hub.registry[id]]
    ensures r.db == hub.db.(servers := r.db.servers)
    ensures |r.db.servers| == |hub.db.servers|
    ensures forall i :: 0 <= i < |r.db.servers| ==>
      r.db.servers[i] == if Stale(hub, hub.db.servers[i].id, now) then hub.db.servers[i].(status := Offline) else hub.db.servers[i]
  {
    var stale := StaleIds(hub, now);
    Hub(hub.registry - stale,
        map c | c in hub.sessions :: if Evicted(hub, stale, c) then hub.sessions[c].(transportOpen := false) else hub.sessions[c],
        hub.nextConn,
        MarkOffline(hub.db, stale))
  }

  predicate Evicted(hub: Hub, stale: set<nat>, c: nat)
    requires c in hub.sessions
  {
    var id := hub.sessions[c].serverId;
    id in stale && id in hub.registry && hub.registry[id] == c
  }

  lemma SweepValid(hub: Hub, now: Time)
    requires Valid(hub)
    ensures Valid(Sweep(hub, now))
  {
  }

  /** Running the sweep again at the same instant changes nothing. */
  lemma SweepIdempotent(hub: Hub, now: Time)
    requires Valid(hub)
    ensures Sweep(Sweep(hub, now), now) == Sweep(hub, now)
  {
    var h1 := Sweep(hub, now);
    var h2 := Sweep(h1, now);
    assert StaleIds(h1, now) == {};
    assert h2.registry == h1.registry;
    assert h2.sessions == h1.sessions;
    assert h2.db.servers == h1.db.servers;
  }

  // ---------------------------------------------------------------- push

  datatype PushError = AgentNotConnected | AgentNotResponding

  /** SendMessageToAgent: unknown server, full queue, or the message appended to the
      registered connection's queue with nothing else changed. */
  function SendToAgent(hub: Hub, serverId: nat, kind: string, data: Payload, now: Time): (r: (Hub, Outcome))
    requires Valid(hub)
    ensures !IsAgentConnected(hub, serverId) ==> r == (hub, Failed(AgentNotConnected))
    ensures IsAgentConnected(hub, serverId) && |hub.sessions[hub.registry[serverId]].queue.items| >= QueueCapacity ==>
      r == (hub, Failed(AgentNotResponding))
    ensures IsAgentConnected(hub, serverId) && |hub.sessions[hub.registry[serverId]].queue.items| < QueueCapacity ==>
      r.1 == Sent
    ensures r.1 == Sent ==>
      var c := hub.registry[serverId];
      && IsAgentConnected(hub, serverId)
      && |hub.sessions[c].queue.items| < QueueCapacity
      && r.0 == hub.(sessions := hub.sessions[c := hub.sessions[c].(queue := Queue(hub.sessions[c].queue.items + [Outbound(kind, data, now)], false))])
    ensures Valid(r.0)
  {
    if serverId !in hub.registry then (hub, Failed(AgentNotConnected))
    else
      var c := hub.registry[serverId];
      var s := hub.sessions[c];
      if |s.queue.items| >= QueueCapacity then (hub, Failed(AgentNotResponding))
      else
        (hub.(sessions := hub.sessions[c := s.(queue := s.queue.(items := s.queue.items + [Outbound(kind, data, now)]))]), Sent)
  }

  datatype Outcome = Sent | Failed(error: PushError)
}

=== FILE: store.dfy ===
/** The collector's relational store as an in-memory value: four tables and their serial
    key counters. Each query is exactly its where / order / limit clauses. */
module Store {
  import opened Wrappers
  import opened Numeric
  import opened Models
  import opened Query

  datatype DbError = RecordNotFound | DuplicateKey

  datatype Db = Db(
    users: seq<User>,
    servers: seq<Server>,
    metrics: seq<Metric>,
    alerts: seq<Alert>,
    nextUserId: nat,
    nextServerId: nat,
    nextMetricId: nat,
    nextAlertId: nat)

  const Empty: Db := Db([], [], [], [], 1, 1, 1, 1)

  /** Keys are serial and unique; `servers.token` and `users.firebase_uid` carry unique
      indexes. */
  ghost predicate Valid(db: Db)
  {
    && db.nextUserId >= 1 && db.nextServerId >= 1 && db.nextMetricId >= 1 && db.nextAlertId >= 1
    && KeyedBelow(db.users, UserId, db.nextUserId)
    && KeyedBelow(db.servers, ServerId, db.nextServerId)
    && KeyedBelow(db.metrics, MetricId, db.nextMetricId)
    && KeyedBelow(db.alerts, AlertId, db.nextAlertId)
    && DistinctTokens(db.servers)
    && (forall i, j :: 0 <= i < j < |db.users| ==> db.users[i].firebaseUid != db.users[j].firebaseUid)
  }

  ghost predicate DistinctTokens(s: seq<Server>)
  {
    forall i, j :: 0 <= i < j < |s| ==> s[i].token != s[j].token
  }

  // ---------------------------------------------------------------- users

  function HasUid(uid: string): User -> bool
  {
    (u: User) => u.firebaseUid == uid
  }

  /** `WHERE firebase_uid = ? ... First` */
  function GetUserByUid(db: Db, uid: string): (r: Result<User, DbError>)
    ensures r.Ok? ==> r.value in db.users && r.value.firebaseUid == uid
    ensures r.Err? ==> r.error == RecordNotFound && forall i :: 0 <= i < |db.users| ==> db.users[i].firebaseUid != uid
  {
    match First(db.users, HasUid(uid))
    case Some(u) => Ok(u)
    case None => Err(RecordNotFound)
  }

  /** Returns the user with this UID, creating it (with the next key) when absent. */
  function GetOrCreateUser(db: Db, uid: string, email: string): (r: (Db, User))
    ensures r.1.firebaseUid == uid && r.1 in r.0.users
    ensures GetUserByUid(db, uid).Ok? ==> r.0 == db && r.1 == GetUserByUid(db, uid).value
    ensures GetUserByUid(db, uid).Err? ==>
      && r.0 == db.(users := db.users + [r.1], nextUserId := db.nextUserId + 1)
      && r.1 == User(db.nextUserId, uid, email)
  {
    match GetUserByUid(db, uid)
    case Ok(u) => (db, u)
    case Err(_) =>
      var u := User(db.nextUserId, uid, email);
      (db.(users := db.users + [u], nextUserId := db.nextUserId + 1), u)
  }

  lemma GetOrCreateUserValid(db: Db, uid: string, email: string)
    requires Valid(db)
    ensures Valid(GetOrCreateUser(db, uid, email).0)
  {
    var (db', u) := GetOrCreateUser(db, uid, email);
    if GetUserByUid(db, uid).Err? {
      AppendKeyed(db.users, u, UserId, db.nextUserId);
      assert db'.users == db.users + [u];
    }
  }

  /** A second call with the same UID creates nothing and returns the same user. */
  lemma GetOrCreateUserIdempotent(db: Db, uid: string, email: string, email2: string)
    ensures var (db1, u1) := GetOrCreateUser(db, uid, email);
            GetOrCreateUser(db1, uid, email2) == (db1, u1)
  {
    var (db1, u1) := GetOrCreateUser(db, uid, email);
    if GetUserByUid(db, uid).Err? {
      assert db1.users == db.users + [u1];
      assert forall i :: 0 <= i < |db.users| ==> db1.users[i] == db.users[i];
      assert db1.users[|db.users|] == u1;
      assert First(db1.users, HasUid(uid)) == Some(u1) by {
        FirstOfAppend(db.users, u1, HasUid(uid));
      }
    }
  }

  lemma {:induction false} FirstOfAppend<T>(s: seq<T>, x: T, p: T -> bool)
    requires forall i :: 0 <= i < |s| ==> !p(s[i])
    requires p(x)
    ensures First(s + [x], p) == Some(x)
  {
    if |s| > 0 {
      assert (s + [x])[1..] == s[1..] + [x];
      FirstOfAppend(s[1..], x, p);
    }
  }

  // ---------------------------------------------------------------- servers

  function HasToken(token: string): Server -> bool
  {
    (s: Server) => s.token == token
  }

  function HasId(id: nat): Server -> bool
  {
    (s: Server) => s.id == id
  }

  function OwnedBy(userId: nat): Server -> bool
  {
    (s: Server) => s.userId == userId
  }

  /** `WHERE token = ? ... First` */
  function GetServerByToken(db: Db, token: string): (r: Result<Server, DbError>)
    ensures r.Ok? ==> r.value in db.servers && r.value.token == token
    ensures r.Err? <==> forall i :: 0 <= i < |db.servers| ==> db.servers[i].token != token
    ensures r.Err? ==> r.error == RecordNotFound
  {
    match First(db.servers, HasToken(token))
    case Some(s) => Ok(s)
    case None => Err(RecordNotFound)
  }

  /** Tokens are unique, so the lookup finds the one server holding the token. */
  lemma GetServerByTokenUnique(db: Db, token: string, k: nat)
    requires Valid(db)
    requires k < |db.servers| && db.servers[k].token == token
    ensures GetServerByToken(db, token) == Ok(db.servers[k])
  {
    var r := GetServerByToken(db, token);
    var i :| 0 <= i < |db.servers| && db.servers[i] == r.value;
    if i != k {
      if i < k {} else {}
    }
  }

  /** `First(&server, id)` */
  function GetServerById(db: Db, id: nat): (r: Result<Server, DbError>)
    ensures r.Ok? ==> r.value in db.servers && r.value.id == id
    ensures r.Err? <==> forall i :: 0 <= i < |db.servers| ==> db.servers[i].id != id
  {
    match First(db.servers, HasId(id))
    case Some(s) => Ok(s)
    case None => Err(RecordNotFound)
  }

  /** GetUserServers: the user's servers in key order; the user must exist. */
  function GetUserServers(db: Db, uid: string): (r: Result<seq<Server>, DbError>)
    ensures r.Err? <==> GetUserByUid(db, uid).Err?
    ensures r.Ok? ==>
      && (forall i :: 0 <= i < |r.value| ==> r.value[i] in db.servers && r.value[i].userId == GetUserByUid(db, uid).value.id)
      && (forall i :: 0 <= i < |db.servers| && db.servers[i].userId == GetUserByUid(db, uid).value.id ==> db.servers[i] in r.value)
  {
    match GetUserByUid(db, uid)
    case Err(e) => Err(e)
    case Ok(u) => Ok(Filter(db.servers, OwnedBy(u.id)))
  }

  /** Each owned row is listed exactly as often as it is stored (once, with distinct
      keys), and no other row is listed. */
  lemma GetUserServersExact(db: Db, uid: string)
    ensures var r := GetUserServers(db, uid);
      r.Ok? ==> forall s :: multiset(r.value)[s] == (if s.userId == GetUserByUid(db, uid).value.id then multiset(db.servers)[s] else 0)
  {
    if GetUserByUid(db, uid).Ok? {
      FilterCount(db.servers, OwnedBy(GetUserByUid(db, uid).value.id));
    }
  }

  /** On a valid store the listed rows come in increasing key order. */
  lemma GetUserServersInKeyOrder(db: Db, uid: string)
    requires Valid(db)
    ensures var r := GetUserServers(db, uid);
      r.Ok? ==> forall i, j :: 0 <= i < j < |r.value| ==> r.value[i].id < r.value[j].id
  {
    if GetUserByUid(db, uid).Ok? {
      FilterKeyed(db.servers, OwnedBy(GetUserByUid(db, uid).value.id), ServerId, db.nextServerId);
    }
  }

  /** `Create(server)`: the unique index on `token` refuses a duplicate. */
  function CreateServer(db: Db, userId: nat, token: string, name: string, status: string): (r: (Db, Result<Server, DbError>))
    ensures r.1.Err? <==> exists i :: 0 <= i < |db.servers| && db.servers[i].token == token
    ensures r.1.Err? ==> r.0 == db && r.1.error == DuplicateKey
    ensures r.1.Ok? ==>
      && r.1.value == Server(db.nextServerId, userId, token, name, None, status)
      && r.0 == db.(servers := db.servers + [r.1.value], nextServerId := db.nextServerId + 1)
  {
    if GetServerByToken(db, token).Ok? then (db, Err(DuplicateKey))
    else
      var s := Server(db.nextServerId, userId, token, name, None, status);
      (db.(servers := db.servers + [s], nextServerId := db.nextServerId + 1), Ok(s))
  }

  lemma CreateServerValid(db: Db, userId: nat, token: string, name: string, status: string)
    requires Valid(db)
    ensures Valid(CreateServer(db, userId, token, name, status).0)
  {
    var (db', r) := CreateServer(db, userId, token, name, status);
    if r.Ok? {
      AppendKeyed(db.servers, r.value, ServerId, db.nextServerId);
      assert db'.servers == db.servers + [r.value];
    }
  }

  /** Rewrites every row with key `id` by `f`; other rows are untouched. */
  function UpdateServers(servers: seq<Server>, id: nat, f: Server -> Server): (r: seq<Server>)
    ensures |r| == |servers|
    ensures forall i :: 0 <= i < |r| ==> r[i] == if servers[i].id == id then f(servers[i]) else servers[i]
  {
    seq(|servers|, i requires 0 <= i < |servers| => if servers[i].id == id then f(servers[i]) else servers[i])
  }

  /** UpdateServerLastSeen: `last_seen = now, status = 'online'` on the row with this key. */
  function UpdateServerLastSeen(db: Db, id: nat, now: Time): (r: Db)
    ensures r == db.(servers := r.servers)
    ensures |r.servers| == |db.servers|
    ensures forall i :: 0 <= i < |r.servers| ==>
      r.servers[i] == if db.servers[i].id == id then db.servers[i].(lastSeen := Some(now), status := Online) else db.servers[i]
  {
    db.(servers := UpdateServers(db.servers, id, (s: Server) => s.(lastSeen := Some(now), status := Online)))
  }

  /** UpdateServerStatus: only `status`, only on the row with this key. */
  function UpdateServerStatus(db: Db, id: nat, status: string): (r: Db)
    ensures r == db.(servers := r.servers)
    ensures |r.servers| == |db.servers|
    ensures forall i :: 0 <= i < |r.servers| ==>
      r.servers[i] == if db.servers[i].id == id then db.servers[i].(status := status) else db.servers[i]
  {
    db.(servers := UpdateServers(db.servers, id, (s: Server) => s.(status := status)))
  }

  /** `Save(server)` after a rename: the row with this key gets the new name. */
  function SaveServerName(db: Db, id: nat, name: string): (r: Db)
    ensures r == db.(servers := r.servers)
    ensures |r.servers| == |db.servers|
    ensures forall i :: 0 <= i < |r.servers| ==>
      r.servers[i] == if db.servers[i].id == id then db.servers[i].(name := name) else db.servers[i]
  {
    db.(servers := UpdateServers(db.servers, id, (s: Server) => s.(name := name)))
  }

  /** The status recorded for a server key, if the row exists. */
  function StatusOf(db: Db, id: nat): Option<string>
  {
    match GetServerById(db, id)
    case Ok(s) => Some(s.status)
    case Err(_) => None
  }

  lemma {:induction false} FirstOfUpdate(servers: seq<Server>, id: nat, f: Server -> Server)
    requires forall s :: f(s).id == s.id
    ensures First(UpdateServers(servers, id, f), HasId(id)) ==
      (match First(servers, HasId(id)) case Some(s) => Some(f(s)) case None => None)
  {
    if |servers| > 0 {
      var u := UpdateServers(servers, id, f);
      assert u[1..] == UpdateServers(servers[1..], id, f);
      FirstOfUpdate(servers[1..], id, f);
    }
  }

  /** Every server update preserves the table invariants (keys and tokens are kept). */
  lemma UpdateServersValid(db: Db, id: nat, f: Server -> Server)
    requires Valid(db)
    requires forall s :: f(s).id == s.id && f(s).token == s.token
    ensures Valid(db.(servers := UpdateServers(db.servers, id, f)))
  {
  }

  // ---------------------------------------------------------------- metrics

  /** `Create(metric)`: the row gets the next key. */
  function CreateMetric(db: Db, m: Metric): (r: (Db, Metric))
    ensures r.1 == m.(id := db.nextMetricId)
    ensures r.0 == db.(metrics := db.metrics + [r.1], nextMetricId := db.nextMetricId + 1)
  {
    var row := m.(id := db.nextMetricId);
    (db.(metrics := db.metrics + [row], nextMetricId := db.nextMetricId + 1), row)
  }

  function MetricOfServerSince(id: nat, since: Time): Metric -> bool
  {
    (m: Metric) => m.serverId == id && m.time >= since
  }

  function MetricOfServer(id: nat): Metric -> bool
  {
    (m: Metric) => m.serverId == id
  }

  /** GetServerMetrics: `WHERE server_id = ? AND time >= ? ORDER BY time DESC` */
  function GetServerMetrics(db: Db, id: nat, since: Time): (r: seq<Metric>)
    ensures SortedDesc(r, MetricTime)
    ensures forall i :: 0 <= i < |r| ==> r[i] in db.metrics && r[i].serverId == id && r[i].time >= since
    ensures multiset(r) == multiset(Filter(db.metrics, MetricOfServerSince(id, since)))
  {
    var rows := Filter(db.metrics, MetricOfServerSince(id, since));
    var r := SortDesc(rows, MetricTime);
    assert forall i :: 0 <= i < |r| ==> r[i] in rows by {
      forall i | 0 <= i < |r| ensures r[i] in rows {
        assert r[i] in multiset(r);
      }
    }
    r
  }

  /** Every stored row of the server at or after `since` is returned. */
  lemma GetServerMetricsComplete(db: Db, id: nat, since: Time, k: nat)
    requires k < |db.metrics| && db.metrics[k].serverId == id && db.metrics[k].time >= since
    ensures db.metrics[k] in GetServerMetrics(db, id, since)
  {
    var rows := Filter(db.metrics, MetricOfServerSince(id, since));
    assert db.metrics[k] in rows;
    assert db.metrics[k] in multiset(GetServerMetrics(db, id, since));
  }

  /** GetLatestMetrics: `WHERE server_id = ? ORDER BY time DESC ... First` */
  function GetLatestMetrics(db: Db, id: nat): (r: Result<Metric, DbError>)
    ensures r.Err? <==> forall i :: 0 <= i < |db.metrics| ==> db.metrics[i].serverId != id
    ensures r.Ok? ==> r.value in db.metrics && r.value.serverId == id
    ensures r.Ok? ==> forall i :: 0 <= i < |db.metrics| && db.metrics[i].serverId == id ==> db.metrics[i].time <= r.value.time
  {
    var rows := Filter(db.metrics, MetricOfServer(id));
    var sorted := SortDesc(rows, MetricTime);
    if |sorted| == 0 then
      Err(RecordNotFound)
    else
      LatestIsNewest(db, id);
      Ok(sorted[0])
  }

  /** The head of the server's rows ordered newest first is a row of that server, and no
      row of the server is newer. */
  lemma LatestIsNewest(db: Db, id: nat)
    requires |SortDesc(Filter(db.metrics, MetricOfServer(id)), MetricTime)| > 0
    ensures var sorted := SortDesc(Filter(db.metrics, MetricOfServer(id)), MetricTime);
      && sorted[0] in db.metrics && sorted[0].serverId == id
      && forall i :: 0 <= i < |db.metrics| && db.metrics[i].serverId == id ==> db.metrics[i].time <= sorted[0].time
  {
    var rows := Filter(db.metrics, MetricOfServer(id));
    var sorted := SortDesc(rows, MetricTime);
    assert sorted[0] in multiset(sorted);
    forall i | 0 <= i < |db.metrics| && db.metrics[i].serverId == id
      ensures db.metrics[i].time <= sorted[0].time
    {
      assert db.metrics[i] in rows;
      assert db.metrics[i] in multiset(sorted);
      var j :| 0 <= j < |sorted| && sorted[j] == db.metrics[i];
      assert j == 0 || MetricTime(sorted[0]) >= MetricTime(sorted[j]);
    }
  }

  // ---------------------------------------------------------------- alerts

  /** `Create(alert)`: the row gets the next key and `created_at = now`. */
  function CreateAlert(db: Db, a: Alert, now: Time): (r: (Db, Alert))
    ensures r.1 == a.(id := db.nextAlertId, createdAt := now)
    ensures r.0 == db.(alerts := db.alerts + [r.1], nextAlertId := db.nextAlertId + 1)
  {
    var row := a.(id := db.nextAlertId, createdAt := now);
    (db.(alerts := db.alerts + [row], nextAlertId := db.nextAlertId + 1), row)
  }

  lemma CreateRowsValid(db: Db, m: Metric, a: Alert, now: Time)
    requires Valid(db)
    ensures Valid(CreateMetric(db, m).0)
    ensures Valid(CreateAlert(db, a, now).0)
  {
    AppendKeyed(db.metrics, CreateMetric(db, m).1, MetricId, db.nextMetricId);
    AppendKeyed(db.alerts, CreateAlert(db, a, now).1, AlertId, db.nextAlertId);
  }

  function AlertOfServer(id: nat): Alert -> bool
  {
    (a: Alert) => a.serverId == id
  }

  function UnresolvedOfServer(id: nat): Alert -> bool
  {
    (a: Alert) => a.serverId == id && !a.resolved
  }

  /** GetServerAlerts: `WHERE server_id = ? ORDER BY created_at DESC`, with `LIMIT`
      applied only when the limit is positive. */
  function GetServerAlerts(db: Db, id: nat, limit: int): (r: seq<Alert>)
    ensures SortedDesc(r, AlertCreatedAt)
    ensures forall i :: 0 <= i < |r| ==> r[i] in db.alerts && r[i].serverId == id
    ensures |r| == if 0 < limit < |Filter(db.alerts, AlertOfServer(id))| then limit else |Filter(db.alerts, AlertOfServer(id))|
    ensures r <= SortDesc(Filter(db.alerts, AlertOfServer(id)), AlertCreatedAt)
    ensures forall i, j :: 0 <= j < |r| <= i < |Filter(db.alerts, AlertOfServer(id))| ==>
      SortDesc(Filter(db.alerts, AlertOfServer(id)), AlertCreatedAt)[i].createdAt <= r[j].createdAt
    ensures limit <= 0 || limit >= |Filter(db.alerts, AlertOfServer(id))| ==>
      multiset(r) == multiset(Filter(db.alerts, AlertOfServer(id)))
  {
    TopDesc(Filter(db.alerts, AlertOfServer(id)), AlertCreatedAt, limit)
  }

  /** GetUnresolvedAlerts: `WHERE server_id = ? AND resolved = false ORDER BY created_at DESC` */
  function GetUnresolvedAlerts(db: Db, id: nat): (r: seq<Alert>)
    ensures SortedDesc(r, AlertCreatedAt)
    ensures forall i :: 0 <= i < |r| ==> r[i] in db.alerts && r[i].serverId == id && !r[i].resolved
    ensures multiset(r) == multiset(Filter(db.alerts, UnresolvedOfServer(id)))
  {
    var rows := Filter(db.alerts, UnresolvedOfServer(id));
    var r := SortDesc(rows, AlertCreatedAt);
    assert forall i :: 0 <= i < |r| ==> r[i] in rows by {
      forall i | 0 <= i < |r| ensures r[i] in rows {
        assert r[i] in multiset(r);
      }
    }
    r
  }

  /** ResolveAlert: `resolved = true` on the row with this key; every other row and field
      is untouched. */
  function ResolveAlert(db: Db, id: nat): (r: Db)
    ensures r == db.(alerts := r.alerts)
    ensures |r.alerts| == |db.alerts|
    ensures forall i :: 0 <= i < |r.alerts| ==>
      r.alerts[i] == if db.alerts[i].id == id then db.alerts[i].(resolved := true) else db.alerts[i]
  {
    db.(alerts := seq(|db.alerts|, i requires 0 <= i < |db.alerts| =>
      if db.alerts[i].id == id then db.alerts[i].(resolved := true) else db.alerts[i]))
  }

  lemma ResolveAlertIdempotent(db: Db, id: nat)
    ensures ResolveAlert(ResolveAlert(db, id), id) == ResolveAlert(db, id)
  {
    var once := ResolveAlert(db, id);
    var twice := ResolveAlert(once, id);
    assert twice.alerts == once.alerts;
  }

  // ---------------------------------------------------------------- deletion

  function NotOfServerMetric(id: nat): Metric -> bool
  {
    (m: Metric) => m.serverId != id
  }

  function NotOfServerAlert(id: nat): Alert -> bool
  {
    (a: Alert) => a.serverId != id
  }

  function NotServer(id: nat): Server -> bool
  {
    (s: Server) => s.id != id
  }

  /** `DELETE FROM metrics WHERE server_id = ?` */
  function DeleteMetricsOf(db: Db, id: nat): Db
  {
    db.(metrics := Filter(db.metrics, NotOfServerMetric(id)))
  }

  /** `DELETE FROM alerts WHERE server_id = ?` */
  function DeleteAlertsOf(db: Db, id: nat): Db
  {
    db.(alerts := Filter(db.alerts, NotOfServerAlert(id)))
  }

  /** `Delete(&server)`: by primary key. */
  function DeleteServerRow(db: Db, id: nat): Db
  {
    db.(servers := Filter(db.servers, NotServer(id)))
  }

  lemma DeletionValid(db: Db, id: nat)
    requires Valid(db)
    ensures Valid(DeleteMetricsOf(db, id))
    ensures Valid(DeleteAlertsOf(db, id))
    ensures Valid(DeleteServerRow(db, id))
  {
    FilterKeyed(db.metrics, NotOfServerMetric(id), MetricId, db.nextMetricId);
    FilterKeyed(db.alerts, NotOfServerAlert(id), AlertId, db.nextAlertId);
    FilterKeyed(db.servers, NotServer(id), ServerId, db.nextServerId);
    FilterDistinct(db.servers, NotServer(id));
  }

  lemma {:induction false} FilterDistinct(s: seq<Server>, p: Server -> bool)
    requires DistinctTokens(s)
    ensures DistinctTokens(Filter(s, p))
  {
    if |s| > 0 {
      FilterDistinct(s[1..], p);
      var rest := Filter(s[1..], p);
      forall k | 0 <= k < |rest| ensures rest[k].token != s[0].token {
        var m :| 0 <= m < |s[1..]| && s[1..][m] == rest[k];
        assert s[m + 1] == rest[k];
      }
      if p(s[0]) {
        assert Filter(s, p) == [s[0]] + rest;
        ConsDistinct(s[0], rest);
      } else {
        assert Filter(s, p) == rest;
      }
    }
  }

  lemma ConsDistinct(x: Server, rest: seq<Server>)
    requires DistinctTokens(rest)
    requires forall k :: 0 <= k < |rest| ==> rest[k].token != x.token
    ensures DistinctTokens([x] + rest)
  {
    var f := [x] + rest;
    forall i, j | 0 <= i < j < |f| ensures f[i].token != f[j].token {
      assert f[j] == rest[j - 1];
      if i > 0 {
        assert f[i] == rest[i - 1];
      }
    }
  }
}

=== FILE: wire.dfy ===
/** The JSON shapes exchanged between agent and collector. The agent's SystemMetrics and
    the collector's MetricData have the same fields and JSON names, so one datatype stands
    for both; likewise for the agent's Alert and the collector's AlertData. */
module Wire {
  import opened Wrappers
  import opened Numeric

  datatype CpuInfo = CpuInfo(usage: real, cores: int)
  datatype MemInfo = MemInfo(total: u64, available: u64, used: u64, usedPercent: real)
  datatype DiskInfo = DiskInfo(total: u64, free: u64, used: u64, usedPercent: real)
  datatype NetInfo = NetInfo(bytesSent: u64, bytesRecv: u64, packetsSent: u64, packetsRecv: u64)

  datatype MetricSample = MetricSample(
    timestamp: Time,
    serverName: string,
    cpu: CpuInfo,
    memory: MemInfo,
    disk: DiskInfo,
    network: NetInfo,
    uptime: int)

  datatype AlertInfo = AlertInfo(
    kind: string,
    level: string,
    message: string,
    value: real,
    threshold: real,
    timestamp: Time)

  /** The envelope's `data` field as the collector sees it: an object shaped like a metric
      sample or like an alert, an object whose fields have the wrong JSON types, or a value
      that is not an object at all (null, a string, a number, an array). */
  datatype Payload =
    | MetricsData(sample: MetricSample)
    | AlertData(alert: AlertInfo)
    | IllTyped
    | NotAnObject

  datatype Envelope = Envelope(
    kind: string,
    token: string,
    serverName: string,
    data: Payload,
    timestamp: Time)

  const MetricsKind: string := "metrics"
  const AlertKind: string := "alert"

  const ZeroNet: NetInfo := NetInfo(0, 0, 0, 0)

  const ZeroSample: MetricSample :=
    MetricSample(0, "", CpuInfo(0.0, 0), MemInfo(0, 0, 0, 0.0), DiskInfo(0, 0, 0, 0.0), ZeroNet, 0)

  const ZeroAlert: AlertInfo := AlertInfo("", "", "", 0.0, 0.0, 0)

  /** Decoding `data` into the metric schema. Go's decoder ignores unknown fields and
      leaves missing ones zero, so an alert-shaped object decodes into an all-zero sample
      that keeps only the shared `timestamp`. */
  function DecodeMetrics(p: Payload): (r: Option<MetricSample>)
    ensures r.Some? <==> p.MetricsData? || p.AlertData?
    ensures p.MetricsData? ==> r == Some(p.sample)
    ensures p.AlertData? ==> r.value.timestamp == p.alert.timestamp && r.value.(timestamp := 0) == ZeroSample
  {
    match p
    case MetricsData(m) => Some(m)
    case AlertData(a) => Some(ZeroSample.(timestamp := a.timestamp))
    case IllTyped => None
    case NotAnObject => None
  }

  /** Decoding `data` into the alert schema, with the same leniency. */
  function DecodeAlert(p: Payload): (r: Option<AlertInfo>)
    ensures r.Some? <==> p.MetricsData? || p.AlertData?
    ensures p.AlertData? ==> r == Some(p.alert)
    ensures p.MetricsData? ==> r.value.timestamp == p.sample.timestamp && r.value.(timestamp := 0) == ZeroAlert
  {
    match p
    case AlertData(a) => Some(a)
    case MetricsData(m) => Some(ZeroAlert.(timestamp := m.timestamp))
    case IllTyped => None
    case NotAnObject => None
  }
}

=== FILE: wrappers.dfy ===
/** The failure-carrying datatypes the rest of the model returns in place of Go's
    `(value, error)` pairs and nil pointers. */
module Wrappers {

  datatype Option<+T> = None | Some(value: T)

  datatype Result<+T, +E> = Ok(value: T) | Err(error: E) {
    function ToOption(): Option<T>
    {
      match this
      case Ok(v) => Some(v)
      case Err(_) => None
    }
  }
}
